=== FILE: README.md ===
# SkyForecast core in Dafny

This project models the monthly forecasting engine of SkyForecast, a financial model of the Sky
protocol, and proves properties of that model. It covers five parts.

- **Scenario resolution.** Period names (`q1`..`q4`, `h1`, `h2`, custom periods, numeric strings)
  resolve to months. Trajectories are evaluated by step-hold or linear interpolation. A child
  scenario is merged into its parent. The events list is folded into the changes, impulses and
  agent launches. The inputs of one month are layered in this order: baseline, trajectories,
  cumulative changes, this month's impulse.
- **Core primitives.** Rates derived from SOFR and spreads; binary agent activity and agent
  valuations; USDS and sUSDS supply; monthly revenue at one twelfth of the annual flows; the
  treasury (TMF) waterfall; the end-of-period snapshot.
- **The ten extensions.** PSM exposure, subsidised borrowing, srUSDS cost, core vaults, USDT
  subsidy, token farming, genesis primes, agent creation fees, genesis capital phase-out and
  genesis capital spending. Each has its defaults, its enabled flag and its error cases.
- **One month of the engine.** Rates; a first extension pass that sets PSM exposure aside;
  agents; supply with the extension boost; PSM exposure on the resulting supply; revenue with the
  extension adjustments; the waterfall.
- **A scenario run.** Every month from 1 to the horizon. The displayed backstop is carried from
  month to month for the genesis capital phase-out. Then come the quarterly and annual totals.

Amounts are exact `real`s and months are `int`s. The source's exceptions become the `Failure`
arm of a `Result`:

- a period name that does not resolve;
- an empty trajectory or an unknown trajectory mode;
- a missing parent, or an inheritance chain deeper than the fuel;
- a division by zero, in the supply or in genesis capital spending.

Mutable extension state (the genesis capital phase-out) is threaded through the months as a
value. The month loop is written once, over any month step. Two lemmas then show that the
engine's month is such a step.

One module per source file:

- `periods`, `trajectories`, `monthinputs`, `monthtables` and `scenarios` model the resolver;
- `rates`, `agents`, `supply`, `revenue`, `waterfall` and `snapshots` model the core;
- `extbase` and one file per extension model the extensions;
- `catalogue`, `engine` and `scenariorun` model the engine.

`wrappers`, `inputs` and `keys` hold the result type, the input bag (an absent input reads as
zero) and lemmas about the extremes of finite sets.

## Model

| member | source | states |
|---|---|---|
| Periods.ParseInt | forecast_model/src/skyforecast/loaders/resolver.py:34-38 | Surrounding whitespace is ignored. The rest parses exactly when it is an optional sign and a run of decimal digits, with single underscores only between digits. The value is that of the digits without underscores, negated after a minus sign |
| Periods.ParseIntRoundTrip | forecast_model/src/skyforecast/loaders/resolver.py:35-36 | Parsing inverts decimal rendering: every integer written out reads back as itself |
| Periods.ParseIntIgnoresSpace | forecast_model/src/skyforecast/loaders/resolver.py:35-36 | Adding a whitespace character before or after a string never changes how it parses |
| Periods.ParseIntPlusSign | forecast_model/src/skyforecast/loaders/resolver.py:35-36 | "+7" parses as 7 |
| Periods.ParseIntLeadingZeros | forecast_model/src/skyforecast/loaders/resolver.py:35-36 | "007" parses as 7 |
| Periods.ParseIntUnderscores | forecast_model/src/skyforecast/loaders/resolver.py:35-36 | "1_000" parses as 1000 |
| Periods.ParseIntMisplacedUnderscores | forecast_model/src/skyforecast/loaders/resolver.py:35-38 | "_1", "1_" and "1__0" do not parse |
| Periods.DigitsUntouched | forecast_model/src/skyforecast/loaders/resolver.py:35-36 | A non-empty string of plain digits is already stripped and is its own digit run |
| Periods.ResolvePeriodName | forecast_model/src/skyforecast/loaders/resolver.py:22-38 | An integer stands for itself. A custom period name gives its first month, else a built-in name gives its first month. Any other string succeeds exactly when it parses as an integer, with that integer; otherwise it fails as an unknown period |
| Periods.BuiltinPeriodsFirstMonth | forecast_model/src/skyforecast/loaders/resolver.py:12-33 | Without custom overrides, q1..q4 resolve to months 1, 4, 7, 10, and h1, h2 to months 1, 7 |
| Periods.CustomPeriodWins | forecast_model/src/skyforecast/loaders/resolver.py:29-31 | A custom period shadows a built-in or numeric name of the same spelling |
| Periods.NumericNameResolves | forecast_model/src/skyforecast/loaders/resolver.py:34-36 | A numeric string that is not a period name resolves to the integer it spells |
| Periods.NumeralNotBuiltin | forecast_model/src/skyforecast/loaders/resolver.py:12-19 | No string starting with a minus sign or a digit is a built-in period name |
| Trajectories.TrajectoryValue | forecast_model/src/skyforecast/loaders/resolver.py:41-88 | An empty trajectory fails. An unknown mode fails exactly when the month lies strictly inside the control points |
| Trajectories.TrajectoryClamps | forecast_model/src/skyforecast/loaders/resolver.py:52-58 | At or before the first point, and at or after the last, the value is that point's, in every mode |
| Trajectories.TrajectoryBetween | forecast_model/src/skyforecast/loaders/resolver.py:60-85 | Between adjacent points p <= month < n, step mode holds p's value and linear mode interpolates between p and n |
| Trajectories.InterpolateBetween | forecast_model/src/skyforecast/loaders/resolver.py:84-85 | Interpolation stays between the two endpoint values and meets each endpoint at its month |
| Trajectories.InterpolateMidpoint | forecast_model/src/skyforecast/loaders/resolver.py:84-85 | At the midpoint of two months the interpolated value is the average of the endpoint values |
| Trajectories.LinearStaysBetweenNeighbours | forecast_model/src/skyforecast/loaders/resolver.py:60-85 | A linear trajectory between adjacent points takes a value between theirs |
| Trajectories.LinearMidpoint | forecast_model/src/skyforecast/loaders/resolver.py:80-85 | Half-way between adjacent points, a linear trajectory yields the average of their values |
| Trajectories.StepTakesPointValues | forecast_model/src/skyforecast/loaders/resolver.py:52-78 | A non-empty step trajectory always succeeds, with the value of one of its control points |
| MonthInputs.Overlay | forecast_model/src/skyforecast/loaders/resolver.py:125-128 | Layering change maps in ascending month order: a field is present iff some month sets it, with the value of the latest such month |
| MonthInputs.ResolveMonthInputs | forecast_model/src/skyforecast/loaders/resolver.py:103-134 | Resolution fails, with an invalid-trajectory error, exactly when some trajectory cannot be evaluated at the month |
| MonthInputs.MonthInputsPrecedence | forecast_model/src/skyforecast/loaders/resolver.py:110-134 | Per field: this month's impulse wins, then the latest change at or before the month, then the trajectory, then the baseline. A field is present iff some layer provides it |
| MonthInputs.ImpulsesStayInTheirMonth | forecast_model/src/skyforecast/loaders/resolver.py:130-132 | Impulses of other months never affect this month's inputs |
| MonthTables.Upsert | forecast_model/src/skyforecast/loaders/resolver.py:147-151 | Merging into a token's entry: the token gains the new fields (which win), and other tokens are unchanged |
| MonthTables.UpsertDistinct | forecast_model/src/skyforecast/loaders/resolver.py:147-151 | Merging into a section with distinct tokens keeps the tokens distinct |
| MonthTables.MergeTablesLookup | forecast_model/src/skyforecast/loaders/resolver.py:146-158 | A merged section combines parent and child token by token: child fields override, and a token in only one side keeps its entry |
| MonthTables.ResolveAll | forecast_model/src/skyforecast/loaders/resolver.py:96-98 | Every token resolves in order. Succeeds exactly when every token resolves. A failure carries the error of the first token that does not resolve |
| MonthTables.ResolveTokensSucceed | forecast_model/src/skyforecast/loaders/resolver.py:96-98 | Resolving a section token by token succeeds exactly when every token resolves, and then holds each token's own month in its place |
| MonthTables.ResolveTokensFail | forecast_model/src/skyforecast/loaders/resolver.py:96-98 | A failed token-by-token resolution reports the error of the earliest token that does not resolve |
| MonthTables.NormalizeMonthDict | forecast_model/src/skyforecast/loaders/resolver.py:91-100 | Normalisation succeeds exactly when every token resolves, and otherwise fails with the error of the first token that does not |
| MonthTables.AssignLastWins | forecast_model/src/skyforecast/loaders/resolver.py:97-99 | Storing entries under months keeps exactly the listed months, each with the entry of its last position |
| MonthTables.NormalizeLastWins | forecast_model/src/skyforecast/loaders/resolver.py:91-100 | A normalised section holds exactly the months its tokens resolve to. A month reached by several tokens carries the last one's entry |
| MonthTables.TableOf | forecast_model/src/skyforecast/loaders/resolver.py:274-275 | A resolved month map written back as a section has distinct month keys, each carrying its map entry, and covers every month |
| MonthTables.NormalizeTableOf | forecast_model/src/skyforecast/loaders/resolver.py:266-290 | Normalising a section written back from a month map recovers the map, whatever the named periods (round trip) |
| Scenarios.MergeScenarios | forecast_model/src/skyforecast/loaders/resolver.py:137-177 | Child description and horizon win unless empty or zero. Baselines, trajectories, launches and periods are united with the child winning: a trajectory only the parent has is kept as the parent's. The built-in periods are kept. Parent events come first |
| Scenarios.MergedChangesCombine | forecast_model/src/skyforecast/loaders/resolver.py:146-158 | A merged scenario's changes and impulses combine parent and child per token, with child fields winning |
| Scenarios.ApplyEvent | forecast_model/src/skyforecast/loaders/resolver.py:192-209 | An event fails exactly when its month does not resolve. A set event merges into changes and an impulse event into impulses, creating an empty entry even without values. A launch records the month, and is ignored without an agent name |
| Scenarios.ProcessEvents | forecast_model/src/skyforecast/loaders/resolver.py:180-211 | Processing succeeds exactly when every event's month resolves. A failure carries the error of the first event whose month does not resolve |
| Scenarios.ApplyEventsSucceed | forecast_model/src/skyforecast/loaders/resolver.py:192-209 | Applying the events one by one succeeds exactly when every event's month resolves |
| Scenarios.ApplyEventsFail | forecast_model/src/skyforecast/loaders/resolver.py:192-209 | A failed application reports the error of the earliest event whose month does not resolve |
| Scenarios.ProcessEventsAppend | forecast_model/src/skyforecast/loaders/resolver.py:192-209 | Processing a + b is processing a, then b from where a left off |
| Scenarios.LaterSetEventWins | forecast_model/src/skyforecast/loaders/resolver.py:195-199 | After processing, a field of a month's changes holds the value of the last set event of that month that carries the field |
| Scenarios.AsConfig | forecast_model/src/skyforecast/loaders/resolver.py:266-276 | A resolved parent becomes a config with the same name, baseline, trajectories and launch months, no parent and no events |
| Scenarios.ResolveLaunches | forecast_model/src/skyforecast/loaders/resolver.py:283-286 | Launch tokens resolve per agent. The map fails exactly when some token fails, and otherwise keeps the same agents |
| Scenarios.ResolveFlat | forecast_model/src/skyforecast/loaders/resolver.py:279-307 | Succeeds exactly when the launches, change and impulse tokens and event months all resolve, an unresolved launch failing first. Keeps name, description, horizon, baseline and trajectories. Periods are the custom periods over the built-ins. Changes, impulses and launches are the resolved sections with the events folded in |
| Scenarios.ResolveScenario | forecast_model/src/skyforecast/loaders/resolver.py:250-307 | Without a parent, flat resolution. A missing parent or exhausted fuel fails. A success keeps the child's name |
| Scenarios.GetMonthInputs | forecast_model/src/skyforecast/loaders/resolver.py:239-247 | A month's inputs fail exactly when some trajectory is undefined at that month |
| Scenarios.InheritedResolution | forecast_model/src/skyforecast/loaders/resolver.py:261-307 | A child with a known parent resolves as the flat resolution of the parent, written back as a config, merged with the child. A parent that fails fails the child with the same error |
| Scenarios.SelfExtendingFails | forecast_model/src/skyforecast/loaders/resolver.py:262-264 | A scenario extending itself never resolves, whatever the fuel |
| Scenarios.InheritedBaseline | forecast_model/src/skyforecast/loaders/resolver.py:262-277 | A resolved child's baseline is its parent's baseline overridden by its own |
| Rates.DeriveRates | forecast_model/src/skyforecast/core/rates.py:31-39 | The savings rate is SOFR plus its spread. Gross rate and farm yield are the savings rate plus theirs |
| Rates.DeriveRatesInvertible | forecast_model/src/skyforecast/core/rates.py:31-39 | The spreads can be recovered from the derived rates (derivation loses nothing) |
| Rates.DeriveRatesSurjective | forecast_model/src/skyforecast/core/rates.py:31-39 | Every rate set is derived from the spreads recovered from it |
| Rates.DeriveRatesExample | forecast_model/src/skyforecast/core/rates.py:31-39 | SOFR 4% with spreads 0.5%, 1%, 0.1% gives savings 4.5%, gross 5.5% and farm yield 4.6% |
| Agents.IsAgentActive | forecast_model/src/skyforecast/core/agents.py:19-23 | Active iff 0 < launch month <= current month |
| Agents.LaunchBoundaryInclusive | forecast_model/src/skyforecast/core/agents.py:19-23 | Launched in month 6: inactive in month 5, active in month 6 |
| Agents.ReferenceAgentHasRatioOne | forecast_model/src/skyforecast/core/agents.py:31-33 | The reference agent (no ratio) is valued as an agent with market cap ratio one |
| Agents.AgentValue | forecast_model/src/skyforecast/core/agents.py:26-33 | An agent is valued at the reference market cap times its market cap ratio (one when absent) times its ownership |
| Agents.AgentValueLinear | forecast_model/src/skyforecast/core/agents.py:26-33 | An agent's value scales linearly with the reference market cap |
| Agents.LaunchOf | forecast_model/src/skyforecast/core/agents.py:52 | An agent missing from the launch map reads as launch month zero |
| Agents.AggregateActiveAgents | forecast_model/src/skyforecast/core/agents.py:36-60 | With no active agent both totals are zero. With only sell agents the farm total is zero, and with only farm agents the sell total is zero |
| Agents.AggregateSingle | forecast_model/src/skyforecast/core/agents.py:52-58 | One agent puts its value on the farm total when it is an active farm agent, on the sell total when it is an active sell agent, and nothing anywhere when it is inactive. With AggregateAppend this fixes both totals of every list |
| Agents.AggregateAppend | forecast_model/src/skyforecast/core/agents.py:36-60 | Aggregation distributes over concatenation of the agent list |
| Agents.AggregateNoneActive | forecast_model/src/skyforecast/core/agents.py:48-60 | With no active agent the running totals are both zero |
| Agents.AggregateNonNegative | forecast_model/src/skyforecast/core/agents.py:48-60 | With non-negative agent values both totals are non-negative |
| Agents.AggregateByType | forecast_model/src/skyforecast/core/agents.py:55-58 | Sell agents never reach the farm total and farm agents never reach the sell total |
| Agents.AggregateMonotoneInMonth | forecast_model/src/skyforecast/core/agents.py:51-58 | With non-negative values, both totals never decrease as months advance |
| Supply.CalculateSupply | forecast_model/src/skyforecast/core/supply.py:33-48 | Farm USDS times farm yield is farmable tokens times emission rate. USDS is base plus farm USDS. sUSDS plus unrewarded USDS is USDS |
| Supply.SusdsIndependentOfFarming | forecast_model/src/skyforecast/core/supply.py:39-41 | sUSDS is base USDS less the users' unrewarded USDS: farming cancels out |
| Supply.NoFarmingNoBoost | forecast_model/src/skyforecast/core/supply.py:35-39 | Without farmable tokens there is no farm USDS and the USDS supply is the base |
| Supply.SupplyMonotoneInFarmable | forecast_model/src/skyforecast/core/supply.py:35-39 | With positive yield and non-negative emissions, more farmable tokens never lower the USDS supply |
| Revenue.CalculateRevenue | forecast_model/src/skyforecast/core/revenue.py:44-80 | Token sales, the interest part of gross revenue, savings and rewards are each one twelfth of the annual flow. Net revenue is gross less savings and rewards plus the pass-through items |
| Revenue.NetRevenueAnnualised | forecast_model/src/skyforecast/core/revenue.py:44-72 | Twelve months of net revenue (without pass-throughs) are the annual spread income |
| Revenue.NoTiersNoRewards | forecast_model/src/skyforecast/core/revenue.py:55-64 | With every tier ratio zero there are no distribution rewards |
| Revenue.ZeroInZeroOut | forecast_model/src/skyforecast/core/revenue.py:44-80 | All-zero supply, tokens and pass-throughs give all-zero outputs (no floors or fees) |
| Revenue.NoSpreadNoNet | forecast_model/src/skyforecast/core/revenue.py:44-72 | When all supply is sUSDS and the gross rate equals savings plus rewards, net revenue is zero |
| Waterfall.CalculateWaterfall | forecast_model/src/skyforecast/core/waterfall.py:28-47 | Security, contribution and staking sum to net revenue. Profit is what remains after security. The withdrawal only lowers the net backstop change |
| Waterfall.WithdrawalIndependence | forecast_model/src/skyforecast/core/waterfall.py:30-37 | Changing the withdrawal changes only the echoed withdrawal and the net backstop change |
| Waterfall.LossesFlowThrough | forecast_model/src/skyforecast/core/waterfall.py:30-37 | With rates in [0, 1], a loss yields non-positive security, contribution and staking (no floors) |
| Snapshots.CalculateEndSnapshot | forecast_model/src/skyforecast/core/snapshots.py:20-50 | End farmable value is every launched farm agent at full value. End farm USDS times yield is farmable times emissions. End supply is base plus farm USDS |
| Snapshots.EndFarmableIsLateMonthFarmable | forecast_model/src/skyforecast/core/snapshots.py:35-41 | The end farmable value equals the monthly farm total of any month by which every agent has launched |
| Snapshots.UnlaunchedAgentsExcluded | forecast_model/src/skyforecast/core/snapshots.py:37-41 | Agents absent from the launch map never reach the snapshot |
| ExtensionBase.BaseCalculate | forecast_model/src/skyforecast/extensions/base.py:38-54 | The base extension touches nothing, whatever the month, inputs and rates |
| ExtensionBase.NoEffectIsTheOnlyInert | forecast_model/src/skyforecast/extensions/base.py:9-23 | The default results are the only results that touch nothing at all |
| Psm.PsmAmount | forecast_model/src/skyforecast/extensions/psm_exposure.py:33-42 | A positive share gives share times total USDS. Otherwise the amount is the psm_amount input, else the configured amount, else zero |
| Psm.Calculate | forecast_model/src/skyforecast/extensions/psm_exposure.py:22-64 | Only gross revenue is touched. Disabled or no positive amount: no effect. Otherwise twelve months of the drag forgo the gross rate over the PSM rate on the amount |
| Psm.ShareIgnoresFixedAmount | forecast_model/src/skyforecast/extensions/psm_exposure.py:35-42 | With a positive share, the fixed psm_amount input is ignored |
| Psm.NoGapNoDrag | forecast_model/src/skyforecast/extensions/psm_exposure.py:47-54 | When the PSM earns the gross rate there is no drag |
| Psm.DragGrowsWithSupply | forecast_model/src/skyforecast/extensions/psm_exposure.py:36-54 | With a positive share and a PSM rate at most the gross rate, more supply never lessens the drag |
| SubsidizedBorrow.Decay | forecast_model/src/skyforecast/extensions/subsidized_borrow.py:40-41 | Inside the window the decay factor lies in [0, 1) |
| SubsidizedBorrow.DecayGrows | forecast_model/src/skyforecast/extensions/subsidized_borrow.py:36-41 | The decay factor never decreases from one window month to a later one |
| SubsidizedBorrow.Calculate | forecast_model/src/skyforecast/extensions/subsidized_borrow.py:22-60 | Only costs are touched. Outside the window or disabled: no effect. Inside: the gap between gross rate and subsidised rate on the amount, for a month |
| SubsidizedBorrow.FirstMonthFullSpread | forecast_model/src/skyforecast/extensions/subsidized_borrow.py:40-50 | In the first window month the subsidy covers the whole spread of the gross rate over SOFR |
| SubsidizedBorrow.CostDecays | forecast_model/src/skyforecast/extensions/subsidized_borrow.py:40-50 | With non-negative amount and spread, the reimbursement never grows through the window |
| SubsidizedBorrow.NoDurationNoSubsidy | forecast_model/src/skyforecast/extensions/subsidized_borrow.py:35-38 | A non-positive duration means no subsidy in any month, and no division |
| SrusdsCost.Calculate | forecast_model/src/skyforecast/extensions/srusds_cost.py:19-37 | Only costs are touched. When enabled, twelve monthly costs are the annual cost (default 5M) |
| SrusdsCost.CostIsConstant | forecast_model/src/skyforecast/extensions/srusds_cost.py:28-29 | The cost depends on the configuration alone, not on month, inputs or rates |
| CoreVaults.Calculate | forecast_model/src/skyforecast/extensions/core_vaults.py:22-51 | Only gross revenue is touched. Without positive debt: no effect. Otherwise twelve months are the vault rate's excess over the gross rate on the debt |
| CoreVaults.InputsOverrideConfig | forecast_model/src/skyforecast/extensions/core_vaults.py:31-33 | Inputs naming both debt and rate make the configuration irrelevant |
| CoreVaults.BenefitSign | forecast_model/src/skyforecast/extensions/core_vaults.py:38-44 | The adjustment has the sign of the vault rate's premium over the gross rate |
| UsdtSubsidy.Calculate | forecast_model/src/skyforecast/extensions/usdt_subsidy.py:22-56 | Forgone PSM income is booked as a cost when positive, and as extra gross revenue when negative. Neither side is negative, at most one is non-zero, and gross minus cost is minus the forgone income |
| UsdtSubsidy.NetEffectAnnualised | forecast_model/src/skyforecast/extensions/usdt_subsidy.py:40-51 | Twelve months of the net effect forgo the PSM rate on the amount for a year |
| UsdtSubsidy.ZeroPsmRateNoEffect | forecast_model/src/skyforecast/extensions/usdt_subsidy.py:40-51 | A zero PSM rate forgoes nothing |
| TokenFarming.SparkConfigCap | forecast_model/src/skyforecast/extensions/token_farming.py:46-50 | Spark's configured cap is that of the first star named spark, or zero when there is none |
| TokenFarming.Calculate | forecast_model/src/skyforecast/extensions/token_farming.py:23-95 | Only supply is touched. Disabled or non-positive farm yield: no effect. Otherwise the boost times the farm yield is twelve times the month's distribution when that is positive, and zero otherwise |
| TokenFarming.TotalDistributionAppend | forecast_model/src/skyforecast/extensions/token_farming.py:52-75 | The distribution of concatenated star lists is the sum of theirs |
| TokenFarming.IdleStarsDistributeNothing | forecast_model/src/skyforecast/extensions/token_farming.py:56-58 | Stars outside their distribution window contribute nothing |
| TokenFarming.SparkOnlyExample | forecast_model/src/skyforecast/extensions/token_farming.py:23-95 | Spark alone at 250M and 65% owned, savings rate 4%, defaults otherwise: the month-1 supply boost |
| GenesisPrime.Calculate | forecast_model/src/skyforecast/extensions/genesis_prime.py:23-73 | Only gross revenue is touched. When enabled it is the primes' token sales, with Spark's cap from the inputs only |
| GenesisPrime.TotalSalesAppend | forecast_model/src/skyforecast/extensions/genesis_prime.py:41-62 | The sales of concatenated prime lists are the sum of theirs |
| GenesisPrime.SalesNeverEnd | forecast_model/src/skyforecast/extensions/genesis_prime.py:42-47 | Once launched, a prime sells the same amount every month (no end date) |
| GenesisPrime.ObexBeforeLaunch | forecast_model/src/skyforecast/extensions/genesis_prime.py:45-47 | Obex launching in month 11 sells nothing in month 10 |
| GenesisPrime.ObexAtLaunch | forecast_model/src/skyforecast/extensions/genesis_prime.py:49-59 | Obex in its launch month: 60% of Spark's 430M, 70% owned, 17.5% a year, one month of it |
| AgentCreationFee.AgentCap | forecast_model/src/skyforecast/extensions/agent_creation_fee.py:57-62 | small is 50M and large is 150M. Any other type uses the explicit cap, else zero |
| AgentCreationFee.Calculate | forecast_model/src/skyforecast/extensions/agent_creation_fee.py:33-89 | Only gross revenue is touched. When enabled it is the created agents' token sales |
| AgentCreationFee.TotalSalesAppend | forecast_model/src/skyforecast/extensions/agent_creation_fee.py:50-78 | The sales of concatenated agent lists are the sum of theirs |
| AgentCreationFee.OwnershipIrrelevant | forecast_model/src/skyforecast/extensions/agent_creation_fee.py:64-75 | Sky's ownership share plays no part in the sales |
| AgentCreationFee.SmallAgentExample | forecast_model/src/skyforecast/extensions/agent_creation_fee.py:18-75 | A launched small agent sells 1% of 50M a year by default, one month of it |
| GenesisCapital.TotalRemaining | forecast_model/src/skyforecast/extensions/genesis_capital.py:99-105 | The genesis capital remaining, each star floored at zero, is never negative |
| GenesisCapital.WholeSteps | forecast_model/src/skyforecast/extensions/genesis_capital.py:73-74 | The whole number of 10M steps of the displayed backstop above the threshold: that many steps fit, one more does not |
| GenesisCapital.PerStar | forecast_model/src/skyforecast/extensions/genesis_capital.py:71-75 | At or above the threshold the per-star amount is the base amount plus the per-10M bonus for each whole 10M step above the threshold. It is at least the base amount, and exactly that within the first 10M |
| GenesisCapital.PerStarExample | forecast_model/src/skyforecast/extensions/genesis_capital.py:71-75 | A 75M displayed backstop with the default thresholds phases out 3M per star |
| GenesisCapital.Calculate | forecast_model/src/skyforecast/extensions/genesis_capital.py:38-116 | Disabled: no effect, and the state is unchanged. Otherwise it reports the capital remaining after the month. Below the threshold nothing is phased out; at or above it every star is phased out in order |
| GenesisCapital.Step | forecast_model/src/skyforecast/extensions/genesis_capital.py:82-95 | An eligible star with capital left grows by the per-star amount capped at what remains, and otherwise not at all. No other name changes |
| GenesisCapital.PhaseStars | forecast_model/src/skyforecast/extensions/genesis_capital.py:77-97 | Names no star carries keep their cumulative phase-out |
| GenesisCapital.StepLocal | forecast_model/src/skyforecast/extensions/genesis_capital.py:82-95 | A star's step depends only on its own cumulative phase-out |
| GenesisCapital.PhaseoutPerStar | forecast_model/src/skyforecast/extensions/genesis_capital.py:77-97 | With distinct names, each star grows by min(per-star amount, remaining) when eligible with capital left, else not at all |
| GenesisCapital.PhaseoutMonotone | forecast_model/src/skyforecast/extensions/genesis_capital.py:91-95 | With a non-negative per-star amount, no cumulative phase-out decreases |
| GenesisCapital.TotalRemainingAntitone | forecast_model/src/skyforecast/extensions/genesis_capital.py:99-105 | More phase-out for every star means no more capital remaining |
| GenesisCapital.RemainingNonIncreasing | forecast_model/src/skyforecast/extensions/genesis_capital.py:55-105 | With non-negative amounts, a month never increases the genesis capital remaining |
| GenesisCapital.PhaseoutCappedAtCapital | forecast_model/src/skyforecast/extensions/genesis_capital.py:86-95 | A star's phase-out never passes its capital |
| GenesisCapital.InitialRemaining | forecast_model/src/skyforecast/extensions/genesis_capital.py:55-60 | Before any phase-out, with non-negative capitals, the remaining capital is the configured total |
| GenesisSpending.Calculate | forecast_model/src/skyforecast/extensions/genesis_capital_spending.py:19-59 | Fails with division by zero exactly when enabled, at or after the start, with a window of zero months. Otherwise only the outflow is touched: the equal share inside the window, nothing outside |
| GenesisSpending.CumulativeOutflow | forecast_model/src/skyforecast/extensions/genesis_capital_spending.py:49-51 | Inside the window, the outflow so far is the total times the elapsed share of the window |
| GenesisSpending.NothingAfterWindow | forecast_model/src/skyforecast/extensions/genesis_capital_spending.py:43-47 | After the window nothing more flows out |
| GenesisSpending.OutflowsSumToTotal | forecast_model/src/skyforecast/extensions/genesis_capital_spending.py:38-51 | Over a horizon reaching the window's end, the outflows add up to the configured total |
| Catalogue.CreateExtensions | forecast_model/src/skyforecast/engine.py:127-133 | At most one instance per spec. Every instance is enabled, registered and fresh |
| Catalogue.CreateExtensionsAppend | forecast_model/src/skyforecast/engine.py:129-133 | Creation filters each part of a concatenated configuration and keeps the order |
| Catalogue.CreateExtensionsSelects | forecast_model/src/skyforecast/engine.py:130-132 | An instance with given parameters exists iff a registered, enabled spec carries them |
| Catalogue.ResetExtension | forecast_model/src/skyforecast/extensions/genesis_capital.py:118-121 | Reset clears the genesis capital phase-out and leaves every other instance as it was |
| Catalogue.ResetFreshIsIdentity | forecast_model/src/skyforecast/engine.py:303-308 | Resetting freshly created instances changes nothing |
| Catalogue.CalculateExtension | forecast_model/src/skyforecast/engine.py:175-179 | Each instance gets the results of its own extension's calculation on the month's inputs and rates. Genesis capital alone is given the displayed backstop and hands back its new phase-out. Spending alone can fail, with its own error. An unregistered name has no effect. Genesis capital reports remaining capital iff enabled, and none reports an aggregate backstop |
| Catalogue.NameTellsRegistration | forecast_model/src/skyforecast/engine.py:127-133 | For a well-named configuration, the key says whether an extension is registered: unregistered exactly when its name is outside the registry |
| Catalogue.DisabledContributesNothing | forecast_model/src/skyforecast/extensions/base.py:34-36 | A disabled instance contributes nothing and cannot fail |
| Engine.RunPass1 | forecast_model/src/skyforecast/engine.py:160-187 | The first pass fails, with division by zero, exactly when some extension divides by zero. It hands back the same extensions |
| Engine.Pass1Single | forecast_model/src/skyforecast/engine.py:169-183 | A pass over one instance holds that instance's own contribution |
| Engine.Pass1Totals | forecast_model/src/skyforecast/engine.py:169-183 | Each of the four pass figures is the sum, over every instance but PSM exposure, of that instance's result on the month's inputs and the displayed backstop |
| Engine.Pass1Instances | forecast_model/src/skyforecast/engine.py:169-187 | The pass hands on a PSM instance unchanged and every other instance as its own calculation leaves it |
| Engine.Accumulate | forecast_model/src/skyforecast/engine.py:180-187 | Each pass total grows by the extension's own figure. A reported tracker replaces the earlier one, and an absent one keeps it. The instance is appended and the PSM instance kept |
| Engine.Pass1Trackers | forecast_model/src/skyforecast/engine.py:169-187 | The pass sets aside the last PSM instance and reports genesis capital iff an enabled genesis extension is present. It never reports an aggregate backstop |
| Engine.Pass1GenesisLatest | forecast_model/src/skyforecast/engine.py:186-187 | The genesis capital remaining a pass reports is the latest of its instances' reports, taken in order |
| Engine.Pass1Genesis | forecast_model/src/skyforecast/engine.py:175-187 | The genesis capital remaining a pass reports is the figure the last enabled genesis capital instance calculates on this month's inputs and displayed backstop; each report replaces the one before |
| Engine.Pass1Append | forecast_model/src/skyforecast/engine.py:180-183 | The pass totals of a split list are the sums of the parts' totals |
| Engine.Pass1SkipsPsm | forecast_model/src/skyforecast/engine.py:171-174 | PSM instances contribute nothing to the first pass |
| Engine.PsmGross | forecast_model/src/skyforecast/engine.py:208-213 | No drag without an enabled PSM instance. The amount held is the positive share of the month's supply, else the fixed amount. With no positive amount there is no drag; otherwise twelve months of the drag forgo the gross rate for the PSM rate on that amount |
| Engine.CompleteMonth | forecast_model/src/skyforecast/engine.py:189-272 | The agent totals and the pass totals are reported. USDS is base plus boost plus farm USDS. Gross revenue is the supply interest plus token sales plus the pass's gross adjustment plus the PSM drag on this supply. Savings and the tier rewards are paid on sUSDS. The waterfall splits the adjusted net revenue, and the backstop moves by its contribution less the withdrawal |
| Engine.FinishMonth | forecast_model/src/skyforecast/engine.py:189-272 | Fails exactly on a failed pass or a zero farm yield. Otherwise the month satisfies the month identities |
| Engine.RunMonthFails | forecast_model/src/skyforecast/engine.py:136-272 | A month fails, with division by zero, exactly when an extension divides by zero or the farm yield is zero |
| Engine.RunMonth | forecast_model/src/skyforecast/engine.py:136-272 | A month fails exactly when an extension divides by zero or the farm yield is zero |
| Engine.RunMonthSound | forecast_model/src/skyforecast/engine.py:153-272 | A computed month is the month asked for, at the rates its inputs give, and satisfies the month identities |
| Engine.RunMonthCompletes | forecast_model/src/skyforecast/engine.py:160-272 | A computed month is the month completed from the first pass and this month's agent totals |
| Engine.RunMonthParts | forecast_model/src/skyforecast/engine.py:189-206 | A computed month reports this month's agent totals, the supply on base USDS plus the pass's boost, and the pass's costs, boost and outflows |
| Engine.RunMonthRewards | forecast_model/src/skyforecast/engine.py:215-254 | A computed month pays its tier rewards on its sUSDS, and its backstop moves by the contribution less the withdrawal |
| Engine.RunMonthExtensions | forecast_model/src/skyforecast/engine.py:160-246 | A computed month's boost, costs and outflows are the sums of its non-PSM instances' results on its inputs and displayed backstop. Its gross revenue carries their gross adjustments. Each instance is handed on as its calculation leaves it |
| Engine.RunMonthGross | forecast_model/src/skyforecast/engine.py:208-246 | A computed month's gross revenue is the supply interest plus token sales plus the pass's gross adjustment plus the drag of the last PSM instance on this month's supply |
| Engine.RunMonthKeepsExtensions | forecast_model/src/skyforecast/engine.py:169-187 | A month hands back the same extensions, in order |
| Engine.MonthTrackers | forecast_model/src/skyforecast/engine.py:184-187 | A month reports genesis capital iff an enabled genesis extension runs, and then the figure the last such instance calculates on its inputs and displayed backstop. It never reports an aggregate backstop |
| Engine.NoSpreadNoRevenue | forecast_model/src/skyforecast/engine.py:152-246 | Without extensions or agents, with zero spreads and tiers, a month runs and its net revenue is zero |
| ScenarioRun.InitialGenesisOf | forecast_model/src/skyforecast/engine.py:316-321 | The initial genesis capital is the total capital of the stars of the first genesis capital entry, and zero without one |
| ScenarioRun.SumAppend | forecast_model/src/skyforecast/engine.py:281-288 | Totals split over concatenation of months |
| ScenarioRun.SumBalanced | forecast_model/src/skyforecast/engine.py:355-358 | Totals of balanced months balance: security plus contribution plus staking is net revenue, and profit is contribution plus staking |
| ScenarioRun.AggregateQuarter | forecast_model/src/skyforecast/engine.py:275-290 | Every quarterly measure is the sum over its months. The closing supply is the last month's, or zero for none. The name is "Q" and the number |
| ScenarioRun.QuarterBalanced | forecast_model/src/skyforecast/engine.py:275-290 | A quarter of balanced months balances the same way |
| ScenarioRun.Quarters | forecast_model/src/skyforecast/engine.py:345-352 | The complete quarters among the first twelve months. Quarter q + 1 aggregates months 3q + 1 to 3q + 3 |
| ScenarioRun.QuartersComplete | forecast_model/src/skyforecast/engine.py:347-352 | Quarter q is reported iff its three months were all run |
| ScenarioRun.Summarise | forecast_model/src/skyforecast/engine.py:345-369 | The results carry the scenario's name, description and months, and their quarters. Each annual total is the sum of its measure over the months |
| ScenarioRun.AnnualIsSumOfQuarters | forecast_model/src/skyforecast/engine.py:345-358 | Over twelve months every annual total is the sum of the four quarterly totals |
| ScenarioRun.EngineStepSound | forecast_model/src/skyforecast/engine.py:328-336 | The engine's month, as a loop step, is the month asked for, balances and keeps the extensions |
| ScenarioRun.EngineStepFailure | forecast_model/src/skyforecast/engine.py:328-336 | The engine's month, as a loop step, fails exactly when an extension or the supply divides by zero |
| ScenarioRun.SameExtensionsSameFailures | forecast_model/src/skyforecast/engine.py:306-308 | Whether spending fails depends only on which extensions are configured, not on their state |
| ScenarioRun.AdvanceTotals | forecast_model/src/skyforecast/engine.py:337-343 | Recording a month keeps the carried contributions and outflows running sums, and the carried genesis capital the latest reported |
| ScenarioRun.Advance | forecast_model/src/skyforecast/engine.py:337-343 | Recording a month appends it and takes the new instances. The displayed backstop moves by the month's net backstop change less its outflow, with a reported genesis capital replacing the prior one |
| ScenarioRun.RunThroughState | forecast_model/src/skyforecast/engine.py:323-343 | After n months: n balanced months numbered 1 to n, the same extensions, and running totals of backstop changes, outflows and genesis capital |
| ScenarioRun.RunThroughStep | forecast_model/src/skyforecast/engine.py:323-337 | Month n runs after the first n - 1 iff its inputs resolve and it runs on the extensions they left |
| ScenarioRun.AllRunSameExtensions | forecast_model/src/skyforecast/engine.py:323-337 | Whether the months can run depends only on which extensions are configured |
| ScenarioRun.RunThroughSucceeds | forecast_model/src/skyforecast/engine.py:323-343 | The first n months run iff each of them can run |
| ScenarioRun.RunThroughErrors | forecast_model/src/skyforecast/engine.py:323-343 | A failed run fails with an undefined trajectory or a division by zero |
| ScenarioRun.RunThrough | forecast_model/src/skyforecast/engine.py:323-343 | A run of n months appends exactly n months to those it starts from |
| ScenarioRun.RunThroughLast | forecast_model/src/skyforecast/engine.py:323-343 | Month n of a run is the step on month n's inputs, the instances left by the first n - 1 months and the backstop they display, recorded on their state |
| ScenarioRun.RunThroughPrefix | forecast_model/src/skyforecast/engine.py:323-337 | A shorter run's months are a prefix of a longer run's |
| ScenarioRun.MonthSeesBackstop | forecast_model/src/skyforecast/engine.py:323-343 | Month n is what the step computes for month n on the backstop shown in closed form over the months before it |
| ScenarioRun.MonthOfRun | forecast_model/src/skyforecast/engine.py:323-343 | The same for month n of any longer run, on instances of the configured extensions |
| ScenarioRun.StartStateFresh | forecast_model/src/skyforecast/engine.py:303-321 | A run starts with nothing accrued, on the configured extensions, carrying the initial genesis capital. Month 1 is shown the -65M buffer plus that capital |
| ScenarioRun.ScenarioSucceeds | forecast_model/src/skyforecast/engine.py:293-343 | A scenario runs iff every month of its horizon can run on the configured extensions |
| ScenarioRun.ScenarioErrors | forecast_model/src/skyforecast/engine.py:293-343 | A failed scenario fails with an undefined trajectory or a division by zero |
| ScenarioRun.RunScenario | forecast_model/src/skyforecast/engine.py:293-369 | A run reports the scenario's name and description, one month per horizon month, and the complete quarters of those months |
| ScenarioRun.ScenarioMonth | forecast_model/src/skyforecast/engine.py:323-343 | Month n of a run is the engine's month n on its inputs and on instances of the configured extensions, shown the -65M buffer plus the earlier net backstop changes, less their outflows, plus the latest genesis capital or else the initial one |
| ScenarioRun.ScenarioShape | forecast_model/src/skyforecast/engine.py:293-369 | A run reports the scenario's name and description and one balanced month per horizon month, numbered in order. It reports the complete quarters. Each annual total is the sum over the months, and they balance like each month |
| ScenarioRun.DisplayedBackstopClosedForm | forecast_model/src/skyforecast/engine.py:325-326 | After n months, the backstop the state displays to month n + 1 is the -65M buffer plus all net backstop changes, less all outflows, plus the latest genesis capital |

## Left out

- File and YAML loading, the configuration models and their validation, the report writers and the command line are not modelled. Scenarios and extension configurations are given as values.
- Decimal arithmetic is modelled by exact reals, so there is no rounding, and the monthly factor is exactly one twelfth. `parse_decimal` and the `int(...)` conversions of configuration values are taken as already done.
- The display breakdown dictionaries and `month_name` are not modelled. They feed only the reports.
- Inputs whose value is `None` are not modelled (the input bag maps names to numbers). Error messages and exception types collapse into a small error datatype.
- `agents_from_config` is not modelled: it only copies fields. Agents are given as definitions.
- `process_events` mutates entries it shares with its input dictionaries in place. The model works on values, so that aliasing is not reproduced.
- Scenarios.ResolveScenario: inheritance is bounded by a fuel parameter. An inheritance cycle, on which the source recurses until the interpreter's recursion limit, fails with `InheritanceTooDeep`.
- The genesis capital extension's `_initialize_if_needed` is folded into reading an absent cumulative phase-out as zero. The two are indistinguishable in every result.
- Extension instances keep no mutable state. The genesis capital phase-out is threaded from month to month as part of the instance value, and `reset` is a pure function.
- Python's `if psm_extension:` is always true for an instance, so the model runs the PSM pass whenever a PSM instance was set aside.
- Engine.RunPass1: its own contract states the failure condition and the instances' shape, for proof cost. Its four totals are stated by Engine.Pass1Totals against Engine.SumContributions, the instances it hands on by Engine.Pass1Instances, and the genesis capital remaining it reports by Engine.Pass1Trackers and Engine.Pass1Genesis.
- Agents.AggregateActiveAgents: its own contract covers the all-inactive and single-type cases. The value of both totals is fixed by Agents.AggregateSingle with Agents.AggregateAppend.
- Engine.RunMonth, ScenarioRun.RunThrough and ScenarioRun.RunScenario: their own contracts are kept small, for proof cost. A month's figures are stated by Engine.RunMonthParts, Engine.RunMonthGross, Engine.RunMonthRewards and Engine.RunMonthExtensions, and its genesis capital remaining by Engine.MonthTrackers. Engine.RunMonthExtensions ties the extension figures to Catalogue.CalculateExtension, which names each extension's calculation. A run's months are stated by RunThroughState, RunThroughLast, ScenarioMonth and ScenarioShape.
- ScenarioRun.ScenarioSucceeds: stated through the recursive predicate `AllHold`. AllHoldMeans shows that this is "every month from 1 to the horizon can run".
- ScenarioRun.InitialGenesisOf: the source reads the `genesis_capital` entry of a dictionary, which has one entry per name. The model's configuration is a list, and it takes the first genesis capital entry.
- Supply.CalculateSupply and Snapshots.CalculateEndSnapshot require a non-zero farm yield because the source divides by it unguarded. In the engine that division is the `DivisionByZero` failure of Engine.RunMonthFails. The end-of-period snapshot is not called by the engine.
- Periods.ParseInt: whitespace is the ASCII whitespace (space, tab, line feed, vertical tab, form feed, carriage return and the four separators 28 to 31) and digits are ASCII. Other Unicode whitespace and Unicode decimal digits, which Python's `int` also accepts, are not modelled.
- Catalogue.Params: `Unregistered` stands for a name outside the registry. The datatype does not force that; Catalogue.WellNamed states it, and configurations are assumed well named.

=== FILE: agentcreationfee.dfy ===
/** Agent creation fee: tokens received when new agents are created, sold at a share of market cap each year. */
module AgentCreationFee {
  import opened Wrappers
  import opened Inputs
  import opened Rates
  import opened ExtensionBase

  const SmallMarketCap: real := 50000000.0
  const LargeMarketCap: real := 150000000.0
  const DefaultSellRate: real := 0.01
  const DefaultOwnership: real := 0.05
  const DefaultLaunchMonth: int := 1

  /** A created agent: a size class ("small", "large") or an explicit market cap. */
  datatype FeeAgent = FeeAgent(name: string, launchMonth: Option<int>, agentType: Option<string>,
                               marketCap: Option<real>, ownership: Option<real>)

  datatype FeeConfig = FeeConfig(sellRateAnnual: Option<real>, agents: seq<FeeAgent>)

  /** The agent's market cap: that of its size class when it names one, else its explicit cap, else zero. */
  function AgentCap(a: FeeAgent): (cap: real)
    ensures a.agentType == Some("small") ==> cap == SmallMarketCap
    ensures a.agentType == Some("large") ==> cap == LargeMarketCap
    ensures a.agentType != Some("small") && a.agentType != Some("large") ==> cap == a.marketCap.GetOr(0.0)
  {
    match a.agentType
    case Some(t) =>
      if t == "small" then SmallMarketCap
      else if t == "large" then LargeMarketCap
      else a.marketCap.GetOr(0.0)
    case None => a.marketCap.GetOr(0.0)
  }

  /** One agent's monthly token sales from its launch month on: the sell rate of its market cap, for one month. */
  function AgentSales(c: FeeConfig, a: FeeAgent, month: int): real {
    if month < a.launchMonth.GetOr(DefaultLaunchMonth) then 0.0
    else AgentCap(a) * c.sellRateAnnual.GetOr(DefaultSellRate) * MonthlyFactor
  }

  /** The monthly token sales of all `agents`. */
  function TotalSales(c: FeeConfig, agents: seq<FeeAgent>, month: int): real
    decreases |agents|
  {
    if |agents| == 0 then 0.0
    else TotalSales(c, agents[..|agents| - 1], month) + AgentSales(c, agents[|agents| - 1], month)
  }

  /** Token sales from created agents as extra gross revenue. Only gross revenue is touched. */
  function Calculate(enabled: bool, c: FeeConfig, month: int, inputs: Bag, rates: DerivedRates): (r: ExtensionResults)
    ensures GrossOnly(r)
    ensures !enabled ==> r == NoEffect
    ensures enabled ==> r.grossRevenueAdjustment == TotalSales(c, c.agents, month)
  {
    if !enabled then NoEffect
    else NoEffect.(grossRevenueAdjustment := TotalSales(c, c.agents, month))
  }

  /** The sales of a concatenation of agent lists are the sum of theirs. */
  lemma {:induction false} TotalSalesAppend(c: FeeConfig, a: seq<FeeAgent>, b: seq<FeeAgent>, month: int)
    ensures TotalSales(c, a + b, month) == TotalSales(c, a, month) + TotalSales(c, b, month)
    decreases |b|
  {
    if |b| == 0 {
      assert a + b == a;
    } else {
      var front := b[..|b| - 1];
      assert (a + b)[..|a + b| - 1] == a + front;
      assert (a + b)[|a + b| - 1] == b[|b| - 1];
      TotalSalesAppend(c, a, front, month);
    }
  }

  /** Sky's ownership share plays no part: sales are a share of the market cap itself. */
  lemma OwnershipIrrelevant(c: FeeConfig, a: FeeAgent, month: int, share: Option<real>)
    ensures AgentSales(c, a, month) == AgentSales(c, a.(ownership := share), month)
  {
  }

  /** A small agent launched by the month sells 1% of 50M a year by default. */
  lemma SmallAgentExample(name: string, month: int)
    requires month >= 1
    ensures AgentSales(FeeConfig(None, []), FeeAgent(name, None, Some("small"), Some(1.0), None), month)
         == 50000000.0 * 0.01 / 12.0
  {
  }
}

=== FILE: agents.dfy ===
/** Agent valuations with a binary active/inactive status. */
module Agents {
  import opened Wrappers

  datatype AgentType = Farm | Sell

  /**
   * A static agent definition; `marketCapRatio` is absent for the reference agent (Spark),
   * whose value is the reference market cap itself.
   */
  datatype AgentDefinition = AgentDefinition(name: string, agentType: AgentType, ownershipRatio: real, marketCapRatio: Option<real>)

  /** An agent is active from its launch month on; a launch month of zero or below means never. */
  function IsAgentActive(launchMonth: int, currentMonth: int): (active: bool)
    ensures active <==> 0 < launchMonth <= currentMonth
  {
    if launchMonth <= 0 then false else currentMonth >= launchMonth
  }

  /** The value of the owned share of an agent's tokens, given the reference market cap. */
  function AgentValue(agent: AgentDefinition, sparkMarketCap: real): (v: real)
    ensures v == sparkMarketCap * agent.marketCapRatio.GetOr(1.0) * agent.ownershipRatio
  {
    match agent.marketCapRatio
    case None => sparkMarketCap * agent.ownershipRatio
    case Some(ratio) => sparkMarketCap * ratio * agent.ownershipRatio
  }

  /** The reference agent is valued as an agent whose market cap ratio is exactly one. */
  lemma ReferenceAgentHasRatioOne(agent: AgentDefinition, sparkMarketCap: real)
    requires agent.marketCapRatio.None?
    ensures AgentValue(agent, sparkMarketCap) == AgentValue(agent.(marketCapRatio := Some(1.0)), sparkMarketCap)
  {
  }

  /** An agent's value scales linearly with the reference market cap. */
  lemma AgentValueLinear(agent: AgentDefinition, sparkMarketCap: real, k: real)
    ensures AgentValue(agent, k * sparkMarketCap) == k * AgentValue(agent, sparkMarketCap)
  {
    match agent.marketCapRatio
    case None =>
      assert k * sparkMarketCap * agent.ownershipRatio == k * (sparkMarketCap * agent.ownershipRatio);
    case Some(ratio) =>
      assert k * sparkMarketCap * ratio * agent.ownershipRatio == k * (sparkMarketCap * ratio * agent.ownershipRatio);
  }

  /** The launch month recorded for an agent; an agent missing from the map reads as zero (never launched). */
  function LaunchOf(launches: map<string, int>, name: string): (m: int)
    ensures name !in launches ==> m == 0
    ensures name in launches ==> m == launches[name]
  {
    if name in launches then launches[name] else 0
  }

  /** Agent `a` is active in `month`. */
  predicate Active(a: AgentDefinition, launches: map<string, int>, month: int) {
    IsAgentActive(LaunchOf(launches, a.name), month)
  }

  /** No agent is active in `month`. */
  predicate NoneActive(agents: seq<AgentDefinition>, launches: map<string, int>, month: int) {
    forall i :: 0 <= i < |agents| ==> !Active(agents[i], launches, month)
  }

  /** Every agent is of type `t`. */
  predicate AllOfType(agents: seq<AgentDefinition>, t: AgentType) {
    forall i :: 0 <= i < |agents| ==> agents[i].agentType == t
  }

  /** Every agent has a non-negative value. */
  predicate NonNegativeValues(agents: seq<AgentDefinition>, sparkMarketCap: real) {
    forall i :: 0 <= i < |agents| ==> AgentValue(agents[i], sparkMarketCap) >= 0.0
  }

  /** Add agent `a`'s value to the running totals when it is active, by its type. */
  function AddAgent(totals: (real, real), a: AgentDefinition, launches: map<string, int>, month: int,
                    sparkMarketCap: real): (real, real)
  {
    if !Active(a, launches, month) then totals
    else if a.agentType.Farm? then (totals.0 + AgentValue(a, sparkMarketCap), totals.1)
    else (totals.0, totals.1 + AgentValue(a, sparkMarketCap))
  }

  /** The active agents' values added up in list order, by type. */
  function ActiveTotals(agents: seq<AgentDefinition>, launches: map<string, int>, month: int, sparkMarketCap: real): (real, real)
    decreases |agents|
  {
    if |agents| == 0 then (0.0, 0.0)
    else
      AddAgent(ActiveTotals(agents[..|agents| - 1], launches, month, sparkMarketCap), agents[|agents| - 1],
               launches, month, sparkMarketCap)
  }

  /**
   * The summed values of the active agents, farm agents in the first component and all other
   * agents in the second; inactive agents add to neither. So without an active agent both totals
   * are zero, sell agents never reach the farm total and farm agents never reach the other.
   */
  function AggregateActiveAgents(agents: seq<AgentDefinition>, launches: map<string, int>, month: int,
                                 sparkMarketCap: real): (r: (real, real))
    ensures NoneActive(agents, launches, month) ==> r == (0.0, 0.0)
    ensures AllOfType(agents, Sell) ==> r.0 == 0.0
    ensures AllOfType(agents, Farm) ==> r.1 == 0.0
  {
    AggregateNoneActive(agents, launches, month, sparkMarketCap);
    AggregateByType(agents, launches, month, sparkMarketCap);
    ActiveTotals(agents, launches, month, sparkMarketCap)
  }

  /** Without an active agent both totals are zero. */
  lemma {:induction false} AggregateNoneActive(agents: seq<AgentDefinition>, launches: map<string, int>, month: int, cap: real)
    ensures NoneActive(agents, launches, month) ==> ActiveTotals(agents, launches, month, cap) == (0.0, 0.0)
    decreases |agents|
  {
    if |agents| > 0 && NoneActive(agents, launches, month) {
      var front := agents[..|agents| - 1];
      assert forall i :: 0 <= i < |front| ==> front[i] == agents[i];
      AggregateNoneActive(front, launches, month, cap);
      assert !Active(agents[|agents| - 1], launches, month);
    }
  }

  /** Sell agents never reach the farm total, and farm agents never reach the other total. */
  lemma {:induction false} AggregateByType(agents: seq<AgentDefinition>, launches: map<string, int>, month: int, cap: real)
    ensures AllOfType(agents, Sell) ==> ActiveTotals(agents, launches, month, cap).0 == 0.0
    ensures AllOfType(agents, Farm) ==> ActiveTotals(agents, launches, month, cap).1 == 0.0
    decreases |agents|
  {
    if |agents| > 0 {
      var front := agents[..|agents| - 1];
      assert forall i :: 0 <= i < |front| ==> front[i] == agents[i];
      AggregateByType(front, launches, month, cap);
      assert AllOfType(agents, Sell) ==> AllOfType(front, Sell);
      assert AllOfType(agents, Farm) ==> AllOfType(front, Farm);
    }
  }

  /** Adding an agent to shifted totals shifts the result by the same amount. */
  lemma AddAgentShift(x: (real, real), y: (real, real), a: AgentDefinition, launches: map<string, int>,
                      month: int, cap: real)
    ensures var z := AddAgent(y, a, launches, month, cap);
      AddAgent((x.0 + y.0, x.1 + y.1), a, launches, month, cap) == (x.0 + z.0, x.1 + z.1)
  {
  }

  /** Aggregation distributes over concatenation of the agent list. */
  lemma {:induction false} AggregateAppend(a: seq<AgentDefinition>, b: seq<AgentDefinition>, launches: map<string, int>,
                                           month: int, cap: real)
    ensures var x := AggregateActiveAgents(a, launches, month, cap);
      var y := AggregateActiveAgents(b, launches, month, cap);
      AggregateActiveAgents(a + b, launches, month, cap) == (x.0 + y.0, x.1 + y.1)
    decreases |b|
  {
    if |b| == 0 {
      assert a + b == a;
    } else {
      var ab := a + b;
      var b' := b[..|b| - 1];
      var ab' := a + b';
      var last := b[|b| - 1];
      assert ab[..|ab| - 1] == ab';
      assert ab[|ab| - 1] == last;
      AggregateAppend(a, b', launches, month, cap);
      var x := AggregateActiveAgents(a, launches, month, cap);
      var y := AggregateActiveAgents(b', launches, month, cap);
      var xy := AggregateActiveAgents(ab', launches, month, cap);
      assert xy == (x.0 + y.0, x.1 + y.1);
      assert AggregateActiveAgents(ab, launches, month, cap) == AddAgent(xy, last, launches, month, cap);
      assert AggregateActiveAgents(b, launches, month, cap) == AddAgent(y, last, launches, month, cap);
      AddAgentShift(x, y, last, launches, month, cap);
    }
  }

  /**
   * One agent's totals: its value on the farm side when it is an active farm agent, on the other
   * side when it is active of any other type, and nothing when it is not active. With
   * AggregateAppend this fixes both totals of any list.
   */
  lemma AggregateSingle(a: AgentDefinition, launches: map<string, int>, month: int, cap: real)
    ensures AggregateActiveAgents([a], launches, month, cap)
         == if !IsAgentActive(LaunchOf(launches, a.name), month) then (0.0, 0.0)
            else if a.agentType == Farm then (AgentValue(a, cap), 0.0)
            else (0.0, AgentValue(a, cap))
  {
    assert [a][..0] == [];
    assert ActiveTotals([a], launches, month, cap) == AddAgent((0.0, 0.0), a, launches, month, cap);
  }

  /** With non-negative agent values both totals are non-negative. */
  lemma {:induction false} AggregateNonNegative(agents: seq<AgentDefinition>, launches: map<string, int>, month: int, cap: real)
    requires NonNegativeValues(agents, cap)
    ensures AggregateActiveAgents(agents, launches, month, cap).0 >= 0.0
    ensures AggregateActiveAgents(agents, launches, month, cap).1 >= 0.0
    decreases |agents|
  {
    if |agents| > 0 {
      var front := agents[..|agents| - 1];
      assert forall i :: 0 <= i < |front| ==> front[i] == agents[i];
      AggregateNonNegative(front, launches, month, cap);
      assert AgentValue(agents[|agents| - 1], cap) >= 0.0;
    }
  }

  /** An agent launched in month 6 is inactive in month 5 and active in month 6. */
  lemma LaunchBoundaryInclusive()
    ensures !IsAgentActive(6, 5) && IsAgentActive(6, 6)
  {
  }

  /** With non-negative values, the aggregates never decrease as the months go by. */
  lemma {:induction false} AggregateMonotoneInMonth(agents: seq<AgentDefinition>, launches: map<string, int>,
                                                    m1: int, m2: int, cap: real)
    requires m1 <= m2 && NonNegativeValues(agents, cap)
    ensures var x := AggregateActiveAgents(agents, launches, m1, cap);
      var y := AggregateActiveAgents(agents, launches, m2, cap);
      x.0 <= y.0 && x.1 <= y.1
    decreases |agents|
  {
    if |agents| > 0 {
      var front := agents[..|agents| - 1];
      assert forall i :: 0 <= i < |front| ==> front[i] == agents[i];
      AggregateMonotoneInMonth(front, launches, m1, m2, cap);
      assert AgentValue(agents[|agents| - 1], cap) >= 0.0;
    }
  }
}

=== FILE: catalogue.dfy ===
/**
 * The extension registry: extension configurations, the instances created from them, and the
 * dispatch of one month's calculation to the extension each instance is.
 */
module Catalogue {
  import opened Wrappers
  import opened Inputs
  import opened Rates
  import opened ExtensionBase
  import Psm
  import SubsidizedBorrow
  import SrusdsCost
  import TokenFarming
  import GenesisCapital
  import GenesisSpending
  import UsdtSubsidy
  import GenesisPrime
  import CoreVaults
  import AgentCreationFee

  /** An extension's configuration, by the extension it configures; `Unregistered` is any name outside the registry. */
  datatype Params =
    | PsmExposure(psm: Psm.PsmConfig)
    | SubsidizedBorrowing(borrow: SubsidizedBorrow.BorrowConfig)
    | Srusds(srusds: SrusdsCost.SrusdsConfig)
    | Farming(farming: TokenFarming.FarmingConfig)
    | Genesis(genesis: GenesisCapital.GenesisConfig)
    | Spending(spending: GenesisSpending.SpendingConfig)
    | Usdt(usdt: UsdtSubsidy.UsdtConfig)
    | Primes(primes: GenesisPrime.PrimeConfig)
    | Vaults(vaults: CoreVaults.VaultsConfig)
    | CreationFee(fee: AgentCreationFee.FeeConfig)
    | Unregistered(name: string)

  /** One entry of the extension configuration: the optional `enabled` flag and the parameters. */
  datatype ExtensionSpec = ExtensionSpec(enabled: Option<bool>, params: Params)

  /** An extension instance: its parameters, its enabled flag and (genesis capital only) its cumulative phase-out. */
  datatype Extension = Extension(params: Params, enabled: bool, phaseout: GenesisCapital.Phaseout)

  /** The registry key of an extension. */
  function Name(p: Params): string {
    match p
    case PsmExposure(_) => "psm_exposure"
    case SubsidizedBorrowing(_) => "subsidized_borrow"
    case Srusds(_) => "srusds_cost"
    case Farming(_) => "token_farming"
    case Genesis(_) => "genesis_capital"
    case Spending(_) => "genesis_capital_spending"
    case Usdt(_) => "usdt_subsidy"
    case Primes(_) => "genesis_prime"
    case Vaults(_) => "core_vaults"
    case CreationFee(_) => "agent_creation_fee"
    case Unregistered(n) => n
  }

  /** The registry's keys. */
  const RegisteredNames: set<string> := {
    "psm_exposure", "subsidized_borrow", "srusds_cost", "token_farming", "genesis_capital",
    "genesis_capital_spending", "usdt_subsidy", "genesis_prime", "core_vaults", "agent_creation_fee"}

  /** `Unregistered` carries only names outside the registry: a registered key is always parsed to its extension. */
  predicate WellNamed(p: Params) {
    p.Unregistered? ==> p.name !in RegisteredNames
  }

  /** For well-named parameters, the key tells whether an extension is registered. */
  lemma NameTellsRegistration(p: Params)
    requires WellNamed(p)
    ensures p.Unregistered? <==> Name(p) !in RegisteredNames
  {
  }

  /** The spec names a registered extension and is not switched off (enabled by default). */
  predicate Selected(s: ExtensionSpec) {
    !s.params.Unregistered? && s.enabled.GetOr(true)
  }

  /** A new instance of a selected spec: enabled, no phase-out yet. */
  function Instantiate(s: ExtensionSpec): Extension {
    Extension(s.params, s.enabled.GetOr(true), map[])
  }

  /**
   * The instances of the registered, enabled specs, in configuration order. Every instance is
   * enabled, registered and fresh.
   */
  function CreateExtensions(specs: seq<ExtensionSpec>): (r: seq<Extension>)
    ensures |r| <= |specs|
    ensures forall i :: 0 <= i < |r| ==> r[i].enabled && !r[i].params.Unregistered? && r[i].phaseout == map[]
    decreases |specs|
  {
    if |specs| == 0 then []
    else
      var front := CreateExtensions(specs[..|specs| - 1]);
      var last := specs[|specs| - 1];
      if Selected(last) then front + [Instantiate(last)] else front
  }

  /** Creation distributes over concatenation: it filters each part and keeps the order. */
  lemma {:induction false} CreateExtensionsAppend(a: seq<ExtensionSpec>, b: seq<ExtensionSpec>)
    ensures CreateExtensions(a + b) == CreateExtensions(a) + CreateExtensions(b)
    decreases |b|
  {
    if |b| == 0 {
      assert a + b == a;
    } else {
      var front := b[..|b| - 1];
      assert (a + b)[..|a + b| - 1] == a + front;
      assert (a + b)[|a + b| - 1] == b[|b| - 1];
      CreateExtensionsAppend(a, front);
    }
  }

  /** Some instance of `r` carries parameters `p`. */
  predicate HasInstance(r: seq<Extension>, p: Params) {
    exists i :: 0 <= i < |r| && r[i].params == p
  }

  /** Some selected spec of `specs` carries parameters `p`. */
  predicate HasSelected(specs: seq<ExtensionSpec>, p: Params) {
    exists j :: 0 <= j < |specs| && Selected(specs[j]) && specs[j].params == p
  }

  lemma HasInstanceSnoc(r: seq<Extension>, e: Extension, p: Params)
    ensures HasInstance(r + [e], p) <==> HasInstance(r, p) || e.params == p
  {
    var r' := r + [e];
    if HasInstance(r', p) {
      var i :| 0 <= i < |r'| && r'[i].params == p;
      if i < |r| {
        assert r[i] == r'[i];
      }
    }
    if HasInstance(r, p) {
      var i :| 0 <= i < |r| && r[i].params == p;
      assert r'[i] == r[i];
    }
    if e.params == p {
      assert r'[|r|] == e;
    }
  }

  lemma HasSelectedSnoc(specs: seq<ExtensionSpec>, s: ExtensionSpec, p: Params)
    ensures HasSelected(specs + [s], p) <==> HasSelected(specs, p) || (Selected(s) && s.params == p)
  {
    var all := specs + [s];
    if HasSelected(all, p) {
      var j :| 0 <= j < |all| && Selected(all[j]) && all[j].params == p;
      if j < |specs| {
        assert specs[j] == all[j];
      }
    }
    if HasSelected(specs, p) {
      var j :| 0 <= j < |specs| && Selected(specs[j]) && specs[j].params == p;
      assert all[j] == specs[j];
    }
    if Selected(s) && s.params == p {
      assert all[|specs|] == s;
    }
  }

  /** Exactly the selected specs become instances: an instance with given parameters exists iff a selected spec carries them. */
  lemma {:induction false} CreateExtensionsSelects(specs: seq<ExtensionSpec>, p: Params)
    ensures HasInstance(CreateExtensions(specs), p) <==> HasSelected(specs, p)
    decreases |specs|
  {
    if |specs| > 0 {
      var front := specs[..|specs| - 1];
      var last := specs[|specs| - 1];
      assert specs == front + [last];
      CreateExtensionsSelects(front, p);
      HasSelectedSnoc(front, last, p);
      if Selected(last) {
        HasInstanceSnoc(CreateExtensions(front), Instantiate(last), p);
      }
    }
  }

  /** Reset for a new run: the genesis capital extension forgets its phase-out; the others have nothing to reset. */
  function ResetExtension(e: Extension): (r: Extension)
    ensures r.params == e.params && r.enabled == e.enabled
    ensures e.params.Genesis? ==> r.phaseout == map[]
    ensures !e.params.Genesis? ==> r == e
  {
    if e.params.Genesis? then e.(phaseout := map[]) else e
  }

  /** Resetting freshly created instances changes nothing. */
  lemma ResetFreshIsIdentity(e: Extension)
    requires e.phaseout == map[]
    ensures ResetExtension(e) == e
  {
  }

  /** The genesis capital spending extension divides by its empty window this month. */
  predicate SpendingFails(e: Extension, month: int) {
    e.params.Spending? && e.enabled && month >= GenesisSpending.Start(e.params.spending)
    && GenesisSpending.WindowLength(e.params.spending) == 0
  }

  /** A genesis capital extension that is switched on (it alone reports genesis capital remaining). */
  predicate ReportsGenesis(e: Extension) {
    e.params.Genesis? && e.enabled
  }

  /**
   * One month of one extension, and the instance as it stands afterwards. Only the genesis
   * capital extension uses the displayed backstop and changes its instance; only the spending
   * extension can fail; only an enabled genesis capital extension reports genesis capital
   * remaining, and none reports an aggregate backstop capital.
   */
  function CalculateExtension(e: Extension, month: int, inputs: Bag, rates: DerivedRates, displayed: Option<real>)
    : (r: Result<(ExtensionResults, Extension)>)
    ensures r.Failure? <==> SpendingFails(e, month)
    ensures r.Failure? ==> r.error == DivisionByZero
    ensures r.Success? ==> r.value.1.params == e.params && r.value.1.enabled == e.enabled
    ensures r.Success? && !e.params.Genesis? ==> r.value.1 == e
    ensures r.Success? ==> r.value.0.aggregateBackstopCapital.None?
    ensures r.Success? ==> (r.value.0.genesisCapitalRemaining.Some? <==> ReportsGenesis(e))
    ensures e.params.PsmExposure? ==> r == Success((Psm.Calculate(e.enabled, e.params.psm, month, inputs, rates), e))
    ensures e.params.SubsidizedBorrowing? ==>
      r == Success((SubsidizedBorrow.Calculate(e.enabled, e.params.borrow, month, inputs, rates), e))
    ensures e.params.Srusds? ==> r == Success((SrusdsCost.Calculate(e.enabled, e.params.srusds, month, inputs, rates), e))
    ensures e.params.Farming? ==> r == Success((TokenFarming.Calculate(e.enabled, e.params.farming, month, inputs, rates), e))
    ensures e.params.Genesis? ==>
      var g := GenesisCapital.Calculate(e.enabled, e.params.genesis, month, inputs, rates, displayed, e.phaseout);
      r == Success((g.0, e.(phaseout := g.1)))
    ensures e.params.Spending? ==>
      var res := GenesisSpending.Calculate(e.enabled, e.params.spending, month, inputs, rates);
      r == if res.Success? then Success((res.value, e)) else Failure(res.error)
    ensures e.params.Usdt? ==> r == Success((UsdtSubsidy.Calculate(e.enabled, e.params.usdt, month, inputs, rates), e))
    ensures e.params.Primes? ==> r == Success((GenesisPrime.Calculate(e.enabled, e.params.primes, month, inputs, rates), e))
    ensures e.params.Vaults? ==> r == Success((CoreVaults.Calculate(e.enabled, e.params.vaults, month, inputs, rates), e))
    ensures e.params.CreationFee? ==>
      r == Success((AgentCreationFee.Calculate(e.enabled, e.params.fee, month, inputs, rates), e))
    ensures e.params.Unregistered? ==> r == Success((NoEffect, e))
  {
    match e.params
    case PsmExposure(c) => Success((Psm.Calculate(e.enabled, c, month, inputs, rates), e))
    case SubsidizedBorrowing(c) => Success((SubsidizedBorrow.Calculate(e.enabled, c, month, inputs, rates), e))
    case Srusds(c) => Success((SrusdsCost.Calculate(e.enabled, c, month, inputs, rates), e))
    case Farming(c) => Success((TokenFarming.Calculate(e.enabled, c, month, inputs, rates), e))
    case Genesis(c) =>
      var (res, st) := GenesisCapital.Calculate(e.enabled, c, month, inputs, rates, displayed, e.phaseout);
      Success((res, e.(phaseout := st)))
    case Spending(c) =>
      var res :- GenesisSpending.Calculate(e.enabled, c, month, inputs, rates);
      Success((res, e))
    case Usdt(c) => Success((UsdtSubsidy.Calculate(e.enabled, c, month, inputs, rates), e))
    case Primes(c) => Success((GenesisPrime.Calculate(e.enabled, c, month, inputs, rates), e))
    case Vaults(c) => Success((CoreVaults.Calculate(e.enabled, c, month, inputs, rates), e))
    case CreationFee(c) => Success((AgentCreationFee.Calculate(e.enabled, c, month, inputs, rates), e))
    case Unregistered(_) => Success((BaseCalculate(month, inputs, rates), e))
  }

  /** A disabled instance contributes nothing, whatever it is (and so cannot fail). */
  lemma DisabledContributesNothing(e: Extension, month: int, inputs: Bag, rates: DerivedRates, displayed: Option<real>)
    requires !e.enabled
    ensures CalculateExtension(e, month, inputs, rates, displayed) == Success((NoEffect, e))
  {
  }
}

=== FILE: corevaults.dfy ===
/** Core vaults: debt earning a fixed vault rate instead of the gross rate. */
module CoreVaults {
  import opened Wrappers
  import opened Inputs
  import opened Rates
  import opened ExtensionBase

  const DefaultRate: real := 0.08

  datatype VaultsConfig = VaultsConfig(debt: Option<real>, rate: Option<real>)

  /** The vault debt: the `core_vault_debt` input, else the configured debt, else zero. */
  function Debt(c: VaultsConfig, inputs: Bag): real {
    GetOr(inputs, "core_vault_debt", c.debt.GetOr(0.0))
  }

  /** The vault rate: the `core_vault_rate` input, else the configured rate, else 8%. */
  function VaultRate(c: VaultsConfig, inputs: Bag): real {
    GetOr(inputs, "core_vault_rate", c.rate.GetOr(DefaultRate))
  }

  /**
   * The extra revenue of the vault debt: nothing without positive debt; otherwise twelve months
   * of it are the vault rate's excess over the gross rate on the debt.
   */
  function Calculate(enabled: bool, c: VaultsConfig, month: int, inputs: Bag, rates: DerivedRates): (r: ExtensionResults)
    ensures GrossOnly(r)
    ensures !enabled || Debt(c, inputs) <= 0.0 ==> r == NoEffect
    ensures enabled && Debt(c, inputs) > 0.0 ==>
      12.0 * r.grossRevenueAdjustment == Debt(c, inputs) * (VaultRate(c, inputs) - rates.grossRevenueRate)
  {
    if !enabled then NoEffect
    else
      var debt := Debt(c, inputs);
      if debt <= 0.0 then NoEffect
      else NoEffect.(grossRevenueAdjustment := debt * (VaultRate(c, inputs) - rates.grossRevenueRate) * MonthlyFactor)
  }

  /** Inputs naming both the debt and the rate make the configuration irrelevant. */
  lemma InputsOverrideConfig(c: VaultsConfig, other: VaultsConfig, month: int, inputs: Bag, rates: DerivedRates)
    requires "core_vault_debt" in inputs && "core_vault_rate" in inputs
    ensures Calculate(true, c, month, inputs, rates) == Calculate(true, other, month, inputs, rates)
  {
  }

  /** The adjustment has the sign of the vault rate's premium over the gross rate. */
  lemma BenefitSign(c: VaultsConfig, month: int, inputs: Bag, rates: DerivedRates)
    requires Debt(c, inputs) > 0.0
    ensures var g := Calculate(true, c, month, inputs, rates).grossRevenueAdjustment;
      (g > 0.0 <==> VaultRate(c, inputs) > rates.grossRevenueRate)
      && (g < 0.0 <==> VaultRate(c, inputs) < rates.grossRevenueRate)
  {
    var d := Debt(c, inputs);
    var gap := VaultRate(c, inputs) - rates.grossRevenueRate;
    if gap > 0.0 { assert d * gap > 0.0; }
    if gap < 0.0 { assert d * gap < 0.0; }
  }
}

=== FILE: engine.dfy ===
/**
 * One month of the forecast: rates, a first pass over the extensions (all but PSM exposure),
 * agent valuations, supply, the PSM exposure pass on the resulting supply, revenue with the
 * extension adjustments, and the treasury waterfall.
 */
module Engine {
  import opened Wrappers
  import opened Inputs
  import opened Rates
  import opened Agents
  import opened Supply
  import opened Revenue
  import opened Waterfall
  import opened ExtensionBase
  import opened Catalogue
  import Psm

  /** Model-wide constants. */
  datatype ModelConstants = ModelConstants(farmEmissionRate: real, backstopRate: real)

  /** Everything one month computes. */
  datatype MonthResults = MonthResults(
    month: int,
    rates: DerivedRates,
    farmableTokens: real,
    sellableTokens: real,
    supply: SupplyCalculations,
    revenue: RevenueCalculations,
    waterfall: WaterfallResults,
    extensionCosts: real,
    extensionSupplyBoost: real,
    backstopOutflow: real,
    aggregateBackstopCapital: Option<real>,
    genesisCapitalRemaining: Option<real>)

  /** The running totals of the first extension pass, the PSM instance set aside, and the instances as updated. */
  datatype Pass1 = Pass1(
    supplyBoost: real,
    grossAdjustment: real,
    costAdjustment: real,
    backstopOutflow: real,
    aggregateBackstop: Option<real>,
    genesisRemaining: Option<real>,
    psm: Option<Extension>,
    extensions: seq<Extension>)

  const EmptyPass: Pass1 := Pass1(0.0, 0.0, 0.0, 0.0, None, None, None, [])

  /** The rates of a month, derived from its inputs (absent inputs read as zero). */
  function RatesOf(inputs: Bag): DerivedRates {
    DeriveRates(RateInputs(Get(inputs, "sofr"), Get(inputs, "savings_rate_spread"),
                           Get(inputs, "gross_revenue_rate_spread"), Get(inputs, "farm_yield_spread")))
  }

  /** Add one extension's results to the pass; a tracker it reports replaces the one reported before. */
  function Accumulate(p: Pass1, res: ExtensionResults, e: Extension): (r: Pass1)
    ensures r.supplyBoost - p.supplyBoost == res.supplyBoost && r.grossAdjustment - p.grossAdjustment == res.grossRevenueAdjustment
    ensures r.costAdjustment - p.costAdjustment == res.costAdjustment && r.backstopOutflow - p.backstopOutflow == res.backstopOutflow
    ensures r.aggregateBackstop == (if res.aggregateBackstopCapital.Some? then res.aggregateBackstopCapital else p.aggregateBackstop)
    ensures r.genesisRemaining == (if res.genesisCapitalRemaining.Some? then res.genesisCapitalRemaining else p.genesisRemaining)
    ensures r.psm == p.psm && r.extensions == p.extensions + [e]
  {
    Pass1(p.supplyBoost + res.supplyBoost, p.grossAdjustment + res.grossRevenueAdjustment,
          p.costAdjustment + res.costAdjustment, p.backstopOutflow + res.backstopOutflow,
          if res.aggregateBackstopCapital.Some? then res.aggregateBackstopCapital else p.aggregateBackstop,
          if res.genesisCapitalRemaining.Some? then res.genesisCapitalRemaining else p.genesisRemaining,
          p.psm, p.extensions + [e])
  }

  /** Some instance of `exts` divides by zero this month. */
  predicate AnySpendingFails(exts: seq<Extension>, month: int) {
    exists i :: 0 <= i < |exts| && SpendingFails(exts[i], month)
  }

  /** The instances are the same extensions as `exts`, in the same order. */
  predicate SameExtensions(r: seq<Extension>, exts: seq<Extension>) {
    |r| == |exts| && forall i :: 0 <= i < |exts| ==> r[i].params == exts[i].params && r[i].enabled == exts[i].enabled
  }

  /**
   * The first pass: every extension but PSM exposure is calculated, in order, and its results
   * added up; the (last) PSM instance is set aside for the second pass. Fails exactly when some
   * extension divides by zero.
   */
  function RunPass1(exts: seq<Extension>, month: int, inputs: Bag, rates: DerivedRates, displayed: Option<real>): (r: Result<Pass1>)
    ensures r.Failure? <==> AnySpendingFails(exts, month)
    ensures r.Failure? ==> r.error == DivisionByZero
    ensures r.Success? ==> SameExtensions(r.value.extensions, exts)
    decreases |exts|
  {
    if |exts| == 0 then Success(EmptyPass)
    else
      var front := exts[..|exts| - 1];
      var e := exts[|exts| - 1];
      assert forall i :: 0 <= i < |front| ==> front[i] == exts[i];
      assert AnySpendingFails(exts, month) <==> AnySpendingFails(front, month) || SpendingFails(e, month);
      var p :- RunPass1(front, month, inputs, rates, displayed);
      if e.params.PsmExposure? then
        Success(p.(psm := Some(e), extensions := p.extensions + [e]))
      else
        var out :- CalculateExtension(e, month, inputs, rates, displayed);
        Success(Accumulate(p, out.0, out.1))
  }

  /** The last PSM exposure instance of `exts`, if any. */
  function LastPsm(exts: seq<Extension>): Option<Extension>
    decreases |exts|
  {
    if |exts| == 0 then None
    else if exts[|exts| - 1].params.PsmExposure? then Some(exts[|exts| - 1])
    else LastPsm(exts[..|exts| - 1])
  }

  /**
   * The first pass sets aside the last PSM instance, reports genesis capital remaining exactly
   * when an enabled genesis capital extension is present, and never reports an aggregate
   * backstop capital.
   */
  lemma {:induction false} Pass1Trackers(exts: seq<Extension>, month: int, inputs: Bag, rates: DerivedRates, displayed: Option<real>)
    requires RunPass1(exts, month, inputs, rates, displayed).Success?
    ensures var p := RunPass1(exts, month, inputs, rates, displayed).value;
      && p.psm == LastPsm(exts)
      && p.aggregateBackstop.None?
      && (p.genesisRemaining.Some? <==> exists i :: 0 <= i < |exts| && ReportsGenesis(exts[i]))
    decreases |exts|
  {
    if |exts| > 0 {
      var front := exts[..|exts| - 1];
      var e := exts[|exts| - 1];
      assert forall i :: 0 <= i < |front| ==> front[i] == exts[i];
      Pass1Trackers(front, month, inputs, rates, displayed);
      assert (exists i :: 0 <= i < |exts| && ReportsGenesis(exts[i]))
         <==> (exists i :: 0 <= i < |front| && ReportsGenesis(front[i])) || ReportsGenesis(e);
    }
  }

  /** Instance `i` is the last of `exts` to report genesis capital remaining. */
  predicate LastReporter(exts: seq<Extension>, i: int) {
    0 <= i < |exts| && ReportsGenesis(exts[i]) && forall j :: i < j < |exts| ==> !ReportsGenesis(exts[j])
  }

  /** The genesis capital remaining each instance reports this month, in order. */
  function GenesisReports(exts: seq<Extension>, month: int, inputs: Bag, rates: DerivedRates, displayed: Option<real>): seq<Option<real>> {
    seq(|exts|, i requires 0 <= i < |exts| => Contribution(exts[i], month, inputs, rates, displayed).genesisCapitalRemaining)
  }

  /** The last report of a list, if any. */
  function Latest(xs: seq<Option<real>>): Option<real>
    decreases |xs|
  {
    if |xs| == 0 then None
    else if xs[|xs| - 1].Some? then xs[|xs| - 1]
    else Latest(xs[..|xs| - 1])
  }

  /** Position `i` holds the last report of `xs`. */
  predicate LastSomeAt(xs: seq<Option<real>>, i: int) {
    0 <= i < |xs| && xs[i].Some? && forall j :: i < j < |xs| ==> xs[j].None?
  }

  /** A report that is the latest was made at some position with none after it. */
  lemma {:induction false} LatestIsLast(xs: seq<Option<real>>)
    ensures Latest(xs).Some? ==> exists i :: LastSomeAt(xs, i) && xs[i] == Latest(xs)
    decreases |xs|
  {
    if |xs| > 0 && xs[|xs| - 1].None? {
      var front := xs[..|xs| - 1];
      LatestIsLast(front);
      if Latest(xs).Some? {
        var i :| LastSomeAt(front, i) && front[i] == Latest(front);
        assert LastSomeAt(xs, i);
      }
    } else if |xs| > 0 {
      assert LastSomeAt(xs, |xs| - 1);
    }
  }

  /** An instance reports genesis capital remaining exactly when it is an enabled genesis capital extension. */
  lemma ContributionReports(e: Extension, month: int, inputs: Bag, rates: DerivedRates, displayed: Option<real>)
    ensures Contribution(e, month, inputs, rates, displayed).genesisCapitalRemaining.Some? <==> ReportsGenesis(e)
  {
  }

  /** The last instance of a pass replaces the genesis capital remaining exactly when it reports one. */
  lemma Pass1GenesisStep(exts: seq<Extension>, month: int, inputs: Bag, rates: DerivedRates, displayed: Option<real>)
    requires |exts| > 0 && RunPass1(exts, month, inputs, rates, displayed).Success?
    ensures RunPass1(exts[..|exts| - 1], month, inputs, rates, displayed).Success?
    ensures var c := Contribution(exts[|exts| - 1], month, inputs, rates, displayed).genesisCapitalRemaining;
      RunPass1(exts, month, inputs, rates, displayed).value.genesisRemaining
        == if c.Some? then c else RunPass1(exts[..|exts| - 1], month, inputs, rates, displayed).value.genesisRemaining
  {
  }

  /** The genesis capital remaining a pass reports is the latest its instances report, in order. */
  lemma {:induction false} Pass1GenesisLatest(exts: seq<Extension>, month: int, inputs: Bag, rates: DerivedRates, displayed: Option<real>)
    requires RunPass1(exts, month, inputs, rates, displayed).Success?
    ensures RunPass1(exts, month, inputs, rates, displayed).value.genesisRemaining
      == Latest(GenesisReports(exts, month, inputs, rates, displayed))
    decreases |exts|
  {
    if |exts| > 0 {
      var front := exts[..|exts| - 1];
      Pass1GenesisStep(exts, month, inputs, rates, displayed);
      Pass1GenesisLatest(front, month, inputs, rates, displayed);
      var xs := GenesisReports(exts, month, inputs, rates, displayed);
      assert xs[..|xs| - 1] == GenesisReports(front, month, inputs, rates, displayed);
    }
  }

  /**
   * The genesis capital remaining a pass reports is the figure its last enabled genesis capital
   * instance calculates this month: each report replaces the one before.
   */
  lemma {:induction false} Pass1Genesis(exts: seq<Extension>, month: int, inputs: Bag, rates: DerivedRates, displayed: Option<real>)
    requires RunPass1(exts, month, inputs, rates, displayed).Success?
    ensures var p := RunPass1(exts, month, inputs, rates, displayed).value;
      p.genesisRemaining.Some? ==>
        exists i :: LastReporter(exts, i)
          && p.genesisRemaining == Contribution(exts[i], month, inputs, rates, displayed).genesisCapitalRemaining
  {
    var xs := GenesisReports(exts, month, inputs, rates, displayed);
    Pass1GenesisLatest(exts, month, inputs, rates, displayed);
    LatestIsLast(xs);
    if Latest(xs).Some? {
      var i :| LastSomeAt(xs, i) && xs[i] == Latest(xs);
      ContributionReports(exts[i], month, inputs, rates, displayed);
      forall j | i < j < |exts|
        ensures !ReportsGenesis(exts[j])
      {
        assert xs[j].None?;
        ContributionReports(exts[j], month, inputs, rates, displayed);
      }
      assert LastReporter(exts, i);
    }
  }

  /** The pass totals of a list split in two are the sums of the totals of the parts. */
  lemma {:induction false} Pass1Append(a: seq<Extension>, b: seq<Extension>, month: int, inputs: Bag, rates: DerivedRates, displayed: Option<real>)
    requires RunPass1(a + b, month, inputs, rates, displayed).Success?
    ensures RunPass1(a, month, inputs, rates, displayed).Success? && RunPass1(b, month, inputs, rates, displayed).Success?
    ensures var ab := RunPass1(a + b, month, inputs, rates, displayed).value;
      var pa := RunPass1(a, month, inputs, rates, displayed).value;
      var pb := RunPass1(b, month, inputs, rates, displayed).value;
      && ab.supplyBoost == pa.supplyBoost + pb.supplyBoost
      && ab.grossAdjustment == pa.grossAdjustment + pb.grossAdjustment
      && ab.costAdjustment == pa.costAdjustment + pb.costAdjustment
      && ab.backstopOutflow == pa.backstopOutflow + pb.backstopOutflow
    decreases |b|
  {
    if |b| == 0 {
      assert a + b == a;
    } else {
      var front := b[..|b| - 1];
      var e := b[|b| - 1];
      assert (a + b)[..|a + b| - 1] == a + front;
      assert (a + b)[|a + b| - 1] == e;
      assert forall i :: 0 <= i < |a| ==> (a + b)[i] == a[i];
      assert forall i :: 0 <= i < |b| ==> (a + b)[|a| + i] == b[i];
      Pass1Append(a, front, month, inputs, rates, displayed);
    }
  }

  /** PSM exposure instances contribute nothing to the first pass. */
  lemma {:induction false} Pass1SkipsPsm(exts: seq<Extension>, month: int, inputs: Bag, rates: DerivedRates, displayed: Option<real>)
    requires forall i :: 0 <= i < |exts| ==> exts[i].params.PsmExposure?
    ensures RunPass1(exts, month, inputs, rates, displayed).Success?
    ensures var p := RunPass1(exts, month, inputs, rates, displayed).value;
      p.supplyBoost == 0.0 && p.grossAdjustment == 0.0 && p.costAdjustment == 0.0 && p.backstopOutflow == 0.0
    decreases |exts|
  {
    if |exts| > 0 {
      var front := exts[..|exts| - 1];
      assert forall i :: 0 <= i < |front| ==> front[i] == exts[i];
      Pass1SkipsPsm(front, month, inputs, rates, displayed);
    }
  }

  /** The four first-pass figures. */
  datatype PassTotals = PassTotals(supplyBoost: real, grossAdjustment: real, costAdjustment: real, backstopOutflow: real)

  /** What one instance adds to the first pass: nothing for PSM exposure (set aside until supply is known) or a failing instance, else its results. */
  function Contribution(e: Extension, month: int, inputs: Bag, rates: DerivedRates, displayed: Option<real>): ExtensionResults {
    if e.params.PsmExposure? then NoEffect
    else
      match CalculateExtension(e, month, inputs, rates, displayed)
      case Success(out) => out.0
      case Failure(_) => NoEffect
  }

  /** The instances' contributions added up from the first instance on, field by field. */
  function SumContributions(exts: seq<Extension>, month: int, inputs: Bag, rates: DerivedRates, displayed: Option<real>): PassTotals
    decreases |exts|
  {
    if |exts| == 0 then PassTotals(0.0, 0.0, 0.0, 0.0)
    else
      var c := Contribution(exts[0], month, inputs, rates, displayed);
      var t := SumContributions(exts[1..], month, inputs, rates, displayed);
      PassTotals(c.supplyBoost + t.supplyBoost, c.grossRevenueAdjustment + t.grossAdjustment,
                 c.costAdjustment + t.costAdjustment, c.backstopOutflow + t.backstopOutflow)
  }

  /** The four figures of a pass. */
  function TotalsOf(p: Pass1): PassTotals {
    PassTotals(p.supplyBoost, p.grossAdjustment, p.costAdjustment, p.backstopOutflow)
  }

  /** A pass over one instance holds exactly that instance's contribution. */
  lemma Pass1Single(e: Extension, month: int, inputs: Bag, rates: DerivedRates, displayed: Option<real>)
    requires RunPass1([e], month, inputs, rates, displayed).Success?
    ensures var c := Contribution(e, month, inputs, rates, displayed);
      TotalsOf(RunPass1([e], month, inputs, rates, displayed).value)
        == PassTotals(c.supplyBoost, c.grossRevenueAdjustment, c.costAdjustment, c.backstopOutflow)
  {
    assert [e][..0] == [];
    assert RunPass1([], month, inputs, rates, displayed) == Success(EmptyPass);
  }

  /**
   * The first pass adds up, for each of its four figures, exactly the results of the instances
   * it calculates: every instance but PSM exposure, each on this month's inputs and the displayed
   * backstop.
   */
  lemma {:induction false} Pass1Totals(exts: seq<Extension>, month: int, inputs: Bag, rates: DerivedRates, displayed: Option<real>)
    requires RunPass1(exts, month, inputs, rates, displayed).Success?
    ensures TotalsOf(RunPass1(exts, month, inputs, rates, displayed).value) == SumContributions(exts, month, inputs, rates, displayed)
    decreases |exts|
  {
    if |exts| > 0 {
      var head := exts[..1];
      var tail := exts[1..];
      assert head + tail == exts;
      Pass1Append(head, tail, month, inputs, rates, displayed);
      assert head == [exts[0]];
      Pass1Single(exts[0], month, inputs, rates, displayed);
      Pass1Totals(tail, month, inputs, rates, displayed);
    }
  }

  /** An instance as the first pass hands it on: PSM exposure unchanged, any other as its own calculation leaves it. */
  function Handed(e: Extension, month: int, inputs: Bag, rates: DerivedRates, displayed: Option<real>): Extension {
    if e.params.PsmExposure? then e
    else
      match CalculateExtension(e, month, inputs, rates, displayed)
      case Success(out) => out.1
      case Failure(_) => e
  }

  /** The instances a pass hands on are the instances as each one's own calculation leaves them, in order. */
  lemma {:induction false} Pass1Instances(exts: seq<Extension>, month: int, inputs: Bag, rates: DerivedRates, displayed: Option<real>)
    requires RunPass1(exts, month, inputs, rates, displayed).Success?
    ensures var p := RunPass1(exts, month, inputs, rates, displayed).value;
      |p.extensions| == |exts| && forall i :: 0 <= i < |exts| ==> p.extensions[i] == Handed(exts[i], month, inputs, rates, displayed)
    decreases |exts|
  {
    if |exts| > 0 {
      var front := exts[..|exts| - 1];
      assert forall i :: 0 <= i < |front| ==> front[i] == exts[i];
      Pass1Instances(front, month, inputs, rates, displayed);
    }
  }

  /**
   * The drag of the PSM instance set aside, calculated on inputs whose total USDS is the month's
   * supply: nothing without an enabled instance holding a positive amount. The amount held is
   * the positive share of `totalUsds` when a positive share is given, else the fixed amount (the
   * `psm_amount` input, else the configured amount); twelve months of the drag forgo the gross
   * rate for the PSM rate on it.
   */
  function PsmGross(psm: Option<Extension>, month: int, inputs: Bag, rates: DerivedRates, totalUsds: real): (g: real)
    ensures psm.None? || !psm.value.params.PsmExposure? || !psm.value.enabled ==> g == 0.0
    ensures psm.Some? && psm.value.params.PsmExposure? && psm.value.enabled ==>
      var c := psm.value.params.psm;
      var pct := Psm.PsmPct(c, inputs);
      var amount := if pct > 0.0 then totalUsds * pct else GetOr(inputs, "psm_amount", c.amount.GetOr(0.0));
      && (amount <= 0.0 ==> g == 0.0)
      && (amount > 0.0 ==> 12.0 * g == amount * (Psm.PsmRate(c, inputs) - rates.grossRevenueRate))
  {
    match psm
    case None => 0.0
    case Some(e) =>
      if e.params.PsmExposure? then
        var psmInputs := inputs["total_usds" := totalUsds];
        assert Psm.PsmPct(e.params.psm, psmInputs) == Psm.PsmPct(e.params.psm, inputs);
        assert Psm.PsmRate(e.params.psm, psmInputs) == Psm.PsmRate(e.params.psm, inputs);
        assert Psm.TotalUsds(psmInputs) == totalUsds;
        Psm.Calculate(e.enabled, e.params.psm, month, psmInputs, rates).grossRevenueAdjustment
      else 0.0
  }

  /** The waterfall distributes exactly the month's net revenue, which is gross revenue less savings, rewards and extension costs. */
  predicate MonthBalanced(m: MonthResults) {
    && m.waterfall.securityBudget + m.waterfall.backstopContribution + m.waterfall.stakingRewards == m.revenue.netRevenue
    && m.revenue.netRevenue == m.revenue.grossRevenue - m.revenue.savingsExpense - m.revenue.distributionRewards - m.extensionCosts
    && m.waterfall.netProfit == m.waterfall.backstopContribution + m.waterfall.stakingRewards
  }

  /** The identities every computed month satisfies. */
  predicate MonthConsistent(m: MonthResults, inputs: Bag) {
    && MonthBalanced(m)
    && m.supply.avgUsdsSupply == Get(inputs, "base_usds") + m.extensionSupplyBoost + m.supply.unrewardedUsdsFarm
    && m.waterfall.backstopWithdrawal == Get(inputs, "backstop_withdrawal")
  }

  /** The month's supply: base USDS plus the extension boost, and the USDS the farmable agents attract. */
  function SupplyOf(inputs: Bag, rates: DerivedRates, boost: real, farmable: real, constants: ModelConstants): SupplyCalculations
    requires rates.farmYield != 0.0
  {
    CalculateSupply(SupplyInputs(Get(inputs, "base_usds") + boost, Get(inputs, "unrewarded_usds_user"),
                                 farmable, constants.farmEmissionRate, rates.farmYield))
  }

  /** The reward rate on sUSDS of a month: each tier's share of sUSDS at that tier's rate. */
  function MonthTierRate(inputs: Bag): real {
    Get(inputs, "tier2_ratio") * Tier2Rate + Get(inputs, "tier3_ratio") * Tier3Rate + Get(inputs, "tier4_ratio") * Tier4Rate
  }

  /** A month's distribution rewards are a twelfth of its tier reward rate on its sUSDS. */
  predicate RewardsPaid(rewards: real, susds: real, inputs: Bag) {
    12.0 * rewards == susds * MonthTierRate(inputs)
  }

  /**
   * The rest of a month once the first pass has run: supply with the extension boost, the PSM
   * drag on that supply, revenue with the extension adjustments, and the waterfall. Gross revenue
   * is the interest on the supply and the token sales, plus the first pass's adjustments and the
   * PSM drag on this month's supply; the waterfall splits the adjusted net revenue.
   */
  function CompleteMonth(month: int, inputs: Bag, rates: DerivedRates, p: Pass1, totals: (real, real), constants: ModelConstants)
    : (m: MonthResults)
    requires rates.farmYield != 0.0
    ensures MonthConsistent(m, inputs)
    ensures (m.farmableTokens, m.sellableTokens) == totals
    ensures m.supply == SupplyOf(inputs, rates, p.supplyBoost, totals.0, constants)
    ensures 12.0 * m.revenue.tokenSalesIncome == totals.1 * Get(inputs, "sell_token_rate")
    ensures GrossSplits(m.revenue.grossRevenue, m.revenue.tokenSalesIncome, p.grossAdjustment,
                        PsmGross(p.psm, month, inputs, rates, m.supply.avgUsdsSupply), m.supply.avgUsdsSupply, rates.grossRevenueRate)
    ensures 12.0 * m.revenue.savingsExpense == m.supply.avgSusdsSupply * rates.savingsRate
    ensures RewardsPaid(m.revenue.distributionRewards, m.supply.avgSusdsSupply, inputs)
    ensures m.waterfall.netBackstopChange == m.waterfall.backstopContribution - Get(inputs, "backstop_withdrawal")
    ensures m.waterfall.securityBudget == m.revenue.netRevenue * Get(inputs, "security_rate")
    ensures m.waterfall.backstopContribution == (m.revenue.netRevenue - m.waterfall.securityBudget) * constants.backstopRate
    ensures m.month == month && m.rates == rates
    ensures m.extensionCosts == p.costAdjustment && m.extensionSupplyBoost == p.supplyBoost && m.backstopOutflow == p.backstopOutflow
    ensures m.aggregateBackstopCapital == p.aggregateBackstop && m.genesisCapitalRemaining == p.genesisRemaining
  {
    var supply := SupplyOf(inputs, rates, p.supplyBoost, totals.0, constants);
    var grossAdj := p.grossAdjustment + PsmGross(p.psm, month, inputs, rates, supply.avgUsdsSupply);
    var revenue := CalculateRevenue(RevenueInputs(supply.avgUsdsSupply, supply.avgSusdsSupply, rates.grossRevenueRate,
                                                  rates.savingsRate, totals.1, Get(inputs, "sell_token_rate"), 0.0, 0.0,
                                                  Get(inputs, "tier2_ratio"), Get(inputs, "tier3_ratio"), Get(inputs, "tier4_ratio")));
    var adjustedNet := revenue.netRevenue + grossAdj - p.costAdjustment;
    var adjusted := revenue.(grossRevenue := revenue.grossRevenue + grossAdj, netRevenue := adjustedNet);
    var waterfall := CalculateWaterfall(WaterfallInputs(adjustedNet, Get(inputs, "security_rate"), constants.backstopRate,
                                                        Get(inputs, "backstop_withdrawal")));
    MonthResults(month, rates, totals.0, totals.1, supply, adjusted, waterfall, p.costAdjustment,
                 p.supplyBoost, p.backstopOutflow, p.aggregateBackstop, p.genesisRemaining)
  }

  /** The month once its first pass has run: fails on a failed pass (with its error) or a zero farm yield. */
  function FinishMonth(month: int, inputs: Bag, agents: seq<AgentDefinition>, launches: map<string, int>,
                       constants: ModelConstants, rates: DerivedRates, pass: Result<Pass1>)
    : (r: Result<(MonthResults, seq<Extension>)>)
    ensures r.Failure? <==> pass.Failure? || rates.farmYield == 0.0
    ensures r.Failure? ==> r.error == (if pass.Failure? then pass.error else DivisionByZero)
    ensures r.Success? ==> r.value.0.month == month && r.value.0.rates == rates && r.value.1 == pass.value.extensions
    ensures r.Success? ==> MonthConsistent(r.value.0, inputs)
  {
    if pass.Failure? then Failure(pass.error)
    else if rates.farmYield == 0.0 then Failure(DivisionByZero)
    else
      var totals := AggregateActiveAgents(agents, launches, month, Get(inputs, "spark_market_cap"));
      Success((CompleteMonth(month, inputs, rates, pass.value, totals, constants), pass.value.extensions))
  }

  /**
   * One month: the first extension pass, the agents, the supply with the extension boost, the
   * deferred PSM drag on that supply, then revenue and the waterfall. Fails exactly when an
   * extension divides by zero or the farm yield is zero (the supply divides by it). The figures
   * of a computed month are stated by RunMonthSound, RunMonthParts, RunMonthGross,
   * RunMonthRewards, RunMonthExtensions and MonthTrackers.
   */
  function RunMonth(month: int, inputs: Bag, agents: seq<AgentDefinition>, launches: map<string, int>,
                    constants: ModelConstants, exts: seq<Extension>, prior: Option<real>)
    : (r: Result<(MonthResults, seq<Extension>)>)
    ensures r.Failure? <==> AnySpendingFails(exts, month) || RatesOf(inputs).farmYield == 0.0
  {
    var rates := RatesOf(inputs);
    FinishMonth(month, inputs, agents, launches, constants, rates, RunPass1(exts, month, inputs, rates, prior))
  }

  /** A month fails exactly when an extension or the supply divides by zero, and then with that error. */
  lemma RunMonthFails(month: int, inputs: Bag, agents: seq<AgentDefinition>, launches: map<string, int>,
                      constants: ModelConstants, exts: seq<Extension>, prior: Option<real>)
    ensures var r := RunMonth(month, inputs, agents, launches, constants, exts, prior);
      && (r.Failure? <==> AnySpendingFails(exts, month) || RatesOf(inputs).farmYield == 0.0)
      && (r.Failure? ==> r.error == DivisionByZero)
  {
    var rates := RatesOf(inputs);
    var pass := RunPass1(exts, month, inputs, rates, prior);
    assert RunMonth(month, inputs, agents, launches, constants, exts, prior)
        == FinishMonth(month, inputs, agents, launches, constants, rates, pass);
  }

  /** A computed month is the month asked for, at the rates its inputs give, and satisfies the month identities. */
  lemma RunMonthSound(month: int, inputs: Bag, agents: seq<AgentDefinition>, launches: map<string, int>,
                      constants: ModelConstants, exts: seq<Extension>, prior: Option<real>)
    requires RunMonth(month, inputs, agents, launches, constants, exts, prior).Success?
    ensures var m := RunMonth(month, inputs, agents, launches, constants, exts, prior).value.0;
      m.month == month && m.rates == RatesOf(inputs) && MonthConsistent(m, inputs)
  {
    var rates := RatesOf(inputs);
    var pass := RunPass1(exts, month, inputs, rates, prior);
    assert RunMonth(month, inputs, agents, launches, constants, exts, prior)
        == FinishMonth(month, inputs, agents, launches, constants, rates, pass);
  }

  /** The first pass of a computed month, and the month as completed from it. */
  lemma RunMonthCompletes(month: int, inputs: Bag, agents: seq<AgentDefinition>, launches: map<string, int>,
                          constants: ModelConstants, exts: seq<Extension>, prior: Option<real>)
    requires RunMonth(month, inputs, agents, launches, constants, exts, prior).Success?
    ensures RunPass1(exts, month, inputs, RatesOf(inputs), prior).Success? && RatesOf(inputs).farmYield != 0.0
    ensures RunMonth(month, inputs, agents, launches, constants, exts, prior).value.0
         == CompleteMonth(month, inputs, RatesOf(inputs), RunPass1(exts, month, inputs, RatesOf(inputs), prior).value,
                          AggregateActiveAgents(agents, launches, month, Get(inputs, "spark_market_cap")), constants)
  {
    var rates := RatesOf(inputs);
    assert RunMonth(month, inputs, agents, launches, constants, exts, prior)
        == FinishMonth(month, inputs, agents, launches, constants, rates, RunPass1(exts, month, inputs, rates, prior));
  }

  /**
   * A computed month's figures from its parts: the agent totals of this month, the supply on base
   * USDS plus the first pass's boost, and the first pass's costs, boost and outflows as the
   * extension figures.
   */
  lemma RunMonthParts(month: int, inputs: Bag, agents: seq<AgentDefinition>, launches: map<string, int>,
                      constants: ModelConstants, exts: seq<Extension>, prior: Option<real>)
    requires RunMonth(month, inputs, agents, launches, constants, exts, prior).Success?
    ensures RunPass1(exts, month, inputs, RatesOf(inputs), prior).Success? && RatesOf(inputs).farmYield != 0.0
    ensures var m := RunMonth(month, inputs, agents, launches, constants, exts, prior).value.0;
      var p := RunPass1(exts, month, inputs, RatesOf(inputs), prior).value;
      var totals := AggregateActiveAgents(agents, launches, month, Get(inputs, "spark_market_cap"));
      && (m.farmableTokens, m.sellableTokens) == totals
      && m.supply == SupplyOf(inputs, RatesOf(inputs), p.supplyBoost, totals.0, constants)
      && m.extensionCosts == p.costAdjustment && m.extensionSupplyBoost == p.supplyBoost
      && m.backstopOutflow == p.backstopOutflow
  {
    RunMonthCompletes(month, inputs, agents, launches, constants, exts, prior);
  }

  /**
   * A computed month pays its tiers' rewards on its sUSDS, and its backstop moves by the
   * contribution less the withdrawal asked for.
   */
  lemma RunMonthRewards(month: int, inputs: Bag, agents: seq<AgentDefinition>, launches: map<string, int>,
                        constants: ModelConstants, exts: seq<Extension>, prior: Option<real>)
    requires RunMonth(month, inputs, agents, launches, constants, exts, prior).Success?
    ensures var m := RunMonth(month, inputs, agents, launches, constants, exts, prior).value.0;
      && RewardsPaid(m.revenue.distributionRewards, m.supply.avgSusdsSupply, inputs)
      && m.waterfall.netBackstopChange == m.waterfall.backstopContribution - Get(inputs, "backstop_withdrawal")
  {
    RunMonthCompletes(month, inputs, agents, launches, constants, exts, prior);
  }

  /**
   * A computed month's extension figures are the sums of what its instances contribute (every
   * instance but PSM exposure, calculated on this month's inputs and the displayed backstop), and
   * it hands on each instance as its calculation leaves it.
   */
  lemma RunMonthExtensions(month: int, inputs: Bag, agents: seq<AgentDefinition>, launches: map<string, int>,
                           constants: ModelConstants, exts: seq<Extension>, prior: Option<real>)
    requires RunMonth(month, inputs, agents, launches, constants, exts, prior).Success?
    ensures var r := RunMonth(month, inputs, agents, launches, constants, exts, prior).value;
      var t := SumContributions(exts, month, inputs, RatesOf(inputs), prior);
      && r.0.extensionSupplyBoost == t.supplyBoost
      && r.0.extensionCosts == t.costAdjustment
      && r.0.backstopOutflow == t.backstopOutflow
      && GrossSplits(r.0.revenue.grossRevenue, r.0.revenue.tokenSalesIncome, t.grossAdjustment,
                     PsmGross(LastPsm(exts), month, inputs, RatesOf(inputs), r.0.supply.avgUsdsSupply),
                     r.0.supply.avgUsdsSupply, RatesOf(inputs).grossRevenueRate)
      && |r.1| == |exts|
      && forall i :: 0 <= i < |exts| ==> r.1[i] == Handed(exts[i], month, inputs, RatesOf(inputs), prior)
  {
    var rates := RatesOf(inputs);
    RunMonthParts(month, inputs, agents, launches, constants, exts, prior);
    RunMonthGross(month, inputs, agents, launches, constants, exts, prior);
    Pass1Totals(exts, month, inputs, rates, prior);
    Pass1Instances(exts, month, inputs, rates, prior);
    assert RunMonth(month, inputs, agents, launches, constants, exts, prior).value.1
        == RunPass1(exts, month, inputs, rates, prior).value.extensions;
  }

  /**
   * A computed month's gross revenue is the interest on its supply and its token sales, plus the
   * first pass's adjustments and the drag of the last PSM instance on this month's supply.
   */
  lemma RunMonthGross(month: int, inputs: Bag, agents: seq<AgentDefinition>, launches: map<string, int>,
                      constants: ModelConstants, exts: seq<Extension>, prior: Option<real>)
    requires RunMonth(month, inputs, agents, launches, constants, exts, prior).Success?
    ensures RunPass1(exts, month, inputs, RatesOf(inputs), prior).Success?
    ensures var m := RunMonth(month, inputs, agents, launches, constants, exts, prior).value.0;
      var p := RunPass1(exts, month, inputs, RatesOf(inputs), prior).value;
      GrossSplits(m.revenue.grossRevenue, m.revenue.tokenSalesIncome, p.grossAdjustment,
                  PsmGross(LastPsm(exts), month, inputs, RatesOf(inputs), m.supply.avgUsdsSupply),
                  m.supply.avgUsdsSupply, RatesOf(inputs).grossRevenueRate)
  {
    RunMonthCompletes(month, inputs, agents, launches, constants, exts, prior);
    var rates := RatesOf(inputs);
    var p := RunPass1(exts, month, inputs, rates, prior).value;
    Pass1Trackers(exts, month, inputs, rates, prior);
  }

  /** A month's gross revenue less its token sales and adjustments is a twelfth of the supply's interest. */
  predicate GrossSplits(gross: real, tokenSales: real, adjustment: real, psm: real, supply: real, rate: real) {
    12.0 * (gross - tokenSales - adjustment - psm) == supply * rate
  }

  /** A month hands back the same extensions, in the same order, for the next month. */
  lemma RunMonthKeepsExtensions(month: int, inputs: Bag, agents: seq<AgentDefinition>, launches: map<string, int>,
                                constants: ModelConstants, exts: seq<Extension>, prior: Option<real>)
    requires RunMonth(month, inputs, agents, launches, constants, exts, prior).Success?
    ensures SameExtensions(RunMonth(month, inputs, agents, launches, constants, exts, prior).value.1, exts)
  {
    var pass := RunPass1(exts, month, inputs, RatesOf(inputs), prior);
    assert RunMonth(month, inputs, agents, launches, constants, exts, prior).value.1 == pass.value.extensions;
  }

  /**
   * A month reports genesis capital remaining exactly when an enabled genesis capital extension
   * runs, and then the figure the last such instance calculates; it never reports an aggregate backstop.
   */
  lemma MonthTrackers(month: int, inputs: Bag, agents: seq<AgentDefinition>, launches: map<string, int>,
                      constants: ModelConstants, exts: seq<Extension>, prior: Option<real>)
    requires RunMonth(month, inputs, agents, launches, constants, exts, prior).Success?
    ensures var m := RunMonth(month, inputs, agents, launches, constants, exts, prior).value.0;
      && m.aggregateBackstopCapital.None?
      && (m.genesisCapitalRemaining.Some? <==> exists i :: 0 <= i < |exts| && ReportsGenesis(exts[i]))
      && (m.genesisCapitalRemaining.Some? ==>
            exists i :: LastReporter(exts, i)
              && m.genesisCapitalRemaining == Contribution(exts[i], month, inputs, RatesOf(inputs), prior).genesisCapitalRemaining)
  {
    Pass1Trackers(exts, month, inputs, RatesOf(inputs), prior);
    Pass1Genesis(exts, month, inputs, RatesOf(inputs), prior);
  }

  /** Without extensions and agents, and with every spread zero, gross revenue is all paid out as savings: net revenue is nil. */
  lemma NoSpreadNoRevenue(month: int, inputs: Bag, launches: map<string, int>, constants: ModelConstants)
    requires Get(inputs, "savings_rate_spread") == 0.0 && Get(inputs, "gross_revenue_rate_spread") == 0.0
    requires RatesOf(inputs).farmYield != 0.0 && Get(inputs, "unrewarded_usds_user") == 0.0
    requires Get(inputs, "tier2_ratio") == 0.0 && Get(inputs, "tier3_ratio") == 0.0 && Get(inputs, "tier4_ratio") == 0.0
    ensures RunMonth(month, inputs, [], launches, constants, [], None).Success?
    ensures RunMonth(month, inputs, [], launches, constants, [], None).value.0.revenue.netRevenue == 0.0
  {
    assert !AnySpendingFails([], month);
    var rates := RatesOf(inputs);
    assert rates.grossRevenueRate == rates.savingsRate;
    RunMonthCompletes(month, inputs, [], launches, constants, [], None);
    assert RunPass1([], month, inputs, rates, None) == Success(EmptyPass);
    assert AggregateActiveAgents([], launches, month, Get(inputs, "spark_market_cap")) == (0.0, 0.0);
    NoSpreadCompleted(month, inputs, rates, constants);
  }

  /** The month completed from an empty pass with no agents, at a gross rate equal to the savings rate. */
  lemma NoSpreadCompleted(month: int, inputs: Bag, rates: DerivedRates, constants: ModelConstants)
    requires rates.farmYield != 0.0 && rates.grossRevenueRate == rates.savingsRate
    requires Get(inputs, "unrewarded_usds_user") == 0.0
    requires Get(inputs, "tier2_ratio") == 0.0 && Get(inputs, "tier3_ratio") == 0.0 && Get(inputs, "tier4_ratio") == 0.0
    ensures CompleteMonth(month, inputs, rates, EmptyPass, (0.0, 0.0), constants).revenue.netRevenue == 0.0
  {
    var m := CompleteMonth(month, inputs, rates, EmptyPass, (0.0, 0.0), constants);
    assert m.revenue.grossRevenue == m.revenue.savingsExpense;
  }
}

=== FILE: extbase.dfy ===
/** What an extension contributes to one month, and the base extension that contributes nothing. */
module ExtensionBase {
  import opened Wrappers
  import opened Inputs
  import opened Rates

  /**
   * One extension's effect on a month: revenue and cost adjustments (a positive cost is an
   * expense), extra USDS supply, direct backstop outflows, and two optional backstop trackers.
   */
  datatype ExtensionResults = ExtensionResults(
    grossRevenueAdjustment: real,
    costAdjustment: real,
    supplyBoost: real,
    backstopOutflow: real,
    aggregateBackstopCapital: Option<real>,
    genesisCapitalRemaining: Option<real>)

  /** The default results: every adjustment zero, no tracker reported. */
  const NoEffect: ExtensionResults := ExtensionResults(0.0, 0.0, 0.0, 0.0, None, None)

  /** Touches only gross revenue and costs. */
  predicate RevenueOnly(r: ExtensionResults) {
    r.supplyBoost == 0.0 && r.backstopOutflow == 0.0 && r.aggregateBackstopCapital.None? && r.genesisCapitalRemaining.None?
  }

  /** Touches only gross revenue. */
  predicate GrossOnly(r: ExtensionResults) {
    RevenueOnly(r) && r.costAdjustment == 0.0
  }

  /** Touches only costs. */
  predicate CostOnly(r: ExtensionResults) {
    RevenueOnly(r) && r.grossRevenueAdjustment == 0.0
  }

  /** Touches only the supply. */
  predicate SupplyOnly(r: ExtensionResults) {
    r.grossRevenueAdjustment == 0.0 && r.costAdjustment == 0.0 && r.backstopOutflow == 0.0
    && r.aggregateBackstopCapital.None? && r.genesisCapitalRemaining.None?
  }

  /** Touches only the backstop outflow. */
  predicate OutflowOnly(r: ExtensionResults) {
    r.grossRevenueAdjustment == 0.0 && r.costAdjustment == 0.0 && r.supplyBoost == 0.0
    && r.aggregateBackstopCapital.None? && r.genesisCapitalRemaining.None?
  }

  /** The base extension: whatever the month, inputs and rates, it changes nothing. */
  function BaseCalculate(month: int, inputs: Bag, rates: DerivedRates): (r: ExtensionResults)
    ensures GrossOnly(r) && CostOnly(r) && SupplyOnly(r) && OutflowOnly(r)
    ensures r.grossRevenueAdjustment == 0.0
  {
    NoEffect
  }

  /** Only the default results touch nothing at all. */
  lemma NoEffectIsTheOnlyInert(r: ExtensionResults)
    ensures (GrossOnly(r) && CostOnly(r) && SupplyOnly(r) && OutflowOnly(r)) <==> r == NoEffect
  {
  }
}

=== FILE: genesiscapital.dfy ===
/**
 * Genesis capital phase-out: while the displayed backstop is at or above a threshold, each
 * eligible star's genesis capital is phased out by a per-star amount each month. The
 * cumulative phase-out per star is the extension's state, threaded from month to month.
 */
module GenesisCapital {
  import opened Wrappers
  import opened Inputs
  import opened Rates
  import opened ExtensionBase

  const DefaultMinBackstop: real := 50000000.0
  const DefaultBasePhaseout: real := 1000000.0
  const DefaultPhaseoutPer10m: real := 1000000.0
  const DefaultTokenLaunch: int := 1
  /** Each full step of this size above the threshold adds one more per-10m phase-out. */
  const PhaseoutStep: real := 10000000.0

  /** A star's genesis capital, the month its token launches, and whether it has trading volume. */
  datatype GenesisStar = GenesisStar(name: string, genesisCapital: Option<real>, tokenLaunch: Option<int>, hasVolume: Option<bool>)

  datatype GenesisConfig = GenesisConfig(minBackstopThreshold: Option<real>, basePhaseoutPerStar: Option<real>,
                                         phaseoutPer10mAbove: Option<real>, stars: seq<GenesisStar>)

  /** Cumulative phase-out per star name. */
  type Phaseout = map<string, real>

  /** The stars are keyed by name: no name occurs twice. */
  predicate DistinctNames(stars: seq<GenesisStar>) {
    forall i, j :: 0 <= i < j < |stars| ==> stars[i].name != stars[j].name
  }

  /** The cumulative phase-out of a star (zero before its first phase-out). */
  function Cum(st: Phaseout, name: string): real {
    if name in st then st[name] else 0.0
  }

  function Capital(s: GenesisStar): real { s.genesisCapital.GetOr(0.0) }

  /** Genesis capital not yet phased out (negative once over-phased). */
  function StarRemaining(s: GenesisStar, st: Phaseout): real {
    Capital(s) - Cum(st, s.name)
  }

  function Max0(x: real): real { if x > 0.0 then x else 0.0 }

  function Min(x: real, y: real): real { if x <= y then x else y }

  /** The genesis capital remaining over all `stars`, each star counted at no less than zero. */
  function TotalRemaining(stars: seq<GenesisStar>, st: Phaseout): (t: real)
    ensures t >= 0.0
    decreases |stars|
  {
    if |stars| == 0 then 0.0 else TotalRemaining(stars[..|stars| - 1], st) + Max0(StarRemaining(stars[|stars| - 1], st))
  }

  /** The configured genesis capital of all `stars`, as the engine sums it before any phase-out. */
  function InitialGenesis(stars: seq<GenesisStar>): real
    decreases |stars|
  {
    if |stars| == 0 then 0.0 else InitialGenesis(stars[..|stars| - 1]) + Capital(stars[|stars| - 1])
  }

  function MinBackstop(c: GenesisConfig): real { c.minBackstopThreshold.GetOr(DefaultMinBackstop) }

  /** The number of whole 10M steps by which the displayed backstop exceeds the threshold. */
  function WholeSteps(c: GenesisConfig, displayed: real): (k: nat)
    requires displayed >= MinBackstop(c)
    ensures k as real * PhaseoutStep <= displayed - MinBackstop(c) < (k + 1) as real * PhaseoutStep
  {
    var x := (displayed - MinBackstop(c)) / PhaseoutStep;
    var steps := x.Floor;
    assert 0 <= steps by { assert 0.0 <= x && x - 1.0 < steps as real; }
    assert steps as real <= x < steps as real + 1.0;
    steps
  }

  /**
   * The phase-out per eligible star: the base amount plus the per-10m amount for each whole
   * 10M by which the displayed backstop exceeds the threshold.
   */
  function PerStar(c: GenesisConfig, displayed: real): (p: real)
    requires displayed >= MinBackstop(c)
    ensures p == c.basePhaseoutPerStar.GetOr(DefaultBasePhaseout) + WholeSteps(c, displayed) as real * c.phaseoutPer10mAbove.GetOr(DefaultPhaseoutPer10m)
    ensures c.phaseoutPer10mAbove.GetOr(DefaultPhaseoutPer10m) >= 0.0 ==> p >= c.basePhaseoutPerStar.GetOr(DefaultBasePhaseout)
    ensures displayed < MinBackstop(c) + PhaseoutStep ==> p == c.basePhaseoutPerStar.GetOr(DefaultBasePhaseout)
  {
    var steps := WholeSteps(c, displayed);
    assert displayed < MinBackstop(c) + PhaseoutStep ==> steps == 0;
    c.basePhaseoutPerStar.GetOr(DefaultBasePhaseout) + steps as real * c.phaseoutPer10mAbove.GetOr(DefaultPhaseoutPer10m)
  }

  /** The star may be phased out this month: its token has launched and it has volume. */
  predicate Eligible(s: GenesisStar, month: int) {
    month >= s.tokenLaunch.GetOr(DefaultTokenLaunch) && s.hasVolume.GetOr(true)
  }

  /**
   * One star's phase-out: an eligible star with capital remaining loses the per-star amount,
   * capped at what remains; every other star's cumulative phase-out is left as it was.
   */
  function Step(s: GenesisStar, st: Phaseout, month: int, perStar: real): (r: Phaseout)
    ensures Cum(r, s.name) == Cum(st, s.name) +
      (if Eligible(s, month) && StarRemaining(s, st) > 0.0 then Min(perStar, StarRemaining(s, st)) else 0.0)
    ensures forall n :: n != s.name ==> Cum(r, n) == Cum(st, n)
  {
    if Eligible(s, month) && StarRemaining(s, st) > 0.0 then
      st[s.name := Cum(st, s.name) + Min(perStar, StarRemaining(s, st))]
    else st
  }

  /** Phase out every star in order; a name no star carries keeps its cumulative phase-out. */
  function PhaseStars(stars: seq<GenesisStar>, st: Phaseout, month: int, perStar: real): (r: Phaseout)
    ensures forall n :: (forall i :: 0 <= i < |stars| ==> stars[i].name != n) ==> Cum(r, n) == Cum(st, n)
    decreases |stars|
  {
    if |stars| == 0 then st
    else
      var rest := stars[1..];
      assert forall i :: 0 <= i < |rest| ==> rest[i] == stars[i + 1];
      PhaseStars(rest, Step(stars[0], st, month, perStar), month, perStar)
  }

  /** The backstop the threshold is tested against: the one displayed, else the genesis capital remaining. */
  function Displayed(c: GenesisConfig, displayed: Option<real>, st: Phaseout): real {
    displayed.GetOr(TotalRemaining(c.stars, st))
  }

  /**
   * One month: below the threshold nothing is phased out; at or above it every star is phased
   * out in turn. The results report only the genesis capital remaining afterwards; the new
   * cumulative phase-out is returned alongside.
   */
  function Calculate(enabled: bool, c: GenesisConfig, month: int, inputs: Bag, rates: DerivedRates,
                     displayed: Option<real>, st: Phaseout): (r: (ExtensionResults, Phaseout))
    ensures !enabled ==> r == (NoEffect, st)
    ensures enabled ==> r.0 == NoEffect.(genesisCapitalRemaining := Some(TotalRemaining(c.stars, r.1)))
    ensures enabled && Displayed(c, displayed, st) < MinBackstop(c) ==> r.1 == st
    ensures enabled && Displayed(c, displayed, st) >= MinBackstop(c) ==>
      r.1 == PhaseStars(c.stars, st, month, PerStar(c, Displayed(c, displayed, st)))
  {
    if !enabled then (NoEffect, st)
    else
      var d := Displayed(c, displayed, st);
      var st' := if d >= MinBackstop(c) then PhaseStars(c.stars, st, month, PerStar(c, d)) else st;
      (NoEffect.(genesisCapitalRemaining := Some(TotalRemaining(c.stars, st'))), st')
  }

  /** A step's effect on a star depends only on that star's own cumulative phase-out. */
  lemma StepLocal(s: GenesisStar, a: Phaseout, b: Phaseout, month: int, perStar: real)
    requires Cum(a, s.name) == Cum(b, s.name)
    ensures Cum(Step(s, a, month, perStar), s.name) == Cum(Step(s, b, month, perStar), s.name)
  {
  }

  /**
   * With distinct star names, each star's cumulative phase-out grows by exactly its own step:
   * by min(per-star amount, remaining capital) when eligible with capital remaining, else not at all.
   */
  lemma {:induction false} PhaseoutPerStar(stars: seq<GenesisStar>, st: Phaseout, month: int, perStar: real, i: int)
    requires DistinctNames(stars) && 0 <= i < |stars|
    ensures var s := stars[i];
      Cum(PhaseStars(stars, st, month, perStar), s.name)
      == Cum(st, s.name) + (if Eligible(s, month) && StarRemaining(s, st) > 0.0 then Min(perStar, StarRemaining(s, st)) else 0.0)
    decreases |stars|
  {
    var next := Step(stars[0], st, month, perStar);
    var rest := stars[1..];
    assert forall k :: 0 <= k < |rest| ==> rest[k] == stars[k + 1];
    if i == 0 {
      assert forall j :: 0 <= j < |rest| ==> rest[j].name != stars[0].name;
    } else {
      assert DistinctNames(rest);
      PhaseoutPerStar(rest, next, month, perStar, i - 1);
      assert Cum(next, stars[i].name) == Cum(st, stars[i].name);
      StepLocal(stars[i], next, st, month, perStar);
    }
  }

  /** With a non-negative per-star amount, no star's cumulative phase-out ever decreases. */
  lemma {:induction false} PhaseoutMonotone(stars: seq<GenesisStar>, st: Phaseout, month: int, perStar: real, name: string)
    requires perStar >= 0.0
    ensures Cum(st, name) <= Cum(PhaseStars(stars, st, month, perStar), name)
    decreases |stars|
  {
    if |stars| > 0 {
      var next := Step(stars[0], st, month, perStar);
      assert Cum(st, name) <= Cum(next, name);
      PhaseoutMonotone(stars[1..], next, month, perStar, name);
    }
  }

  /** More cumulative phase-out for every star means no more genesis capital remaining. */
  lemma {:induction false} TotalRemainingAntitone(stars: seq<GenesisStar>, a: Phaseout, b: Phaseout)
    requires forall i :: 0 <= i < |stars| ==> Cum(a, stars[i].name) <= Cum(b, stars[i].name)
    ensures TotalRemaining(stars, b) <= TotalRemaining(stars, a)
    decreases |stars|
  {
    if |stars| > 0 {
      var front := stars[..|stars| - 1];
      assert forall i :: 0 <= i < |front| ==> front[i] == stars[i];
      TotalRemainingAntitone(front, a, b);
    }
  }

  /** A month never increases the genesis capital remaining, given non-negative phase-out amounts. */
  lemma RemainingNonIncreasing(c: GenesisConfig, month: int, inputs: Bag, rates: DerivedRates, displayed: Option<real>, st: Phaseout)
    requires c.basePhaseoutPerStar.GetOr(DefaultBasePhaseout) >= 0.0 && c.phaseoutPer10mAbove.GetOr(DefaultPhaseoutPer10m) >= 0.0
    ensures var r := Calculate(true, c, month, inputs, rates, displayed, st);
      TotalRemaining(c.stars, r.1) <= TotalRemaining(c.stars, st)
  {
    var d := Displayed(c, displayed, st);
    if d >= MinBackstop(c) {
      var p := PerStar(c, d);
      forall i | 0 <= i < |c.stars| ensures Cum(st, c.stars[i].name) <= Cum(PhaseStars(c.stars, st, month, p), c.stars[i].name) {
        PhaseoutMonotone(c.stars, st, month, p, c.stars[i].name);
      }
      TotalRemainingAntitone(c.stars, st, PhaseStars(c.stars, st, month, p));
    }
  }

  /** Phase-out stops at the genesis capital: a star phased out no further than its capital stays so. */
  lemma PhaseoutCappedAtCapital(stars: seq<GenesisStar>, st: Phaseout, month: int, perStar: real, i: int)
    requires DistinctNames(stars) && 0 <= i < |stars|
    requires Cum(st, stars[i].name) <= Max0(Capital(stars[i]))
    ensures Cum(PhaseStars(stars, st, month, perStar), stars[i].name) <= Max0(Capital(stars[i]))
  {
    PhaseoutPerStar(stars, st, month, perStar, i);
  }

  /** Before any phase-out, with non-negative capitals, the remaining genesis capital is the configured total. */
  lemma {:induction false} InitialRemaining(stars: seq<GenesisStar>)
    requires forall i :: 0 <= i < |stars| ==> Capital(stars[i]) >= 0.0
    ensures TotalRemaining(stars, map[]) == InitialGenesis(stars)
    decreases |stars|
  {
    if |stars| > 0 {
      var front := stars[..|stars| - 1];
      assert forall i :: 0 <= i < |front| ==> front[i] == stars[i];
      InitialRemaining(front);
    }
  }

  /** A displayed backstop of 75M with the default thresholds phases out 1M plus 2 x 1M per star. */
  lemma PerStarExample(c: GenesisConfig)
    requires c.minBackstopThreshold.None? && c.basePhaseoutPerStar.None? && c.phaseoutPer10mAbove.None?
    ensures PerStar(c, 75000000.0) == 3000000.0
  {
    assert (75000000.0 - 50000000.0) / PhaseoutStep == 2.5;
    assert (2.5).Floor == 2;
  }
}

=== FILE: genesisprime.dfy ===
/** Genesis primes: prime tokens Sky holds are sold at a fixed annual rate once each prime launches. */
module GenesisPrime {
  import opened Wrappers
  import opened Inputs
  import opened Rates
  import opened ExtensionBase

  const DefaultSellRate: real := 0.175
  const DefaultOwnership: real := 0.70
  const DefaultLaunchMonth: int := 1

  /** A prime: market cap as a share of Spark's, Sky's ownership, and launch month. */
  datatype Prime = Prime(name: string, launchMonth: Option<int>, marketCapPct: Option<real>, ownership: Option<real>)

  datatype PrimeConfig = PrimeConfig(sellRate: Option<real>, primes: seq<Prime>)

  /** One prime's monthly token sales: the sell rate of Sky's holdings, for one month, from launch on. */
  function PrimeSales(c: PrimeConfig, p: Prime, month: int, sparkCap: real): real {
    if month < p.launchMonth.GetOr(DefaultLaunchMonth) then 0.0
    else sparkCap * p.marketCapPct.GetOr(0.0) * p.ownership.GetOr(DefaultOwnership) * c.sellRate.GetOr(DefaultSellRate) * MonthlyFactor
  }

  /** The monthly token sales of all `primes`. */
  function TotalSales(c: PrimeConfig, primes: seq<Prime>, month: int, sparkCap: real): real
    decreases |primes|
  {
    if |primes| == 0 then 0.0
    else TotalSales(c, primes[..|primes| - 1], month, sparkCap) + PrimeSales(c, primes[|primes| - 1], month, sparkCap)
  }

  /**
   * Token sales of all primes as extra gross revenue; Spark's market cap comes only from the
   * `spark_market_cap` input (zero when absent). Only gross revenue is touched.
   */
  function Calculate(enabled: bool, c: PrimeConfig, month: int, inputs: Bag, rates: DerivedRates): (r: ExtensionResults)
    ensures GrossOnly(r)
    ensures !enabled ==> r == NoEffect
    ensures enabled ==> r.grossRevenueAdjustment == TotalSales(c, c.primes, month, Get(inputs, "spark_market_cap"))
  {
    if !enabled then NoEffect
    else NoEffect.(grossRevenueAdjustment := TotalSales(c, c.primes, month, Get(inputs, "spark_market_cap")))
  }

  /** The sales of a concatenation of prime lists are the sum of theirs. */
  lemma {:induction false} TotalSalesAppend(c: PrimeConfig, a: seq<Prime>, b: seq<Prime>, month: int, cap: real)
    ensures TotalSales(c, a + b, month, cap) == TotalSales(c, a, month, cap) + TotalSales(c, b, month, cap)
    decreases |b|
  {
    if |b| == 0 {
      assert a + b == a;
    } else {
      var front := b[..|b| - 1];
      assert (a + b)[..|a + b| - 1] == a + front;
      assert (a + b)[|a + b| - 1] == b[|b| - 1];
      TotalSalesAppend(c, a, front, month, cap);
    }
  }

  /** Sales never stop: once launched, a prime sells the same amount every month. */
  lemma SalesNeverEnd(c: PrimeConfig, p: Prime, month: int, cap: real)
    requires month >= p.launchMonth.GetOr(DefaultLaunchMonth)
    ensures PrimeSales(c, p, month, cap) == PrimeSales(c, p, p.launchMonth.GetOr(DefaultLaunchMonth), cap)
  {
  }

  /** An unlaunched prime sells nothing: Obex launching in month 11 earns nothing in month 10. */
  lemma ObexBeforeLaunch(rates: DerivedRates)
    ensures var obex := Prime("obex", Some(11), Some(0.60), Some(0.70));
      Calculate(true, PrimeConfig(Some(0.175), [obex]), 10, map["spark_market_cap" := 430000000.0], rates).grossRevenueAdjustment == 0.0
  {
    var obex := Prime("obex", Some(11), Some(0.60), Some(0.70));
    assert [obex][..0] == [];
  }

  /** Obex in its launch month: 60% of Spark's 430M, 70% owned, 17.5% sold a year, one month of it. */
  lemma ObexAtLaunch(rates: DerivedRates)
    ensures var obex := Prime("obex", Some(11), Some(0.60), Some(0.70));
      Calculate(true, PrimeConfig(Some(0.175), [obex]), 11, map["spark_market_cap" := 430000000.0], rates).grossRevenueAdjustment
      == 430000000.0 * 0.60 * 0.70 * 0.175 / 12.0
  {
    var obex := Prime("obex", Some(11), Some(0.60), Some(0.70));
    assert [obex][..0] == [];
  }
}

=== FILE: genesisspending.dfy ===
/** Genesis capital spending: a total backstop outflow spread evenly over a window of months (not an expense). */
module GenesisSpending {
  import opened Wrappers
  import opened Inputs
  import opened Rates
  import opened ExtensionBase

  const DefaultStartMonth: int := 2
  const DefaultEndMonth: int := 12

  datatype SpendingConfig = SpendingConfig(startMonth: Option<int>, endMonth: Option<int>, totalOutflow: Option<real>)

  function Start(c: SpendingConfig): int { c.startMonth.GetOr(DefaultStartMonth) }
  function End(c: SpendingConfig): int { c.endMonth.GetOr(DefaultEndMonth) }
  function Total(c: SpendingConfig): real { c.totalOutflow.GetOr(0.0) }

  /** The months of the window, start and end included (zero or negative for an empty window). */
  function WindowLength(c: SpendingConfig): int { End(c) - Start(c) + 1 }

  /** The reference schedule: an equal share of the total in every month of a non-empty window, nothing elsewhere. */
  function ScheduledOutflow(c: SpendingConfig, month: int): real
    requires Start(c) <= End(c)
  {
    if Start(c) <= month <= End(c) then Total(c) / WindowLength(c) as real else 0.0
  }

  /**
   * The month's backstop outflow. The per-month share is divided out once the month reaches the
   * start, before the end is checked, so a window ending the month before it starts divides by
   * zero from the start month on; otherwise the outflow is the equal share inside the window.
   */
  function Calculate(enabled: bool, c: SpendingConfig, month: int, inputs: Bag, rates: DerivedRates): (r: Result<ExtensionResults>)
    ensures r.Failure? <==> enabled && month >= Start(c) && WindowLength(c) == 0
    ensures r.Failure? ==> r.error == DivisionByZero
    ensures r.Success? ==> OutflowOnly(r.value)
    ensures r.Success? && (!enabled || month < Start(c) || month > End(c)) ==> r.value == NoEffect
    ensures r.Success? && enabled && Start(c) <= month <= End(c) ==>
      r.value.backstopOutflow * WindowLength(c) as real == Total(c)
    ensures enabled && Start(c) <= End(c) ==> r == Success(NoEffect.(backstopOutflow := ScheduledOutflow(c, month)))
  {
    if !enabled || month < Start(c) then Success(NoEffect)
    else if WindowLength(c) == 0 then Failure(DivisionByZero)
    else
      var monthly := Total(c) / WindowLength(c) as real;
      if month > End(c) then Success(NoEffect)
      else Success(NoEffect.(backstopOutflow := monthly))
  }

  /** Outflows scheduled from the start month through `month`. */
  function OutflowThrough(c: SpendingConfig, month: int): real
    requires Start(c) <= End(c)
    decreases month - Start(c)
  {
    if month < Start(c) then 0.0 else OutflowThrough(c, month - 1) + ScheduledOutflow(c, month)
  }

  /** Inside the window the cumulative outflow is the monthly share times the months elapsed. */
  lemma {:induction false} CumulativeOutflow(c: SpendingConfig, month: int)
    requires Start(c) <= End(c) && Start(c) - 1 <= month <= End(c)
    ensures OutflowThrough(c, month) * WindowLength(c) as real == Total(c) * (month - Start(c) + 1) as real
    decreases month - Start(c)
  {
    if month >= Start(c) {
      CumulativeOutflow(c, month - 1);
      var n := WindowLength(c) as real;
      assert ScheduledOutflow(c, month) * n == Total(c);
      assert OutflowThrough(c, month) * n == OutflowThrough(c, month - 1) * n + ScheduledOutflow(c, month) * n;
    }
  }

  /** After the window nothing more flows out. */
  lemma {:induction false} NothingAfterWindow(c: SpendingConfig, month: int)
    requires Start(c) <= End(c) <= month
    ensures OutflowThrough(c, month) == OutflowThrough(c, End(c))
    decreases month - End(c)
  {
    if month > End(c) {
      NothingAfterWindow(c, month - 1);
    }
  }

  /** Over any horizon reaching the window's end, the outflows add up to the configured total. */
  lemma OutflowsSumToTotal(c: SpendingConfig, month: int)
    requires Start(c) <= End(c) <= month
    ensures OutflowThrough(c, month) == Total(c)
  {
    NothingAfterWindow(c, month);
    CumulativeOutflow(c, End(c));
  }
}

=== FILE: inputs.dfy ===
/** The flat per-month input bag and the lookups the engine and extensions perform on it. */
module Inputs {

  /** Resolved inputs of one month: field name to value. */
  type Bag = map<string, real>

  /** One twelfth, the factor that turns an annual rate into a monthly one. */
  const MonthlyFactor: real := 1.0 / 12.0

  /** Python's `inputs.get(key, default)`. */
  function GetOr(inputs: Bag, key: string, default: real): real {
    if key in inputs then inputs[key] else default
  }

  /** The engine's reading of a monthly input: an absent key reads as zero. */
  function Get(inputs: Bag, key: string): (v: real)
    ensures key !in inputs ==> v == 0.0
    ensures key in inputs ==> v == inputs[key]
  {
    GetOr(inputs, key, 0.0)
  }
}

=== FILE: keys.dfy ===
/** Least and greatest elements of finite non-empty sets of months. */
module Keys {

  /** `m` bounds every element of `s` from above. */
  predicate IsUpper(m: int, s: set<int>) {
    forall k :: k in s ==> k <= m
  }

  /** `m` bounds every element of `s` from below. */
  predicate IsLower(m: int, s: set<int>) {
    forall k :: k in s ==> m <= k
  }

  /** A set with no members is the empty set. */
  lemma EmptyByExtension(s: set<int>)
    ensures (forall x :: x !in s) ==> s == {}
  {
    if forall x :: x !in s {
      assert s == {};
    }
  }

  lemma HasElement(s: set<int>)
    requires s != {}
    ensures exists x :: x in s
  {
    EmptyByExtension(s);
  }

  lemma MaxExists(s: set<int>)
    requires s != {}
    ensures exists m :: m in s && IsUpper(m, s)
    decreases |s|
  {
    HasElement(s);
    var x :| x in s;
    var rest := s - {x};
    if rest == {} {
      forall k | k in s ensures k <= x {
        assert k !in rest;
      }
      assert IsUpper(x, s);
    } else {
      MaxExists(rest);
      var m :| m in rest && IsUpper(m, rest);
      var top := if x > m then x else m;
      forall k | k in s ensures k <= top {
        if k != x { assert k in rest; }
      }
      assert IsUpper(top, s);
    }
  }

  lemma MinExists(s: set<int>)
    requires s != {}
    ensures exists m :: m in s && IsLower(m, s)
    decreases |s|
  {
    HasElement(s);
    var x :| x in s;
    var rest := s - {x};
    if rest == {} {
      forall k | k in s ensures x <= k {
        assert k !in rest;
      }
      assert IsLower(x, s);
    } else {
      MinExists(rest);
      var m :| m in rest && IsLower(m, rest);
      var bottom := if x < m then x else m;
      forall k | k in s ensures bottom <= k {
        if k != x { assert k in rest; }
      }
      assert IsLower(bottom, s);
    }
  }

  /** The greatest element of `s`. */
  function MaxKey(s: set<int>): (m: int)
    requires s != {}
    ensures m in s
    ensures forall k :: k in s ==> k <= m
  {
    MaxExists(s);
    var m :| m in s && IsUpper(m, s); m
  }

  /** The least element of `s`. */
  function MinKey(s: set<int>): (m: int)
    requires s != {}
    ensures m in s
    ensures forall k :: k in s ==> m <= k
  {
    MinExists(s);
    var m :| m in s && IsLower(m, s); m
  }
}

=== FILE: monthinputs.dfy ===
/**
 * Per-month input resolution: baseline, then trajectory values, then every scheduled change
 * up to the month in ascending month order, then the impulse of exactly this month.
 */
module MonthInputs {
  import opened Wrappers
  import opened Keys
  import opened Inputs
  import opened Trajectories

  /** Field overrides of one change or impulse. */
  type Overrides = map<string, real>

  /** Month number to the overrides scheduled for it. */
  type MonthMap = map<int, Overrides>

  /** Month `m` of `ks` sets field `x`, and no later month of `ks` sets it again. */
  predicate SetsLast(changes: MonthMap, ks: set<int>, x: string, m: int)
    requires ks <= changes.Keys
  {
    && m in ks
    && x in changes[m]
    && forall m' :: m' in ks && m < m' ==> x !in changes[m']
  }

  /**
   * The change maps at the months `ks`, each applied over the previous ones in ascending month
   * order: a field is present iff some month sets it, and carries the value of the latest such month.
   */
  function Overlay(changes: MonthMap, ks: set<int>): (r: Overrides)
    requires ks <= changes.Keys
    ensures forall x :: x in r <==> exists m :: m in ks && x in changes[m]
    ensures forall x, m :: SetsLast(changes, ks, x, m) ==> x in r && r[x] == changes[m][x]
    decreases ks
  {
    if ks == {} then map[]
    else
      var top := MaxKey(ks);
      var rest := ks - {top};
      var below := Overlay(changes, rest);
      assert forall x, m :: SetsLast(changes, ks, x, m) && m != top ==> SetsLast(changes, rest, x, m);
      below + changes[top]
  }

  /** The scheduled months at or before `month`. */
  function MonthsUpTo(changes: MonthMap, month: int): (ks: set<int>)
    ensures ks <= changes.Keys
  {
    set m | m in changes && m <= month
  }

  /** All scheduled changes at or before `month`, layered in ascending month order. */
  function CumulativeChanges(changes: MonthMap, month: int): Overrides {
    Overlay(changes, MonthsUpTo(changes, month))
  }

  /** The impulse scheduled for exactly this month, or nothing. */
  function ImpulseAt(impulses: MonthMap, month: int): Overrides {
    if month in impulses then impulses[month] else map[]
  }

  /** Every trajectory can be evaluated at `month`. */
  predicate TrajectoriesDefined(trajectories: map<string, Trajectory>, month: int) {
    forall f :: f in trajectories ==> TrajectoryValue(trajectories[f], month).Success?
  }

  /** The value of each trajectory at `month`. */
  function TrajectoryLayer(trajectories: map<string, Trajectory>, month: int): Overrides
    requires TrajectoriesDefined(trajectories, month)
  {
    map f | f in trajectories :: TrajectoryValue(trajectories[f], month).value
  }

  /**
   * Resolve every input of `month`. Fails exactly when some trajectory cannot be evaluated at
   * this month (which trajectory is not reported).
   */
  function ResolveMonthInputs(month: int, baseline: Bag, changes: MonthMap, impulses: MonthMap,
                              trajectories: map<string, Trajectory>): (r: Result<Bag>)
    ensures r.Failure? <==> !TrajectoriesDefined(trajectories, month)
    ensures r.Failure? ==> r.error == InvalidTrajectory
  {
    if !TrajectoriesDefined(trajectories, month) then
      Failure(InvalidTrajectory)
    else
      Success(baseline + TrajectoryLayer(trajectories, month) + CumulativeChanges(changes, month)
              + ImpulseAt(impulses, month))
  }

  /** Some change at or before `month` sets field `x`. */
  predicate ChangedBy(changes: MonthMap, month: int, x: string) {
    exists m :: m in changes && m <= month && x in changes[m]
  }

  /**
   * Precedence of the layers for one field: the impulse of this exact month wins; otherwise the
   * latest change at or before the month that sets the field; otherwise the trajectory;
   * otherwise the baseline. A field is present iff some layer provides it.
   */
  lemma MonthInputsPrecedence(month: int, baseline: Bag, changes: MonthMap, impulses: MonthMap,
                              trajectories: map<string, Trajectory>, x: string)
    requires TrajectoriesDefined(trajectories, month)
    ensures var r := ResolveMonthInputs(month, baseline, changes, impulses, trajectories).value;
      && (x in r <==> (x in baseline || x in trajectories || ChangedBy(changes, month, x)
                       || (month in impulses && x in impulses[month])))
      && (month in impulses && x in impulses[month] ==> r[x] == impulses[month][x])
      && (forall m :: (!(month in impulses && x in impulses[month])
                      && SetsLast(changes, MonthsUpTo(changes, month), x, m)) ==> r[x] == changes[m][x])
      && ((!(month in impulses && x in impulses[month]) && !ChangedBy(changes, month, x) && x in trajectories)
            ==> r[x] == TrajectoryValue(trajectories[x], month).value)
      && ((!(month in impulses && x in impulses[month]) && !ChangedBy(changes, month, x) && x !in trajectories
            && x in baseline) ==> r[x] == baseline[x])
  {
    var ks := MonthsUpTo(changes, month);
    var cumulative := CumulativeChanges(changes, month);
    assert x in cumulative <==> ChangedBy(changes, month, x) by {
      if ChangedBy(changes, month, x) {
        var m :| m in changes && m <= month && x in changes[m];
        assert m in ks;
      }
    }
  }

  /** Impulses of other months never reach this month's inputs. */
  lemma ImpulsesStayInTheirMonth(month: int, baseline: Bag, changes: MonthMap, impulses: MonthMap,
                                 other: MonthMap, trajectories: map<string, Trajectory>)
    requires ImpulseAt(impulses, month) == ImpulseAt(other, month)
    ensures ResolveMonthInputs(month, baseline, changes, impulses, trajectories)
         == ResolveMonthInputs(month, baseline, changes, other, trajectories)
  {
  }
}

=== FILE: monthtables.dfy ===
/**
 * Month-keyed sections of a scenario as written (`changes`, `impulses`): period tokens mapped
 * to field overrides, in insertion order, and their normalisation to month numbers.
 */
module MonthTables {
  import opened Wrappers
  import opened Keys
  import opened Periods
  import opened MonthInputs

  /** An insertion-ordered dictionary from period tokens to overrides. */
  type MonthTable = seq<(PeriodRef, Overrides)>

  /** No token occurs twice (a dictionary). */
  predicate DistinctKeys(t: MonthTable) {
    forall i, j :: 0 <= i < j < |t| ==> t[i].0 != t[j].0
  }

  /** The overrides stored under token `k`, if any (the first entry with that token). */
  function Lookup(t: MonthTable, k: PeriodRef): (r: Option<Overrides>)
    ensures r.Some? <==> exists i :: 0 <= i < |t| && t[i].0 == k
    ensures r.Some? && DistinctKeys(t) ==> forall i :: 0 <= i < |t| && t[i].0 == k ==> r.value == t[i].1
  {
    if |t| == 0 then None
    else if t[0].0 == k then Some(t[0].1)
    else
      var r := Lookup(t[1..], k);
      assert forall i :: 1 <= i < |t| ==> t[i] == t[1..][i - 1];
      r
  }

  /**
   * Merge overrides `v` into the entry for token `k`: an existing entry keeps its position and
   * gains the fields of `v` (which win); a new token is appended at the end.
   */
  function Upsert(t: MonthTable, k: PeriodRef, v: Overrides): (r: MonthTable)
    ensures Lookup(r, k) == Some(if Lookup(t, k).Some? then Lookup(t, k).value + v else v)
    ensures forall k' :: k' != k ==> Lookup(r, k') == Lookup(t, k')
  {
    if |t| == 0 then [(k, v)]
    else if t[0].0 == k then
      var r := [(k, t[0].1 + v)] + t[1..];
      assert r[1..] == t[1..];
      r
    else
      var rest := Upsert(t[1..], k, v);
      var r := [t[0]] + rest;
      assert r[1..] == rest;
      r
  }

  /** Upserting into a dictionary leaves a dictionary. */
  lemma {:induction false} UpsertDistinct(t: MonthTable, k: PeriodRef, v: Overrides)
    requires DistinctKeys(t)
    ensures DistinctKeys(Upsert(t, k, v))
    decreases |t|
  {
    var r := Upsert(t, k, v);
    if |t| > 0 {
      var tail := t[1..];
      assert forall i :: 0 <= i < |tail| ==> tail[i] == t[i + 1];
      assert DistinctKeys(tail);
      assert Lookup(tail, t[0].0).None?;
      if t[0].0 == k {
        assert forall i :: 1 <= i < |r| ==> r[i] == t[i];
      } else {
        var rest := Upsert(tail, k, v);
        UpsertDistinct(tail, k, v);
        assert r == [t[0]] + rest;
        assert Lookup(rest, t[0].0).None?;
        forall i, j | 0 <= i < j < |r| ensures r[i].0 != r[j].0 {
          if i > 0 {
            assert r[i] == rest[i - 1] && r[j] == rest[j - 1];
          } else {
            assert r[j] == rest[j - 1];
          }
        }
      }
    }
  }

  /** Combine what a parent and a child store for one token: child fields win, parent fields stay. */
  function Combine(parent: Option<Overrides>, child: Option<Overrides>): Option<Overrides> {
    match (parent, child)
    case (None, None) => None
    case (Some(p), None) => Some(p)
    case (None, Some(c)) => Some(c)
    case (Some(p), Some(c)) => Some(p + c)
  }

  /** Merge every entry of `child`, in order, into `parent`. */
  function MergeTables(parent: MonthTable, child: MonthTable): (r: MonthTable)
    ensures DistinctKeys(parent) ==> DistinctKeys(r)
    decreases |child|
  {
    if |child| == 0 then parent
    else
      var next := Upsert(parent, child[0].0, child[0].1);
      assert DistinctKeys(parent) ==> DistinctKeys(next) by {
        if DistinctKeys(parent) {
          UpsertDistinct(parent, child[0].0, child[0].1);
        }
      }
      MergeTables(next, child[1..])
  }

  /**
   * Merging a child section into a parent section combines them token by token: a token in
   * both keeps the parent's fields, overridden by the child's; a token in one keeps its entry.
   */
  lemma {:induction false} MergeTablesLookup(parent: MonthTable, child: MonthTable, k: PeriodRef)
    requires DistinctKeys(child)
    ensures Lookup(MergeTables(parent, child), k) == Combine(Lookup(parent, k), Lookup(child, k))
    decreases |child|
  {
    if |child| > 0 {
      var next := Upsert(parent, child[0].0, child[0].1);
      var tail := child[1..];
      assert DistinctKeys(tail) by {
        forall i, j | 0 <= i < j < |tail| ensures tail[i].0 != tail[j].0 {
          assert tail[i] == child[i + 1] && tail[j] == child[j + 1];
        }
      }
      MergeTablesLookup(next, tail, k);
      if child[0].0 == k {
        assert Lookup(child, k) == Some(child[0].1);
        forall i | 0 <= i < |tail| ensures tail[i].0 != k {
          assert tail[i] == child[i + 1];
        }
        assert Lookup(tail, k).None?;
      } else {
        assert Lookup(child, k) == Lookup(tail, k);
      }
    }
  }

  /** Every token of section `t` resolves. */
  predicate SectionResolves(t: MonthTable, periods: PeriodTable) {
    forall i :: 0 <= i < |t| ==> ResolvePeriodName(t[i].0, periods).Success?
  }

  /** Position `i` holds the first token of `t` that does not resolve. */
  predicate FirstUnresolvedToken(t: MonthTable, periods: PeriodTable, i: int) {
    && 0 <= i < |t|
    && ResolvePeriodName(t[i].0, periods).Failure?
    && forall j :: 0 <= j < i ==> ResolvePeriodName(t[j].0, periods).Success?
  }

  /** The month of every token of `t`, resolved in order, stopping at the first token that does not resolve. */
  function ResolveTokens(t: MonthTable, periods: PeriodTable): Result<seq<int>>
    decreases |t|
  {
    if |t| == 0 then Success([])
    else
      var ms :- ResolveTokens(t[..|t| - 1], periods);
      var m :- ResolvePeriodName(t[|t| - 1].0, periods);
      Success(ms + [m])
  }

  /**
   * The month of every token of `t`, resolved in order. Fails exactly when some token does not
   * resolve, with the error of the first such token.
   */
  function ResolveAll(t: MonthTable, periods: PeriodTable): (r: Result<seq<int>>)
    ensures r.Success? <==> SectionResolves(t, periods)
    ensures r.Success? ==> |r.value| == |t|
    ensures r.Success? ==> forall i :: 0 <= i < |t| ==> ResolvePeriodName(t[i].0, periods) == Success(r.value[i])
    ensures r.Failure? ==> exists i :: FirstUnresolvedToken(t, periods, i) && ResolvePeriodName(t[i].0, periods).error == r.error
  {
    ResolveTokensSucceed(t, periods);
    ResolveTokensFail(t, periods);
    ResolveTokens(t, periods)
  }

  /** Resolution succeeds exactly when every token resolves, with each token's month in its place. */
  lemma {:induction false} ResolveTokensSucceed(t: MonthTable, periods: PeriodTable)
    ensures ResolveTokens(t, periods).Success? <==> SectionResolves(t, periods)
    ensures ResolveTokens(t, periods).Success? ==>
      (|ResolveTokens(t, periods).value| == |t|
       && forall i :: 0 <= i < |t| ==> ResolvePeriodName(t[i].0, periods) == Success(ResolveTokens(t, periods).value[i]))
    decreases |t|
  {
    if |t| > 0 {
      var front := t[..|t| - 1];
      ResolveTokensSucceed(front, periods);
      assert forall i :: 0 <= i < |front| ==> front[i] == t[i];
    }
  }

  /** A failed resolution carries the error of the first token that does not resolve. */
  lemma {:induction false} ResolveTokensFail(t: MonthTable, periods: PeriodTable)
    ensures ResolveTokens(t, periods).Failure? ==>
      exists i :: FirstUnresolvedToken(t, periods, i) && ResolvePeriodName(t[i].0, periods).error == ResolveTokens(t, periods).error
    decreases |t|
  {
    if ResolveTokens(t, periods).Success? { return; }
    var front := t[..|t| - 1];
    var e := ResolveTokens(t, periods).error;
    if ResolveTokens(front, periods).Failure? {
      ResolveTokensFail(front, periods);
      var i :| FirstUnresolvedToken(front, periods, i) && ResolvePeriodName(front[i].0, periods).error == e;
      FirstUnresolvedExtends(t, periods, i);
    } else {
      ResolveTokensSucceed(front, periods);
      LastUnresolvedFirst(t, periods);
    }
  }

  /** The first unresolved token of all but the last is the first unresolved token of the whole section. */
  lemma FirstUnresolvedExtends(t: MonthTable, periods: PeriodTable, i: int)
    requires |t| > 0 && FirstUnresolvedToken(t[..|t| - 1], periods, i)
    ensures FirstUnresolvedToken(t, periods, i) && t[i] == t[..|t| - 1][i]
  {
    var front := t[..|t| - 1];
    assert forall j :: 0 <= j < |front| ==> front[j] == t[j];
  }

  /** When all but the last token resolve and the last does not, the last is the first unresolved. */
  lemma LastUnresolvedFirst(t: MonthTable, periods: PeriodTable)
    requires |t| > 0 && SectionResolves(t[..|t| - 1], periods)
    requires ResolvePeriodName(t[|t| - 1].0, periods).Failure?
    ensures FirstUnresolvedToken(t, periods, |t| - 1)
  {
    assert forall j :: 0 <= j < |t| - 1 ==> t[..|t| - 1][j] == t[j];
  }

  /** The entries of `t` stored under the months `ms`, in order: a repeated month keeps the later entry. */
  function Assign(ms: seq<int>, t: MonthTable): MonthMap
    requires |ms| == |t|
  {
    if |t| == 0 then map[]
    else Assign(ms[..|ms| - 1], t[..|t| - 1])[ms[|ms| - 1] := t[|t| - 1].1]
  }

  /** Position `i` of `ms` holds month `m` and no later position does. */
  predicate LastAt(ms: seq<int>, i: int, m: int) {
    0 <= i < |ms| && ms[i] == m && forall j :: i < j < |ms| ==> ms[j] != m
  }

  /** Assigning entries to months keeps exactly the months listed, each with the entry of its last position. */
  lemma {:induction false} AssignLastWins(ms: seq<int>, t: MonthTable)
    requires |ms| == |t|
    ensures forall m :: m in Assign(ms, t) <==> m in ms
    ensures forall i, m :: LastAt(ms, i, m) ==> m in Assign(ms, t) && Assign(ms, t)[m] == t[i].1
    decreases |t|
  {
    if |t| > 0 {
      var last := |t| - 1;
      var front := ms[..last];
      AssignLastWins(front, t[..last]);
      assert ms == front + [ms[last]];
      forall i, m | LastAt(ms, i, m) ensures m in Assign(ms, t) && Assign(ms, t)[m] == t[i].1 {
        if i < last {
          assert LastAt(front, i, m);
          assert t[..last][i] == t[i];
        }
      }
    }
  }

  /**
   * Resolve every token of `t` to its month, in order; a later token resolving to the same month
   * replaces the whole entry. Fails exactly when some token does not resolve, with the error of the
   * first such token.
   */
  function NormalizeMonthDict(t: MonthTable, periods: PeriodTable): (r: Result<MonthMap>)
    ensures r.Success? <==> SectionResolves(t, periods)
    ensures r.Failure? ==> exists i :: FirstUnresolvedToken(t, periods, i) && ResolvePeriodName(t[i].0, periods).error == r.error
  {
    var ms :- ResolveAll(t, periods);
    Success(Assign(ms, t))
  }

  /**
   * A normalised section holds exactly the months its tokens resolve to, and a month reached by
   * several tokens carries the entry of the last of them.
   */
  lemma NormalizeLastWins(t: MonthTable, periods: PeriodTable)
    requires NormalizeMonthDict(t, periods).Success?
    ensures var ms := ResolveAll(t, periods).value; var r := NormalizeMonthDict(t, periods).value;
      && (forall m :: m in r <==> m in ms)
      && (forall i, m :: LastAt(ms, i, m) ==> m in r && r[m] == t[i].1)
  {
    AssignLastWins(ResolveAll(t, periods).value, t);
  }

  /** Section `r` lists map `m`: distinct keys, each a month of `m` with its entry, and every month of `m` listed. */
  predicate Lists(r: MonthTable, m: MonthMap) {
    && DistinctKeys(r)
    && (forall i :: 0 <= i < |r| ==> r[i].0.Month? && r[i].0.month in m && r[i].1 == m[r[i].0.month])
    && (forall k :: k in m ==> exists i :: 0 <= i < |r| && r[i].0 == Month(k))
  }

  /** A month in front of a listing of the rest of the map lists the whole map. */
  lemma ListsCons(m: MonthMap, lo: int, tail: MonthTable)
    requires lo in m && Lists(tail, m - {lo})
    ensures Lists([(Month(lo), m[lo])] + tail, m)
  {
    var r := [(Month(lo), m[lo])] + tail;
    assert forall i :: 1 <= i < |r| ==> r[i] == tail[i - 1];
    forall k | k in m ensures exists i :: 0 <= i < |r| && r[i].0 == Month(k) {
      if k == lo {
        assert r[0].0 == Month(k);
      } else {
        assert k in m - {lo};
        var i :| 0 <= i < |tail| && tail[i].0 == Month(k);
        assert r[i + 1].0 == Month(k);
      }
    }
  }

  /** A map written back as a section: one entry per month, in ascending month order. */
  function TableOf(m: MonthMap): (r: MonthTable)
    ensures Lists(r, m)
    decreases m.Keys
  {
    if m.Keys == {} then []
    else
      var lo := MinKey(m.Keys);
      var tail := TableOf(m - {lo});
      ListsCons(m, lo, tail);
      [(Month(lo), m[lo])] + tail
  }

  /** Tokens that are all month numbers resolve to themselves. */
  lemma ResolveAllMonths(t: MonthTable, periods: PeriodTable)
    requires forall i :: 0 <= i < |t| ==> t[i].0.Month?
    ensures ResolveAll(t, periods).Success?
    ensures forall i :: 0 <= i < |t| ==> ResolveAll(t, periods).value[i] == t[i].0.month
  {
    assert forall i :: 0 <= i < |t| ==> ResolvePeriodName(t[i].0, periods) == Success(t[i].0.month);
  }

  /** Table `t` assigns its entries to the months of `m`, each month to its own entry. */
  lemma AssignTableOf(m: MonthMap, ms: seq<int>, t: MonthTable)
    requires Lists(t, m) && |ms| == |t|
    requires forall i :: 0 <= i < |t| ==> ms[i] == t[i].0.month
    ensures Assign(ms, t) == m
  {
    AssignLastWins(ms, t);
    var r := Assign(ms, t);
    forall k | k in m ensures k in r && r[k] == m[k] {
      var i :| 0 <= i < |t| && t[i].0 == Month(k);
      ListedLast(m, ms, t, i);
    }
    forall k | k in r ensures k in m {
      var i :| 0 <= i < |ms| && ms[i] == k;
    }
  }

  /** In a listing of a map, a position's month occurs at no later position. */
  lemma ListedLast(m: MonthMap, ms: seq<int>, t: MonthTable, i: int)
    requires Lists(t, m) && |ms| == |t| && 0 <= i < |t|
    requires forall j :: 0 <= j < |t| ==> ms[j] == t[j].0.month
    ensures LastAt(ms, i, ms[i])
  {
    forall j | i < j < |ms| ensures ms[j] != ms[i] {
      assert t[i].0 != t[j].0;
    }
  }

  /** Normalising a section written back from a map recovers the map, whatever the named periods. */
  lemma NormalizeTableOf(m: MonthMap, periods: PeriodTable)
    ensures NormalizeMonthDict(TableOf(m), periods) == Success(m)
  {
    var t := TableOf(m);
    ResolveAllMonths(t, periods);
    var ms := ResolveAll(t, periods).value;
    AssignTableOf(m, ms, t);
  }
}

=== FILE: periods.dfy ===
/** Period tokens: month numbers, named periods (`q1`..`q4`, `h1`, `h2`, custom) and numeric strings. */
module Periods {
  import opened Wrappers

  /** A month as written in a scenario: an integer or a string token. */
  datatype PeriodRef = Month(month: int) | Named(name: string)

  /** Named periods: name to the list of months it covers. */
  type PeriodTable = map<string, seq<int>>

  /** The built-in quarters and halves. */
  const DefaultPeriods: PeriodTable := map[
    "q1" := [1, 2, 3],
    "q2" := [4, 5, 6],
    "q3" := [7, 8, 9],
    "q4" := [10, 11, 12],
    "h1" := [1, 2, 3, 4, 5, 6],
    "h2" := [7, 8, 9, 10, 11, 12]
  ]

  predicate IsDigit(c: char) {
    '0' <= c <= '9'
  }

  predicate AllDigits(s: string) {
    forall i :: 0 <= i < |s| ==> IsDigit(s[i])
  }

  function DigitValue(c: char): nat
    requires IsDigit(c)
  {
    (c as int) - ('0' as int)
  }

  function DigitChar(d: nat): (c: char)
    requires d < 10
    ensures IsDigit(c) && DigitValue(c) == d
  {
    ('0' as int + d) as char
  }

  /** The number a string of decimal digits denotes. */
  function DigitsValue(s: string): nat
    requires AllDigits(s)
  {
    if |s| == 0 then 0 else 10 * DigitsValue(s[..|s| - 1]) + DigitValue(s[|s| - 1])
  }

  /**
   * The ASCII whitespace `int()` strips around a numeral: space, tab, line feed, vertical tab,
   * form feed, carriage return, and the file, group, record and unit separators (28 to 31).
   */
  predicate IsSpace(c: char) {
    c == ' ' || 9 <= c as int <= 13 || 28 <= c as int <= 31
  }

  /** `s` without its leading whitespace. */
  function TrimStart(s: string): (t: string)
    ensures |t| > 0 ==> !IsSpace(t[0])
    decreases |s|
  {
    if |s| > 0 && IsSpace(s[0]) then TrimStart(s[1..]) else s
  }

  /** `s` without its trailing whitespace. */
  function TrimEnd(s: string): (t: string)
    ensures |t| > 0 ==> !IsSpace(t[|t| - 1])
    decreases |s|
  {
    if |s| > 0 && IsSpace(s[|s| - 1]) then TrimEnd(s[..|s| - 1]) else s
  }

  /** `s` without surrounding whitespace. */
  function Strip(s: string): string {
    TrimEnd(TrimStart(s))
  }

  /** Decimal digits, with single underscores allowed between two digits. */
  predicate IsDigitRun(s: string) {
    && |s| > 0 && IsDigit(s[0]) && IsDigit(s[|s| - 1])
    && (forall i :: 0 <= i < |s| ==> IsDigit(s[i]) || s[i] == '_')
    && (forall i :: 0 <= i < |s| - 1 ==> s[i] == '_' ==> IsDigit(s[i + 1]))
  }

  /** The digits of `s`, underscores dropped. */
  function DropUnderscores(s: string): (d: string)
    requires forall i :: 0 <= i < |s| ==> IsDigit(s[i]) || s[i] == '_'
    ensures AllDigits(d)
    ensures AllDigits(s) ==> d == s
    decreases |s|
  {
    if |s| == 0 then ""
    else
      var front := DropUnderscores(s[..|s| - 1]);
      if s[|s| - 1] == '_' then front else front + [s[|s| - 1]]
  }

  /** Digits (single underscores allowed between them) with an optional leading sign. */
  predicate IsNumeral(s: string) {
    if |s| > 0 && (s[0] == '-' || s[0] == '+') then IsDigitRun(s[1..])
    else IsDigitRun(s)
  }

  /**
   * Python's `int(s)` on a string: surrounding whitespace is stripped; what is left must be an
   * optional sign and decimal digits, single underscores allowed between digits. Its value is the
   * digits' value, negated under a minus sign.
   */
  function ParseInt(s: string): (r: Option<int>)
    ensures r.Some? <==> IsNumeral(Strip(s))
    ensures r.Some? ==> var t := Strip(s);
      if t[0] == '-' then r.value == -(DigitsValue(DropUnderscores(t[1..])) as int)
      else if t[0] == '+' then r.value == DigitsValue(DropUnderscores(t[1..]))
      else r.value == DigitsValue(DropUnderscores(t))
  {
    var t := Strip(s);
    if |t| > 0 && (t[0] == '-' || t[0] == '+') then
      var body := t[1..];
      if IsDigitRun(body) then
        var n := DigitsValue(DropUnderscores(body));
        Some(if t[0] == '-' then -(n as int) else n)
      else None
    else if IsDigitRun(t) then Some(DigitsValue(DropUnderscores(t)))
    else None
  }

  /** Whitespace before or after a string does not change what it parses to. */
  lemma ParseIntIgnoresSpace(s: string, c: char)
    requires IsSpace(c)
    ensures ParseInt([c] + s) == ParseInt(s)
    ensures ParseInt(s + [c]) == ParseInt(s)
  {
    assert ([c] + s)[1..] == s;
    StripAppendSpace(s, c);
  }

  lemma {:induction false} StripAppendSpace(s: string, c: char)
    requires IsSpace(c)
    ensures Strip(s + [c]) == Strip(s)
    decreases |s|
  {
    if |s| == 0 {
      assert TrimStart([c]) == TrimStart([c][1..]);
    } else if IsSpace(s[0]) {
      assert (s + [c])[1..] == s[1..] + [c];
      StripAppendSpace(s[1..], c);
    } else {
      assert (s + [c])[..|s|] == s;
    }
  }

  /** A plus sign is accepted, as `int()` reads it. */
  lemma ParseIntPlusSign()
    ensures ParseInt("+7").Some? && ParseInt("+7").value == 7
  {
    var seven := "7";
    assert seven[0] == '7' && seven[..0] == "";
    assert AllDigits(seven);
    ParseSignedDigits(seven);
    assert "+" + seven == "+7";
  }

  /** Leading zeros are accepted, as `int()` reads them. */
  lemma ParseIntLeadingZeros()
    ensures ParseInt("007").Some? && ParseInt("007").value == 7
  {
    var zeros := "007";
    assert zeros[0] == '0' && zeros[1] == '0' && zeros[2] == '7';
    assert AllDigits(zeros);
    ParseDigits(zeros);
    assert zeros[..2] == "00" && "00"[..1] == "0" && "0"[..0] == "";
  }

  /** A digit run, underscores allowed between digits, parses as the number its digits denote. */
  lemma ParseDigitRun(s: string)
    requires IsDigitRun(s)
    ensures ParseInt(s).Some? && ParseInt(s).value == DigitsValue(DropUnderscores(s))
  {
    assert !IsSpace(s[0]) && TrimStart(s) == s;
    assert !IsSpace(s[|s| - 1]) && TrimEnd(s) == s;
  }

  /** Underscores between digits are dropped. */
  lemma ParseIntUnderscores()
    ensures ParseInt("1_000").Some? && ParseInt("1_000").value == 1000
  {
    var s := "1_000";
    assert s[0] == '1' && s[1] == '_' && s[2] == '0' && s[3] == '0' && s[4] == '0';
    assert IsDigitRun(s);
    ParseDigitRun(s);
    DropUnderscoresExample();
    ThousandValue();
  }

  /** "1_000" without its underscore is "1000". */
  lemma DropUnderscoresExample()
    ensures DropUnderscores("1_000") == "1000"
  {
    var s := "1_000";
    assert s[0] == '1' && s[1] == '_' && s[2] == '0' && s[3] == '0' && s[4] == '0';
    assert s[..4] == "1_00" && "1_00"[..3] == "1_0" && "1_0"[..2] == "1_" && "1_"[..1] == "1" && "1"[..0] == "";
  }

  /** "1000" denotes one thousand. */
  lemma ThousandValue()
    ensures AllDigits("1000") && DigitsValue("1000") == 1000
  {
    var t := "1000";
    assert t[0] == '1' && t[1] == '0' && t[2] == '0' && t[3] == '0';
    assert t[..3] == "100" && "100"[..2] == "10" && "10"[..1] == "1" && "1"[..0] == "";
  }

  /** An underscore must sit between two digits. */
  lemma ParseIntMisplacedUnderscores()
    ensures ParseInt("_1") == None && ParseInt("1_") == None && ParseInt("1__0") == None
  {
    var a, b, c := "_1", "1_", "1__0";
    assert a[0] == '_' && a[1] == '1' && b[0] == '1' && b[1] == '_';
    assert c[0] == '1' && c[1] == '_' && c[2] == '_' && c[3] == '0';
    assert Strip(a) == a && Strip(b) == b && Strip(c) == c;
    assert !IsDigitRun(c) by {
      assert c[1] == '_' && !IsDigit(c[2]);
    }
  }

  /** Decimal rendering of a natural number, most significant digit first. */
  function NatToString(n: nat): string
  {
    if n < 10 then [DigitChar(n)] else NatToString(n / 10) + [DigitChar(n % 10)]
  }

  /** Python's `str(n)` for an integer. */
  function IntToString(n: int): string
  {
    if n < 0 then "-" + NatToString(-n) else NatToString(n)
  }

  lemma {:induction false} NatToStringDenotes(n: nat)
    ensures |NatToString(n)| > 0
    ensures AllDigits(NatToString(n))
    ensures DigitsValue(NatToString(n)) == n
  {
    var s := NatToString(n);
    if n >= 10 {
      NatToStringDenotes(n / 10);
      var prefix := NatToString(n / 10);
      assert s == prefix + [DigitChar(n % 10)];
      assert s[..|s| - 1] == prefix;
    }
  }

  /** A string of digits has no surrounding whitespace and no underscores. */
  lemma DigitsUntouched(s: string)
    requires |s| > 0 && AllDigits(s)
    ensures Strip(s) == s && IsDigitRun(s) && DropUnderscores(s) == s
  {
  }

  /** A minus sign before a string of digits has no surrounding whitespace. */
  lemma SignedDigitsUntouched(digits: string, sign: char)
    requires |digits| > 0 && AllDigits(digits) && (sign == '-' || sign == '+')
    ensures Strip([sign] + digits) == [sign] + digits
  {
    var s := [sign] + digits;
    assert s[0] == sign && !IsSpace(s[0]);
    assert TrimStart(s) == s;
    assert s[|s| - 1] == digits[|digits| - 1];
  }

  /** A non-empty string of digits parses as the number it denotes. */
  lemma ParseDigits(digits: string)
    requires |digits| > 0 && AllDigits(digits)
    ensures ParseInt(digits) == Some(DigitsValue(digits))
  {
    DigitsUntouched(digits);
  }

  /** A sign before a non-empty string of digits parses as the signed number the digits denote. */
  lemma ParseSignedDigits(digits: string)
    requires |digits| > 0 && AllDigits(digits)
    ensures ParseInt("-" + digits).Some? && ParseInt("-" + digits).value == -(DigitsValue(digits) as int)
    ensures ParseInt("+" + digits).Some? && ParseInt("+" + digits).value == DigitsValue(digits)
  {
    ParseSign(digits, '-');
    ParseSign(digits, '+');
    assert "-" + digits == ['-'] + digits && "+" + digits == ['+'] + digits;
  }

  lemma ParseSign(digits: string, sign: char)
    requires |digits| > 0 && AllDigits(digits) && (sign == '-' || sign == '+')
    ensures ParseInt([sign] + digits).Some?
    ensures sign == '-' ==> ParseInt([sign] + digits).value == -(DigitsValue(digits) as int)
    ensures sign == '+' ==> ParseInt([sign] + digits).value == DigitsValue(digits)
  {
    var s := [sign] + digits;
    DigitsUntouched(digits);
    SignedDigitsUntouched(digits, sign);
    assert s[0] == sign && s[1..] == digits;
    assert IsNumeral(Strip(s));
  }

  /** Parsing inverts rendering: every integer written out in decimal reads back as itself. */
  lemma ParseIntRoundTrip(n: int)
    ensures ParseInt(IntToString(n)).Some? && ParseInt(IntToString(n)).value == n
  {
    if n < 0 {
      NatToStringDenotes(-n);
      ParseSignedDigits(NatToString(-n));
    } else {
      NatToStringDenotes(n);
      ParseDigits(NatToString(n));
    }
  }

  /**
   * The first month of a period token: integers stand for themselves; a name in `periods`
   * yields the first month of its list; otherwise a built-in name yields its first month;
   * otherwise the token must be a numeral.
   */
  function ResolvePeriodName(value: PeriodRef, periods: PeriodTable): (r: Result<int>)
    ensures value.Month? ==> r == Success(value.month)
    ensures value.Named? && value.name in periods ==>
      r == (if |periods[value.name]| > 0 then Success(periods[value.name][0]) else Failure(EmptyPeriod))
    ensures value.Named? && value.name !in periods && value.name in DefaultPeriods ==>
      r == Success(DefaultPeriods[value.name][0])
    ensures value.Named? && value.name !in periods && value.name !in DefaultPeriods ==>
      && (r.Success? <==> ParseInt(value.name).Some?)
      && (r.Success? ==> r.value == ParseInt(value.name).value)
      && (r.Failure? ==> r.error == UnknownPeriod)
  {
    match value
    case Month(m) => Success(m)
    case Named(name) =>
      if name in periods then
        (if |periods[name]| > 0 then Success(periods[name][0]) else Failure(EmptyPeriod))
      else if name in DefaultPeriods then Success(DefaultPeriods[name][0])
      else match ParseInt(name)
        case Some(n) => Success(n)
        case None => Failure(UnknownPeriod)
  }

  /** Without custom overrides the built-in names resolve to the first month of their quarter or half. */
  lemma BuiltinPeriodsFirstMonth(periods: PeriodTable)
    requires forall name :: name in DefaultPeriods ==> name !in periods
    ensures ResolvePeriodName(Named("q1"), periods) == Success(1)
    ensures ResolvePeriodName(Named("q2"), periods) == Success(4)
    ensures ResolvePeriodName(Named("q3"), periods) == Success(7)
    ensures ResolvePeriodName(Named("q4"), periods) == Success(10)
    ensures ResolvePeriodName(Named("h1"), periods) == Success(1)
    ensures ResolvePeriodName(Named("h2"), periods) == Success(7)
  {
    assert "q1" in DefaultPeriods && "q2" in DefaultPeriods && "q3" in DefaultPeriods;
    assert "q4" in DefaultPeriods && "h1" in DefaultPeriods && "h2" in DefaultPeriods;
  }

  /** A custom period shadows a built-in one of the same name. */
  lemma CustomPeriodWins(name: string, months: seq<int>, periods: PeriodTable)
    requires |months| > 0
    ensures ResolvePeriodName(Named(name), periods[name := months]) == Success(months[0])
  {
  }

  /** A numeric string that is not a period name resolves to the integer it spells. */
  lemma NumericNameResolves(n: int, periods: PeriodTable)
    requires IntToString(n) !in periods
    ensures ResolvePeriodName(Named(IntToString(n)), periods) == Success(n)
  {
    var s := IntToString(n);
    ParseIntRoundTrip(n);
    assert |s| > 0 && (s[0] == '-' || IsDigit(s[0])) by {
      if n >= 0 {
        NatToStringDenotes(n);
      } else {
        NatToStringDenotes(-n);
      }
    }
    NumeralNotBuiltin(s);
  }

  /** No built-in period name starts with a sign or a digit. */
  lemma NumeralNotBuiltin(s: string)
    requires |s| > 0 && (s[0] == '-' || IsDigit(s[0]))
    ensures s !in DefaultPeriods
  {
    assert DefaultPeriods.Keys == {"q1", "q2", "q3", "q4", "h1", "h2"};
    assert s != "q1" && s != "q2" && s != "q3" && s != "q4" && s != "h1" && s != "h2" by {
      assert s[0] != 'q' && s[0] != 'h';
    }
  }
}

=== FILE: psm.dfy ===
/** PSM exposure: collateral held in the PSM earns SOFR plus a (negative) spread instead of the gross rate. */
module Psm {
  import opened Wrappers
  import opened Inputs
  import opened Rates
  import opened ExtensionBase

  const DefaultSpread: real := -0.003

  /** Configured spread over SOFR, share of total USDS held, and fixed amount held. */
  datatype PsmConfig = PsmConfig(spread: Option<real>, pct: Option<real>, amount: Option<real>)

  /** The PSM share of supply: the `psm_pct` input, else the configured share, else zero. */
  function PsmPct(c: PsmConfig, inputs: Bag): real {
    GetOr(inputs, "psm_pct", c.pct.GetOr(0.0))
  }

  /** The supply the share applies to: `total_usds`, else `base_usds`, else zero. */
  function TotalUsds(inputs: Bag): real {
    GetOr(inputs, "total_usds", GetOr(inputs, "base_usds", 0.0))
  }

  /**
   * The amount held in the PSM: a positive share of the supply when a positive share is given;
   * otherwise the `psm_amount` input, else the configured amount, else zero.
   */
  function PsmAmount(c: PsmConfig, inputs: Bag): (a: real)
    ensures PsmPct(c, inputs) > 0.0 ==> a == TotalUsds(inputs) * PsmPct(c, inputs)
    ensures PsmPct(c, inputs) <= 0.0 && "psm_amount" in inputs ==> a == inputs["psm_amount"]
    ensures PsmPct(c, inputs) <= 0.0 && "psm_amount" !in inputs ==> a == c.amount.GetOr(0.0)
  {
    var pct := PsmPct(c, inputs);
    if pct > 0.0 then TotalUsds(inputs) * pct
    else GetOr(inputs, "psm_amount", c.amount.GetOr(0.0))
  }

  /** The rate the PSM collateral earns: SOFR (from the inputs) plus the spread. */
  function PsmRate(c: PsmConfig, inputs: Bag): real {
    Get(inputs, "sofr") + c.spread.GetOr(DefaultSpread)
  }

  /**
   * The monthly drag on gross revenue: disabled or with no positive amount held, nothing;
   * otherwise twelve months of the (negative) adjustment forgo the gross rate and earn the PSM
   * rate on the amount held. Nothing but gross revenue is touched.
   */
  function Calculate(enabled: bool, c: PsmConfig, month: int, inputs: Bag, rates: DerivedRates): (r: ExtensionResults)
    ensures GrossOnly(r)
    ensures !enabled || PsmAmount(c, inputs) <= 0.0 ==> r == NoEffect
    ensures enabled && PsmAmount(c, inputs) > 0.0 ==>
      12.0 * r.grossRevenueAdjustment == PsmAmount(c, inputs) * (PsmRate(c, inputs) - rates.grossRevenueRate)
  {
    if !enabled then NoEffect
    else
      var amount := PsmAmount(c, inputs);
      if amount <= 0.0 then NoEffect
      else
        var monthlyCost := amount * (rates.grossRevenueRate - PsmRate(c, inputs)) * MonthlyFactor;
        NoEffect.(grossRevenueAdjustment := -monthlyCost)
  }

  /** A positive share takes precedence: the fixed `psm_amount` input is then ignored. */
  lemma ShareIgnoresFixedAmount(c: PsmConfig, month: int, inputs: Bag, rates: DerivedRates, fixed: real)
    requires PsmPct(c, inputs) > 0.0
    ensures Calculate(true, c, month, inputs["psm_amount" := fixed], rates) == Calculate(true, c, month, inputs, rates)
  {
    var other := inputs["psm_amount" := fixed];
    assert PsmPct(c, other) == PsmPct(c, inputs);
    assert TotalUsds(other) == TotalUsds(inputs);
  }

  /** When the PSM earns the gross rate there is no drag. */
  lemma NoGapNoDrag(c: PsmConfig, month: int, inputs: Bag, rates: DerivedRates)
    requires PsmRate(c, inputs) == rates.grossRevenueRate
    ensures Calculate(true, c, month, inputs, rates).grossRevenueAdjustment == 0.0
  {
  }

  /**
   * With a positive share and the PSM earning less than the gross rate, a larger total supply
   * never lessens the drag.
   */
  lemma DragGrowsWithSupply(c: PsmConfig, month: int, inputs: Bag, rates: DerivedRates, more: real)
    requires PsmPct(c, inputs) > 0.0
    requires PsmRate(c, inputs) <= rates.grossRevenueRate
    requires 0.0 <= TotalUsds(inputs) <= more
    ensures Calculate(true, c, month, inputs["total_usds" := more], rates).grossRevenueAdjustment
         <= Calculate(true, c, month, inputs, rates).grossRevenueAdjustment
  {
    var other := inputs["total_usds" := more];
    var pct := PsmPct(c, inputs);
    var gap := rates.grossRevenueRate - PsmRate(c, inputs);
    assert PsmPct(c, other) == pct && PsmRate(c, other) == PsmRate(c, inputs);
    assert TotalUsds(other) == more;
    assert PsmAmount(c, other) == more * pct && PsmAmount(c, inputs) == TotalUsds(inputs) * pct;
    DragOfShare(c, month, other, rates);
    DragOfShare(c, month, inputs, rates);
    ScaleMonotone(TotalUsds(inputs), more, pct, gap);
  }

  /** With a positive share of a non-negative supply, twelve months of the drag are the share's forgone interest, zero included. */
  lemma DragOfShare(c: PsmConfig, month: int, inputs: Bag, rates: DerivedRates)
    requires PsmPct(c, inputs) > 0.0 && TotalUsds(inputs) >= 0.0
    ensures 12.0 * Calculate(true, c, month, inputs, rates).grossRevenueAdjustment
         == -(TotalUsds(inputs) * PsmPct(c, inputs) * (rates.grossRevenueRate - PsmRate(c, inputs)))
  {
    if TotalUsds(inputs) * PsmPct(c, inputs) <= 0.0 {
      assert TotalUsds(inputs) * PsmPct(c, inputs) == 0.0;
    }
  }

  /** Scaling by two non-negative factors keeps the order. */
  lemma ScaleMonotone(x: real, y: real, p: real, q: real)
    requires x <= y && 0.0 <= p && 0.0 <= q
    ensures x * p * q <= y * p * q
  {
    assert x * p <= y * p;
  }
}

=== FILE: rates.dfy ===
/** Rate derivations from the SOFR base rate. */
module Rates {

  /** SOFR and the three spreads the other rates are derived from. */
  datatype RateInputs = RateInputs(sofr: real, savingsRateSpread: real, grossRevenueRateSpread: real, farmYieldSpread: real)

  /** The rates of one month. */
  datatype DerivedRates = DerivedRates(sofr: real, savingsRate: real, grossRevenueRate: real, farmYield: real)

  /**
   * The savings rate sits its spread above SOFR; the gross revenue rate and the farm yield sit
   * their spreads above the savings rate. Total: no input is rejected.
   */
  function DeriveRates(i: RateInputs): (r: DerivedRates)
    ensures r.sofr == i.sofr
    ensures r.savingsRate - r.sofr == i.savingsRateSpread
    ensures r.grossRevenueRate - r.savingsRate == i.grossRevenueRateSpread
    ensures r.farmYield - r.savingsRate == i.farmYieldSpread
  {
    var savingsRate := i.sofr + i.savingsRateSpread;
    DerivedRates(i.sofr, savingsRate, savingsRate + i.grossRevenueRateSpread, savingsRate + i.farmYieldSpread)
  }

  /** The spreads a set of rates was derived from. */
  function RecoverSpreads(r: DerivedRates): (i: RateInputs)
    ensures i.sofr == r.sofr
  {
    RateInputs(r.sofr, r.savingsRate - r.sofr, r.grossRevenueRate - r.savingsRate, r.farmYield - r.savingsRate)
  }

  /** Derivation loses nothing: the spreads are recovered from the derived rates. */
  lemma DeriveRatesInvertible(i: RateInputs)
    ensures RecoverSpreads(DeriveRates(i)) == i
  {
  }

  /** Every set of rates is derived from exactly one set of spreads. */
  lemma DeriveRatesSurjective(r: DerivedRates)
    ensures DeriveRates(RecoverSpreads(r)) == r
  {
  }

  /** SOFR 4%, savings spread 0.5%, gross spread 1%, farm spread 0.1%. */
  lemma DeriveRatesExample()
    ensures DeriveRates(RateInputs(0.04, 0.005, 0.01, 0.001)) == DerivedRates(0.04, 0.045, 0.055, 0.046)
  {
  }
}

=== FILE: revenue.dfy ===
/** Monthly revenue from supply, rates, token sales and distribution rewards. */
module Revenue {
  import opened Inputs

  /** Annual distribution reward rates of the three reward tiers. */
  const Tier2Rate: real := 0.001
  const Tier3Rate: real := 0.002
  const Tier4Rate: real := 0.005

  datatype RevenueInputs = RevenueInputs(
    usdsSupply: real,
    susdsSupply: real,
    grossRevenueRate: real,
    savingsRate: real,
    sellableTokens: real,
    sellTokenRate: real,
    subsidizedBorrow: real,
    srusdsCost: real,
    tier2Ratio: real,
    tier3Ratio: real,
    tier4Ratio: real)

  datatype RevenueCalculations = RevenueCalculations(
    tokenSalesIncome: real,
    grossRevenue: real,
    savingsExpense: real,
    distributionRewards: real,
    netRevenue: real)

  /** The annual distribution reward rate per unit of sUSDS, given the share of sUSDS in each tier. */
  function TierRate(i: RevenueInputs): real {
    i.tier2Ratio * Tier2Rate + i.tier3Ratio * Tier3Rate + i.tier4Ratio * Tier4Rate
  }

  /**
   * One month of revenue: each annual flow (interest on USDS, token sales, savings paid on sUSDS,
   * distribution rewards on sUSDS) is taken at one twelfth; net revenue is gross revenue less
   * savings and rewards, plus the two pass-through adjustments.
   */
  function CalculateRevenue(i: RevenueInputs): (r: RevenueCalculations)
    ensures 12.0 * r.tokenSalesIncome == i.sellableTokens * i.sellTokenRate
    ensures 12.0 * (r.grossRevenue - r.tokenSalesIncome) == i.usdsSupply * i.grossRevenueRate
    ensures 12.0 * r.savingsExpense == i.susdsSupply * i.savingsRate
    ensures 12.0 * r.distributionRewards == i.susdsSupply * TierRate(i)
    ensures r.netRevenue == r.grossRevenue - r.savingsExpense - r.distributionRewards + i.subsidizedBorrow + i.srusdsCost
  {
    var tokenSales := i.sellableTokens * i.sellTokenRate * MonthlyFactor;
    var gross := i.usdsSupply * i.grossRevenueRate * MonthlyFactor + tokenSales;
    var savings := i.susdsSupply * i.savingsRate * MonthlyFactor;
    var tier2 := i.susdsSupply * i.tier2Ratio;
    var tier3 := i.susdsSupply * i.tier3Ratio;
    var tier4 := i.susdsSupply * i.tier4Ratio;
    var rewards := (tier2 * Tier2Rate + tier3 * Tier3Rate + tier4 * Tier4Rate) * MonthlyFactor;
    RevenueCalculations(tokenSales, gross, savings, rewards, gross - savings - rewards + i.subsidizedBorrow + i.srusdsCost)
  }

  /** Net revenue in annual terms: twelve months of net revenue are the annual spread income. */
  lemma NetRevenueAnnualised(i: RevenueInputs)
    ensures 12.0 * (CalculateRevenue(i).netRevenue - i.subsidizedBorrow - i.srusdsCost)
         == i.usdsSupply * i.grossRevenueRate + i.sellableTokens * i.sellTokenRate
            - i.susdsSupply * (i.savingsRate + TierRate(i))
  {
  }

  /** With every tier ratio zero there are no distribution rewards. */
  lemma NoTiersNoRewards(i: RevenueInputs)
    requires i.tier2Ratio == 0.0 && i.tier3Ratio == 0.0 && i.tier4Ratio == 0.0
    ensures CalculateRevenue(i).distributionRewards == 0.0
  {
  }

  /** All-zero supply, token and pass-through inputs give all-zero outputs: there are no floors or fixed fees. */
  lemma ZeroInZeroOut(i: RevenueInputs)
    requires i.usdsSupply == 0.0 && i.susdsSupply == 0.0 && i.sellableTokens == 0.0
    requires i.subsidizedBorrow == 0.0 && i.srusdsCost == 0.0
    ensures CalculateRevenue(i) == RevenueCalculations(0.0, 0.0, 0.0, 0.0, 0.0)
  {
  }

  /** When the savings rate plus the reward rate equals the gross rate and all supply is sUSDS, the spread earns nothing. */
  lemma NoSpreadNoNet(i: RevenueInputs)
    requires i.usdsSupply == i.susdsSupply && i.grossRevenueRate == i.savingsRate + TierRate(i)
    requires i.sellableTokens == 0.0 && i.subsidizedBorrow == 0.0 && i.srusdsCost == 0.0
    ensures CalculateRevenue(i).netRevenue == 0.0
  {
    NetRevenueAnnualised(i);
  }
}

=== FILE: scenariorun.dfy ===
/**
 * A whole scenario run: every month from 1 to the horizon in order, the displayed backstop
 * carried from month to month for the genesis capital phase-out, then the quarterly and annual
 * totals.
 */
module ScenarioRun {
  import opened Wrappers
  import opened Inputs
  import opened Agents
  import opened Catalogue
  import opened Engine
  import opened Scenarios
  import Periods
  import GenesisCapital

  /** The surplus buffer the displayed backstop starts from. */
  const SurplusBuffer: real := -65000000.0

  /** What the month loop carries: the months so far, the extension instances, and the backstop trackers. */
  datatype RunState = RunState(
    monthly: seq<MonthResults>,
    extensions: seq<Extension>,
    contributions: real,
    outflows: real,
    priorGenesis: real)

  /** The backstop the genesis capital phase-out sees: surplus buffer plus contributions, less outflows, plus genesis capital remaining. */
  function DisplayedBackstop(st: RunState): real {
    SurplusBuffer + st.contributions - st.outflows + st.priorGenesis
  }

  /** Entry `i` is the first genesis capital entry of `specs`. */
  predicate FirstGenesis(specs: seq<ExtensionSpec>, i: int) {
    && 0 <= i < |specs|
    && specs[i].params.Genesis?
    && forall j :: 0 <= j < i ==> !specs[j].params.Genesis?
  }

  /**
   * The genesis capital configured before any phase-out: the capital of the stars of the (first)
   * genesis capital entry, whether or not it is enabled; nothing without one.
   */
  function InitialGenesisOf(specs: seq<ExtensionSpec>): (g: real)
    ensures (forall i :: 0 <= i < |specs| ==> !specs[i].params.Genesis?) ==> g == 0.0
    ensures forall i :: FirstGenesis(specs, i) ==> g == GenesisCapital.InitialGenesis(specs[i].params.genesis.stars)
    decreases |specs|
  {
    if |specs| == 0 then 0.0
    else if specs[0].params.Genesis? then
      assert forall i :: FirstGenesis(specs, i) ==> i == 0;
      GenesisCapital.InitialGenesis(specs[0].params.genesis.stars)
    else
      assert forall i :: 1 <= i < |specs| ==> specs[1..][i - 1] == specs[i];
      assert forall i :: FirstGenesis(specs, i) ==> FirstGenesis(specs[1..], i - 1);
      InitialGenesisOf(specs[1..])
  }

  /** The instances of a run, freshly created and reset. */
  function InitialExtensions(specs: seq<ExtensionSpec>): seq<Extension> {
    var created := CreateExtensions(specs);
    seq(|created|, i requires 0 <= i < |created| => ResetExtension(created[i]))
  }

  function StartState(specs: seq<ExtensionSpec>): RunState {
    RunState([], InitialExtensions(specs), 0.0, 0.0, InitialGenesisOf(specs))
  }

  /**
   * Record a computed month: it is appended to the months, the instances are replaced, and the
   * displayed backstop moves by the month's net backstop change less its outflow, with a reported
   * genesis capital taking the place of the prior one.
   */
  function Advance(st: RunState, m: MonthResults, exts: seq<Extension>): (r: RunState)
    ensures st.monthly <= r.monthly && |r.monthly| == |st.monthly| + 1 && r.monthly[|st.monthly|] == m
    ensures r.extensions == exts
    ensures DisplayedBackstop(r) == DisplayedBackstop(st) + m.waterfall.netBackstopChange - m.backstopOutflow
                                    - st.priorGenesis + m.genesisCapitalRemaining.GetOr(st.priorGenesis)
  {
    RunState(st.monthly + [m], exts, st.contributions + m.waterfall.netBackstopChange,
             st.outflows + m.backstopOutflow, m.genesisCapitalRemaining.GetOr(st.priorGenesis))
  }

  /** One month of the engine: month number, inputs, instances and displayed backstop to the month's results and instances. */
  type MonthStep = (int, Bag, seq<Extension>, real) -> Result<(MonthResults, seq<Extension>)>

  /** The engine's month for these agents, launches and constants. */
  function EngineStep(agents: seq<AgentDefinition>, launches: map<string, int>, constants: ModelConstants): MonthStep {
    (month: int, inputs: Bag, exts: seq<Extension>, displayed: real) =>
      RunMonth(month, inputs, agents, launches, constants, exts, Some(displayed))
  }

  /** Months 1 to `n` of scenario `s` from `start`, each run on the instances and displayed backstop the previous months left. */
  function RunThrough(s: ResolvedScenario, step: MonthStep, start: RunState, n: nat): (r: Result<RunState>)
    ensures r.Success? ==> start.monthly <= r.value.monthly && |r.value.monthly| == |start.monthly| + n
    decreases n
  {
    if n == 0 then Success(start)
    else
      var st :- RunThrough(s, step, start, n - 1);
      var inputs :- GetMonthInputs(s, n);
      var res :- step(n, inputs, st.extensions, DisplayedBackstop(st));
      Success(Advance(st, res.0, res.1))
  }

  /** The quantities the quarterly and annual totals add up. */
  datatype Measure =
    | GrossRevenue | NetRevenue | SecurityBudget | BackstopContribution | BackstopWithdrawal
    | NetBackstopChange | StakingRewards | NetProfit | BackstopOutflow

  function Value(m: MonthResults, k: Measure): real {
    match k
    case GrossRevenue => m.revenue.grossRevenue
    case NetRevenue => m.revenue.netRevenue
    case SecurityBudget => m.waterfall.securityBudget
    case BackstopContribution => m.waterfall.backstopContribution
    case BackstopWithdrawal => m.waterfall.backstopWithdrawal
    case NetBackstopChange => m.waterfall.netBackstopChange
    case StakingRewards => m.waterfall.stakingRewards
    case NetProfit => m.waterfall.netProfit
    case BackstopOutflow => m.backstopOutflow
  }

  /** The total of measure `k` over `ms`. */
  function Sum(ms: seq<MonthResults>, k: Measure): real
    decreases |ms|
  {
    if |ms| == 0 then 0.0 else Sum(ms[..|ms| - 1], k) + Value(ms[|ms| - 1], k)
  }

  /** Totals split over concatenation. */
  lemma {:induction false} SumAppend(a: seq<MonthResults>, b: seq<MonthResults>, k: Measure)
    ensures Sum(a + b, k) == Sum(a, k) + Sum(b, k)
    decreases |b|
  {
    if |b| == 0 {
      assert a + b == a;
    } else {
      var front := b[..|b| - 1];
      assert (a + b)[..|a + b| - 1] == a + front;
      assert (a + b)[|a + b| - 1] == b[|b| - 1];
      SumAppend(a, front, k);
    }
  }

  /** Months whose waterfalls all balance add up to totals that balance the same way. */
  lemma {:induction false} SumBalanced(ms: seq<MonthResults>)
    requires forall i :: 0 <= i < |ms| ==> MonthBalanced(ms[i])
    ensures Sum(ms, SecurityBudget) + Sum(ms, BackstopContribution) + Sum(ms, StakingRewards) == Sum(ms, NetRevenue)
    ensures Sum(ms, NetProfit) == Sum(ms, BackstopContribution) + Sum(ms, StakingRewards)
    decreases |ms|
  {
    if |ms| > 0 {
      var front := ms[..|ms| - 1];
      assert forall i :: 0 <= i < |front| ==> front[i] == ms[i];
      SumBalanced(front);
      assert MonthBalanced(ms[|ms| - 1]);
    }
  }

  /** One quarter's totals. */
  datatype QuarterResults = QuarterResults(
    quarter: int,
    quarterName: string,
    months: seq<MonthResults>,
    grossRevenue: real,
    netRevenue: real,
    securityBudget: real,
    backstopContribution: real,
    backstopWithdrawal: real,
    netBackstopChange: real,
    stakingRewards: real,
    netProfit: real,
    endUsdsSupply: real)

  /** The quarter's total of measure `k` (quarters carry no outflow total). */
  function QuarterValue(q: QuarterResults, k: Measure): real
    requires k != BackstopOutflow
  {
    match k
    case GrossRevenue => q.grossRevenue
    case NetRevenue => q.netRevenue
    case SecurityBudget => q.securityBudget
    case BackstopContribution => q.backstopContribution
    case BackstopWithdrawal => q.backstopWithdrawal
    case NetBackstopChange => q.netBackstopChange
    case StakingRewards => q.stakingRewards
    case NetProfit => q.netProfit
  }

  /**
   * A quarter's totals over its months: every measure is the sum over the months, and the
   * closing USDS supply is the last month's average supply (zero for no months).
   */
  function AggregateQuarter(months: seq<MonthResults>, quarter: int): (q: QuarterResults)
    ensures q.quarter == quarter && q.months == months
    ensures q.quarterName == "Q" + Periods.IntToString(quarter)
    ensures forall k :: k != BackstopOutflow ==> QuarterValue(q, k) == Sum(months, k)
    ensures |months| > 0 ==> q.endUsdsSupply == months[|months| - 1].supply.avgUsdsSupply
    ensures |months| == 0 ==> q.endUsdsSupply == 0.0
  {
    QuarterResults(quarter, "Q" + Periods.IntToString(quarter), months,
                   Sum(months, GrossRevenue), Sum(months, NetRevenue), Sum(months, SecurityBudget),
                   Sum(months, BackstopContribution), Sum(months, BackstopWithdrawal),
                   Sum(months, NetBackstopChange), Sum(months, StakingRewards), Sum(months, NetProfit),
                   if |months| > 0 then months[|months| - 1].supply.avgUsdsSupply else 0.0)
  }

  /** A quarter of balanced months balances: the waterfall splits its net revenue exactly, and its profit is contribution plus staking. */
  lemma QuarterBalanced(months: seq<MonthResults>, quarter: int)
    requires forall i :: 0 <= i < |months| ==> MonthBalanced(months[i])
    ensures var q := AggregateQuarter(months, quarter);
      && q.securityBudget + q.backstopContribution + q.stakingRewards == q.netRevenue
      && q.netProfit == q.backstopContribution + q.stakingRewards
  {
    SumBalanced(months);
  }

  /** The number of complete quarters among `count` months, at most four. */
  function QuarterCount(count: nat): nat {
    if count / 3 < 4 then count / 3 else 4
  }

  /** The complete quarters of the first twelve months: quarter q + 1 is months 3q + 1 to 3q + 3. */
  function Quarters(monthly: seq<MonthResults>): (qs: seq<QuarterResults>)
    ensures |qs| == QuarterCount(|monthly|)
    ensures forall q :: 0 <= q < |qs| ==> 3 * q + 3 <= |monthly| && qs[q] == AggregateQuarter(monthly[3 * q..3 * q + 3], q + 1)
  {
    seq(QuarterCount(|monthly|), q requires 0 <= q < QuarterCount(|monthly|) => AggregateQuarter(monthly[3 * q..3 * q + 3], q + 1))
  }

  /** Of the four quarters, exactly those whose three months were all run are reported. */
  lemma QuartersComplete(monthly: seq<MonthResults>, q: int)
    requires 0 <= q < 4
    ensures q < |Quarters(monthly)| <==> 3 * q + 3 <= |monthly|
  {
  }

  /** The outcome of a scenario run. */
  datatype ScenarioResults = ScenarioResults(
    name: string,
    description: string,
    monthly: seq<MonthResults>,
    quarterly: seq<QuarterResults>,
    annualGrossRevenue: real,
    annualNetRevenue: real,
    annualStakingRewards: real,
    annualNetProfit: real)

  /** Quarterly and annual totals of the computed months. */
  function Summarise(s: ResolvedScenario, monthly: seq<MonthResults>): (r: ScenarioResults)
    ensures r.name == s.name && r.description == s.description && r.monthly == monthly
    ensures r.quarterly == Quarters(monthly)
    ensures r.annualGrossRevenue == Sum(monthly, GrossRevenue) && r.annualNetRevenue == Sum(monthly, NetRevenue)
    ensures r.annualStakingRewards == Sum(monthly, StakingRewards) && r.annualNetProfit == Sum(monthly, NetProfit)
  {
    ScenarioResults(s.name, s.description, monthly, Quarters(monthly),
                    Sum(monthly, GrossRevenue), Sum(monthly, NetRevenue),
                    Sum(monthly, StakingRewards), Sum(monthly, NetProfit))
  }

  /** Every month of `s`, then the quarterly and annual totals. */
  function RunScenario(s: ResolvedScenario, agents: seq<AgentDefinition>, constants: ModelConstants,
                       specs: seq<ExtensionSpec>): (r: Result<ScenarioResults>)
    ensures r.Success? ==> |r.value.monthly| == Horizon(s) && r.value.quarterly == Quarters(r.value.monthly)
    ensures r.Success? ==> r.value.name == s.name && r.value.description == s.description
  {
    var st :- RunThrough(s, EngineStep(agents, s.agentLaunches, constants), StartState(specs), Horizon(s));
    Success(Summarise(s, st.monthly))
  }

  /** The number of months a scenario runs (none for a non-positive horizon). */
  function Horizon(s: ResolvedScenario): nat {
    if s.months > 0 then s.months else 0
  }

  /** A computed month is the month asked for, balances, and hands back the same extensions. */
  ghost predicate StepSound(step: MonthStep) {
    forall month, inputs, exts, d :: step(month, inputs, exts, d).Success? ==>
      && step(month, inputs, exts, d).value.0.month == month
      && MonthBalanced(step(month, inputs, exts, d).value.0)
      && SameExtensions(step(month, inputs, exts, d).value.1, exts)
  }

  /** A month fails exactly when an extension or the supply divides by zero. */
  ghost predicate StepFailure(step: MonthStep) {
    forall month, inputs, exts, d ::
      && (step(month, inputs, exts, d).Failure? <==> AnySpendingFails(exts, month) || RatesOf(inputs).farmYield == 0.0)
      && (step(month, inputs, exts, d).Failure? ==> step(month, inputs, exts, d).error == DivisionByZero)
  }

  lemma EngineStepSound(agents: seq<AgentDefinition>, launches: map<string, int>, constants: ModelConstants)
    ensures StepSound(EngineStep(agents, launches, constants))
  {
    forall month, inputs, exts, d | RunMonth(month, inputs, agents, launches, constants, exts, Some(d)).Success?
      ensures var r := RunMonth(month, inputs, agents, launches, constants, exts, Some(d)).value;
        r.0.month == month && MonthBalanced(r.0) && SameExtensions(r.1, exts)
    {
      RunMonthSound(month, inputs, agents, launches, constants, exts, Some(d));
      RunMonthKeepsExtensions(month, inputs, agents, launches, constants, exts, Some(d));
    }
  }

  lemma EngineStepFailure(agents: seq<AgentDefinition>, launches: map<string, int>, constants: ModelConstants)
    ensures StepFailure(EngineStep(agents, launches, constants))
  {
    forall month, inputs, exts, d
      ensures var r := RunMonth(month, inputs, agents, launches, constants, exts, Some(d));
        && (r.Failure? <==> AnySpendingFails(exts, month) || RatesOf(inputs).farmYield == 0.0)
        && (r.Failure? ==> r.error == DivisionByZero)
    {
      RunMonthFails(month, inputs, agents, launches, constants, exts, Some(d));
    }
  }

  /** A state before any month: nothing computed or accrued yet. */
  predicate Fresh(start: RunState) {
    start.monthly == [] && start.contributions == 0.0 && start.outflows == 0.0
  }

  /** Month `m` of `s` can run: its inputs resolve, its farm yield is non-zero, and no spending extension divides by zero. */
  predicate MonthRuns(s: ResolvedScenario, exts: seq<Extension>, m: int) {
    && GetMonthInputs(s, m).Success?
    && RatesOf(GetMonthInputs(s, m).value).farmYield != 0.0
    && !AnySpendingFails(exts, m)
  }

  /** What holds of the loop state `st` after `n` months from `start`. */
  predicate StateAfter(st: RunState, start: RunState, n: nat) {
    && |st.monthly| == n
    && (forall i :: 0 <= i < n ==> st.monthly[i].month == i + 1 && MonthBalanced(st.monthly[i]))
    && SameExtensions(st.extensions, start.extensions)
    && st.contributions == Sum(st.monthly, NetBackstopChange)
    && st.outflows == Sum(st.monthly, BackstopOutflow)
    && st.priorGenesis == LastGenesis(st.monthly, start.priorGenesis)
  }

  /** The genesis capital remaining the latest month reported, or `initial` if none did. */
  function LastGenesis(ms: seq<MonthResults>, initial: real): real
    decreases |ms|
  {
    if |ms| == 0 then initial
    else if ms[|ms| - 1].genesisCapitalRemaining.Some? then ms[|ms| - 1].genesisCapitalRemaining.value
    else LastGenesis(ms[..|ms| - 1], initial)
  }

  /**
   * The backstop displayed after the months `before`: the surplus buffer plus their net backstop
   * changes, less their outflows, plus the latest genesis capital they reported or else `initial`.
   */
  function ShownBackstop(before: seq<MonthResults>, initial: real): real {
    SurplusBuffer + Sum(before, NetBackstopChange) - Sum(before, BackstopOutflow) + LastGenesis(before, initial)
  }

  lemma SameExtensionsTrans(a: seq<Extension>, b: seq<Extension>, c: seq<Extension>)
    requires SameExtensions(a, b) && SameExtensions(b, c)
    ensures SameExtensions(a, c)
  {
  }

  /** Spending failures depend only on which extensions are configured, not on their state. */
  lemma SameExtensionsSameFailures(a: seq<Extension>, b: seq<Extension>, month: int)
    requires SameExtensions(a, b)
    ensures AnySpendingFails(a, month) <==> AnySpendingFails(b, month)
  {
    if AnySpendingFails(a, month) {
      var i :| 0 <= i < |a| && SpendingFails(a[i], month);
      assert SpendingFails(b[i], month);
    }
    if AnySpendingFails(b, month) {
      var i :| 0 <= i < |b| && SpendingFails(b[i], month);
      assert SpendingFails(a[i], month);
    }
  }

  /** One more month appended keeps every total a running sum. */
  lemma AdvanceTotals(st: RunState, m: MonthResults, exts: seq<Extension>, initial: real)
    requires st.contributions == Sum(st.monthly, NetBackstopChange) && st.outflows == Sum(st.monthly, BackstopOutflow)
    requires st.priorGenesis == LastGenesis(st.monthly, initial)
    ensures var next := Advance(st, m, exts);
      && next.contributions == Sum(next.monthly, NetBackstopChange)
      && next.outflows == Sum(next.monthly, BackstopOutflow)
      && next.priorGenesis == LastGenesis(next.monthly, initial)
  {
    var ms := st.monthly + [m];
    assert ms[..|ms| - 1] == st.monthly;
  }

  /**
   * After n months: n month results numbered 1 to n, each balanced; the instances are the
   * starting extensions; the carried contributions and outflows are the running totals of the
   * months' net backstop changes and outflows; and the carried genesis capital is the latest
   * one reported, or the starting one.
   */
  lemma {:induction false} RunThroughState(s: ResolvedScenario, step: MonthStep, start: RunState, n: nat)
    requires StepSound(step) && Fresh(start)
    requires RunThrough(s, step, start, n).Success?
    ensures StateAfter(RunThrough(s, step, start, n).value, start, n)
    decreases n
  {
    if n > 0 {
      var st := RunThrough(s, step, start, n - 1).value;
      RunThroughState(s, step, start, n - 1);
      var inputs := GetMonthInputs(s, n).value;
      var res := step(n, inputs, st.extensions, DisplayedBackstop(st)).value;
      var next := Advance(st, res.0, res.1);
      assert RunThrough(s, step, start, n) == Success(next);
      SameExtensionsTrans(res.1, st.extensions, start.extensions);
      AdvanceTotals(st, res.0, res.1, start.priorGenesis);
      assert forall i :: 0 <= i < n - 1 ==> next.monthly[i] == st.monthly[i];
    }
  }

  /** Month n runs after the first n - 1 exactly when it can run on the instances they left. */
  lemma RunThroughStep(s: ResolvedScenario, step: MonthStep, start: RunState, n: nat)
    requires n > 0 && StepFailure(step)
    requires RunThrough(s, step, start, n - 1).Success?
    ensures RunThrough(s, step, start, n).Success? <==> MonthRuns(s, RunThrough(s, step, start, n - 1).value.extensions, n)
  {
  }

  /** `ok` holds of every month 1 to n. */
  ghost predicate AllHold(ok: int -> bool, n: nat)
    decreases n
  {
    n == 0 || (AllHold(ok, n - 1) && ok(n))
  }

  lemma {:induction false} AllHoldMeans(ok: int -> bool, n: nat)
    ensures AllHold(ok, n) <==> forall m :: 1 <= m <= n ==> ok(m)
    decreases n
  {
    if n > 0 {
      AllHoldMeans(ok, n - 1);
    }
  }

  /** Month `m` can run on the instances `exts`, as a predicate on months. */
  ghost function Runnable(s: ResolvedScenario, exts: seq<Extension>): int -> bool {
    m => MonthRuns(s, exts, m)
  }

  /** Whether the months can run depends only on which extensions are configured. */
  lemma {:induction false} AllRunSameExtensions(s: ResolvedScenario, a: seq<Extension>, b: seq<Extension>, n: nat)
    requires SameExtensions(a, b)
    ensures AllHold(Runnable(s, a), n) <==> AllHold(Runnable(s, b), n)
    decreases n
  {
    if n > 0 {
      AllRunSameExtensions(s, a, b, n - 1);
      SameExtensionsSameFailures(a, b, n);
    }
  }

  /** The first n months run exactly when each of them can run. */
  lemma {:induction false} RunThroughSucceeds(s: ResolvedScenario, step: MonthStep, start: RunState, n: nat)
    requires StepSound(step) && StepFailure(step) && Fresh(start)
    ensures RunThrough(s, step, start, n).Success? <==> AllHold(Runnable(s, start.extensions), n)
    decreases n
  {
    if n > 0 {
      RunThroughSucceeds(s, step, start, n - 1);
      var r := RunThrough(s, step, start, n - 1);
      if r.Success? {
        RunThroughState(s, step, start, n - 1);
        RunThroughStep(s, step, start, n);
        SameExtensionsSameFailures(r.value.extensions, start.extensions, n);
      }
    }
  }

  /** A failed run fails with an undefined trajectory or a division by zero. */
  lemma {:induction false} RunThroughErrors(s: ResolvedScenario, step: MonthStep, start: RunState, n: nat)
    requires StepFailure(step)
    requires RunThrough(s, step, start, n).Failure?
    ensures RunThrough(s, step, start, n).error in {InvalidTrajectory, DivisionByZero}
    decreases n
  {
    if RunThrough(s, step, start, n - 1).Failure? {
      RunThroughErrors(s, step, start, n - 1);
    }
  }

  /**
   * A run starts from the configured extensions, with nothing accrued, and displays to month 1
   * the surplus buffer plus the genesis capital configured before any phase-out.
   */
  lemma StartStateFresh(specs: seq<ExtensionSpec>)
    ensures Fresh(StartState(specs))
    ensures SameExtensions(StartState(specs).extensions, CreateExtensions(specs))
    ensures StartState(specs).priorGenesis == InitialGenesisOf(specs)
    ensures DisplayedBackstop(StartState(specs)) == SurplusBuffer + InitialGenesisOf(specs)
  {
  }

  /**
   * A scenario runs exactly when every month of its horizon can run on the configured
   * extensions (AllHoldMeans spells this out month by month).
   */
  lemma ScenarioSucceeds(s: ResolvedScenario, agents: seq<AgentDefinition>, constants: ModelConstants, specs: seq<ExtensionSpec>)
    ensures RunScenario(s, agents, constants, specs).Success? <==> AllHold(Runnable(s, CreateExtensions(specs)), Horizon(s))
  {
    var step := EngineStep(agents, s.agentLaunches, constants);
    var start := StartState(specs);
    EngineStepSound(agents, s.agentLaunches, constants);
    EngineStepFailure(agents, s.agentLaunches, constants);
    StartStateFresh(specs);
    RunThroughSucceeds(s, step, start, Horizon(s));
    AllRunSameExtensions(s, start.extensions, CreateExtensions(specs), Horizon(s));
  }

  /** A scenario that fails fails with an undefined trajectory or a division by zero. */
  lemma ScenarioErrors(s: ResolvedScenario, agents: seq<AgentDefinition>, constants: ModelConstants, specs: seq<ExtensionSpec>)
    ensures RunScenario(s, agents, constants, specs).Failure? ==>
      RunScenario(s, agents, constants, specs).error in {InvalidTrajectory, DivisionByZero}
  {
    if RunScenario(s, agents, constants, specs).Success? { return; }
    EngineStepFailure(agents, s.agentLaunches, constants);
    RunThroughErrors(s, EngineStep(agents, s.agentLaunches, constants), StartState(specs), Horizon(s));
  }

  /**
   * A successful run reports the scenario's name and description, one balanced month for each
   * month 1 to the horizon in order, the complete quarters among them, and annual totals that
   * balance like every month.
   */
  lemma ScenarioShape(s: ResolvedScenario, agents: seq<AgentDefinition>, constants: ModelConstants, specs: seq<ExtensionSpec>)
    requires RunScenario(s, agents, constants, specs).Success?
    ensures var r := RunScenario(s, agents, constants, specs).value;
      && r.name == s.name && r.description == s.description
      && |r.monthly| == Horizon(s)
      && (forall i :: 0 <= i < |r.monthly| ==> r.monthly[i].month == i + 1 && MonthBalanced(r.monthly[i]))
      && |r.quarterly| == QuarterCount(Horizon(s))
      && r.annualGrossRevenue == Sum(r.monthly, GrossRevenue) && r.annualNetRevenue == Sum(r.monthly, NetRevenue)
      && r.annualStakingRewards == Sum(r.monthly, StakingRewards) && r.annualNetProfit == Sum(r.monthly, NetProfit)
      && r.annualNetRevenue == Sum(r.monthly, SecurityBudget) + Sum(r.monthly, BackstopContribution) + r.annualStakingRewards
      && r.annualNetProfit == Sum(r.monthly, BackstopContribution) + r.annualStakingRewards
  {
    var step := EngineStep(agents, s.agentLaunches, constants);
    EngineStepSound(agents, s.agentLaunches, constants);
    StartStateFresh(specs);
    RunThroughState(s, step, StartState(specs), Horizon(s));
    SumBalanced(RunThrough(s, step, StartState(specs), Horizon(s)).value.monthly);
  }

  /** Over a twelve-month year every annual total is the sum of the four quarterly totals. */
  lemma AnnualIsSumOfQuarters(monthly: seq<MonthResults>, k: Measure)
    requires |monthly| == 12 && k != BackstopOutflow
    ensures var qs := Quarters(monthly);
      Sum(monthly, k) == QuarterValue(qs[0], k) + QuarterValue(qs[1], k) + QuarterValue(qs[2], k) + QuarterValue(qs[3], k)
  {
    var a, b, c, d := monthly[0..3], monthly[3..6], monthly[6..9], monthly[9..12];
    assert monthly == ((a + b) + c) + d;
    SumAppend(a + b + c, d, k);
    SumAppend(a + b, c, k);
    SumAppend(a, b, k);
  }

  /**
   * The months run so far, with the displayed backstop to the next month in closed form: the
   * surplus buffer plus all net backstop changes so far, less all outflows, plus the latest
   * genesis capital reported (or the starting one).
   */
  lemma DisplayedBackstopClosedForm(s: ResolvedScenario, step: MonthStep, start: RunState, n: nat)
    requires StepSound(step) && Fresh(start)
    requires RunThrough(s, step, start, n).Success?
    ensures var st := RunThrough(s, step, start, n).value;
      DisplayedBackstop(st) == ShownBackstop(st.monthly, start.priorGenesis)
  {
    RunThroughState(s, step, start, n);
  }

  /**
   * Month n of a run is the step of month n on that month's inputs, the instances the first
   * n - 1 months left, and the backstop they display.
   */
  lemma RunThroughLast(s: ResolvedScenario, step: MonthStep, start: RunState, n: nat)
    requires n > 0 && RunThrough(s, step, start, n).Success?
    ensures RunThrough(s, step, start, n - 1).Success? && GetMonthInputs(s, n).Success?
    ensures var prev := RunThrough(s, step, start, n - 1).value;
      var res := step(n, GetMonthInputs(s, n).value, prev.extensions, DisplayedBackstop(prev));
      res.Success? && RunThrough(s, step, start, n).value == Advance(prev, res.value.0, res.value.1)
  {
  }

  /** Running fewer months gives a prefix of the months of a longer run. */
  lemma {:induction false} RunThroughPrefix(s: ResolvedScenario, step: MonthStep, start: RunState, k: nat, n: nat)
    requires k <= n && RunThrough(s, step, start, n).Success?
    ensures RunThrough(s, step, start, k).Success?
    ensures RunThrough(s, step, start, k).value.monthly <= RunThrough(s, step, start, n).value.monthly
    decreases n
  {
    if k < n {
      RunThroughLast(s, step, start, n);
      RunThroughPrefix(s, step, start, k, n - 1);
    }
  }

  /**
   * Month n of a run from a fresh state is what the step computes for month n on the backstop
   * displayed in closed form over the months before it.
   */
  lemma MonthSeesBackstop(s: ResolvedScenario, step: MonthStep, start: RunState, n: nat)
    requires StepSound(step) && Fresh(start)
    requires n > 0 && RunThrough(s, step, start, n).Success?
    ensures GetMonthInputs(s, n).Success? && RunThrough(s, step, start, n - 1).Success?
    ensures var ms := RunThrough(s, step, start, n).value.monthly;
      var before := ms[..n - 1];
      var displayed := ShownBackstop(before, start.priorGenesis);
      step(n, GetMonthInputs(s, n).value, RunThrough(s, step, start, n - 1).value.extensions, displayed)
        == Success((ms[n - 1], RunThrough(s, step, start, n).value.extensions))
  {
    RunThroughLast(s, step, start, n);
    DisplayedBackstopClosedForm(s, step, start, n - 1);
    var prev := RunThrough(s, step, start, n - 1).value;
    assert RunThrough(s, step, start, n).value.monthly[..n - 1] == prev.monthly;
  }

  /** Month n of a run of N months from a fresh state, as `MonthSeesBackstop` states it for a run of n months. */
  lemma MonthOfRun(s: ResolvedScenario, step: MonthStep, start: RunState, n: nat, horizon: nat)
    requires StepSound(step) && Fresh(start)
    requires 1 <= n <= horizon && RunThrough(s, step, start, horizon).Success?
    ensures GetMonthInputs(s, n).Success? && RunThrough(s, step, start, n - 1).Success? && RunThrough(s, step, start, n).Success?
    ensures SameExtensions(RunThrough(s, step, start, n - 1).value.extensions, start.extensions)
    ensures var ms := RunThrough(s, step, start, horizon).value.monthly;
      var before := ms[..n - 1];
      var displayed := ShownBackstop(before, start.priorGenesis);
      step(n, GetMonthInputs(s, n).value, RunThrough(s, step, start, n - 1).value.extensions, displayed)
        == Success((ms[n - 1], RunThrough(s, step, start, n).value.extensions))
  {
    RunThroughPrefix(s, step, start, n, horizon);
    MonthSeesBackstop(s, step, start, n);
    RunThroughState(s, step, start, n - 1);
    var all := RunThrough(s, step, start, horizon).value.monthly;
    var ms := RunThrough(s, step, start, n).value.monthly;
    assert ms == all[..n];
    assert ms[..n - 1] == all[..n - 1];
  }

  /**
   * Month n of a successful scenario run is the engine's month n on that month's inputs and on
   * the instances the months before left, which are the configured extensions, shown the surplus
   * buffer plus the net backstop changes of the months before, less their outflows, plus the
   * latest genesis capital they reported or else the configured one.
   */
  lemma ScenarioMonth(s: ResolvedScenario, agents: seq<AgentDefinition>, constants: ModelConstants,
                      specs: seq<ExtensionSpec>, n: nat)
    requires 1 <= n
    ensures RunScenario(s, agents, constants, specs).Success? && n <= Horizon(s) ==>
      && GetMonthInputs(s, n).Success?
      && RunThrough(s, EngineStep(agents, s.agentLaunches, constants), StartState(specs), n - 1).Success?
      && var exts := RunThrough(s, EngineStep(agents, s.agentLaunches, constants), StartState(specs), n - 1).value.extensions;
         var ms := RunScenario(s, agents, constants, specs).value.monthly;
         var displayed := ShownBackstop(ms[..n - 1], InitialGenesisOf(specs));
         && SameExtensions(exts, CreateExtensions(specs))
         && RunMonth(n, GetMonthInputs(s, n).value, agents, s.agentLaunches, constants, exts, Some(displayed)).Success?
         && RunMonth(n, GetMonthInputs(s, n).value, agents, s.agentLaunches, constants, exts, Some(displayed)).value.0 == ms[n - 1]
  {
    if !(RunScenario(s, agents, constants, specs).Success? && n <= Horizon(s)) { return; }
    var step := EngineStep(agents, s.agentLaunches, constants);
    var start := StartState(specs);
    EngineStepSound(agents, s.agentLaunches, constants);
    StartStateFresh(specs);
    MonthOfRun(s, step, start, n, Horizon(s));
    var exts := RunThrough(s, step, start, n - 1).value.extensions;
    SameExtensionsTrans(exts, start.extensions, CreateExtensions(specs));
    var ms := RunScenario(s, agents, constants, specs).value.monthly;
    assert ms == RunThrough(s, step, start, Horizon(s)).value.monthly;
    var displayed := ShownBackstop(ms[..n - 1], InitialGenesisOf(specs));
    var inputs := GetMonthInputs(s, n).value;
    assert step(n, inputs, exts, displayed) == Success((ms[n - 1], RunThrough(s, step, start, n).value.extensions));
    assert step(n, inputs, exts, displayed) == RunMonth(n, inputs, agents, s.agentLaunches, constants, exts, Some(displayed));
  }
}

=== FILE: scenarios.dfy ===
/**
 * Scenario resolution: parent/child merging, the events list, inheritance through a library of
 * named scenarios, and the per-month projection of a resolved scenario.
 */
module Scenarios {
  import opened Wrappers
  import opened Inputs
  import opened Periods
  import opened Trajectories
  import opened MonthInputs
  import opened MonthTables

  datatype EventKind = Set | Impulse | AgentLaunch

  /** One entry of a scenario's events list. */
  datatype Event = Event(month: PeriodRef, kind: EventKind, values: Option<Overrides>, agent: Option<string>)

  /** A scenario as written, before period names and inheritance are resolved. */
  datatype ScenarioConfig = ScenarioConfig(
    name: string,
    description: string,
    months: int,
    parentName: Option<string>,
    periods: PeriodTable,
    agentLaunches: map<string, PeriodRef>,
    baseline: Bag,
    trajectories: map<string, Trajectory>,
    changes: MonthTable,
    impulses: MonthTable,
    events: seq<Event>)

  /** A scenario with every period name resolved to a month and its events folded in. */
  datatype ResolvedScenario = ResolvedScenario(
    name: string,
    description: string,
    months: int,
    periods: PeriodTable,
    agentLaunches: map<string, int>,
    baseline: Bag,
    trajectories: map<string, Trajectory>,
    changes: MonthMap,
    impulses: MonthMap)

  /**
   * Merge a child scenario into its parent: the child's description and horizon win unless
   * empty or zero; baselines, trajectories, launches and named periods are united with the child
   * winning (periods over the built-ins); changes and impulses combine per token, child fields
   * winning; the events of the parent come first.
   */
  function MergeScenarios(parent: ScenarioConfig, child: ScenarioConfig): (r: ScenarioConfig)
    ensures r.name == child.name && r.parentName == None
    ensures r.description == (if child.description != "" then child.description else parent.description)
    ensures r.months == (if child.months != 0 then child.months else parent.months)
    ensures forall k :: k in r.baseline <==> k in parent.baseline || k in child.baseline
    ensures forall k :: k in child.baseline ==> r.baseline[k] == child.baseline[k]
    ensures forall k :: k in parent.baseline && k !in child.baseline ==> r.baseline[k] == parent.baseline[k]
    ensures forall f :: f in r.trajectories <==> f in parent.trajectories || f in child.trajectories
    ensures forall f :: f in child.trajectories ==> r.trajectories[f] == child.trajectories[f]
    ensures forall f :: f in parent.trajectories && f !in child.trajectories ==> r.trajectories[f] == parent.trajectories[f]
    ensures forall a :: a in r.agentLaunches <==> a in parent.agentLaunches || a in child.agentLaunches
    ensures forall a :: a in child.agentLaunches ==> r.agentLaunches[a] == child.agentLaunches[a]
    ensures forall a :: a in parent.agentLaunches && a !in child.agentLaunches ==>
      r.agentLaunches[a] == parent.agentLaunches[a]
    ensures forall p :: p in r.periods <==> p in DefaultPeriods || p in parent.periods || p in child.periods
    ensures forall p :: p in child.periods ==> r.periods[p] == child.periods[p]
    ensures forall p :: p in parent.periods && p !in child.periods ==> r.periods[p] == parent.periods[p]
    ensures forall p :: p in DefaultPeriods && p !in parent.periods && p !in child.periods ==>
      r.periods[p] == DefaultPeriods[p]
    ensures r.events == parent.events + child.events
  {
    ScenarioConfig(
      child.name,
      if child.description != "" then child.description else parent.description,
      if child.months != 0 then child.months else parent.months,
      None,
      DefaultPeriods + parent.periods + child.periods,
      parent.agentLaunches + child.agentLaunches,
      parent.baseline + child.baseline,
      parent.trajectories + child.trajectories,
      MergeTables(parent.changes, child.changes),
      MergeTables(parent.impulses, child.impulses),
      parent.events + child.events)
  }

  /** Changes (and likewise impulses) merge token by token: the child's fields override the parent's. */
  lemma MergedChangesCombine(parent: ScenarioConfig, child: ScenarioConfig, k: PeriodRef)
    requires DistinctKeys(child.changes) && DistinctKeys(child.impulses)
    ensures Lookup(MergeScenarios(parent, child).changes, k) == Combine(Lookup(parent.changes, k), Lookup(child.changes, k))
    ensures Lookup(MergeScenarios(parent, child).impulses, k) == Combine(Lookup(parent.impulses, k), Lookup(child.impulses, k))
  {
    MergeTablesLookup(parent.changes, child.changes, k);
    MergeTablesLookup(parent.impulses, child.impulses, k);
  }

  /** What the events fold over: resolved changes, impulses and agent launches. */
  datatype EventState = EventState(changes: MonthMap, impulses: MonthMap, launches: map<string, int>)

  /** `table` with the fields of `values` merged into the entry of `month` (an absent entry starts empty). */
  function Upserted(table: MonthMap, month: int, values: Option<Overrides>): MonthMap {
    table[month := (if month in table then table[month] else map[]) + values.GetOr(map[])]
  }

  /**
   * Apply one event. Its month is resolved first, whatever its kind; a `set` event merges its
   * values into the changes of that month, an `impulse` event into the impulses (creating an empty
   * entry even without values); an `agent_launch` event with a non-empty agent name records the
   * launch month.
   */
  function ApplyEvent(st: EventState, e: Event, periods: PeriodTable): (r: Result<EventState>)
    ensures r.Failure? <==> ResolvePeriodName(e.month, periods).Failure?
    ensures r.Failure? ==> r.error == ResolvePeriodName(e.month, periods).error
    ensures r.Success? ==> var m := ResolvePeriodName(e.month, periods).value;
      && (e.kind.Set? ==> r.value == st.(changes := Upserted(st.changes, m, e.values)))
      && (e.kind.Impulse? ==> r.value == st.(impulses := Upserted(st.impulses, m, e.values)))
      && (e.kind.AgentLaunch? && e.agent.Some? && e.agent.value != "" ==>
            r.value == st.(launches := st.launches[e.agent.value := m]))
      && (e.kind.AgentLaunch? && (e.agent.None? || e.agent.value == "") ==> r.value == st)
  {
    var m :- ResolvePeriodName(e.month, periods);
    match e.kind
    case Set => Success(st.(changes := Upserted(st.changes, m, e.values)))
    case Impulse => Success(st.(impulses := Upserted(st.impulses, m, e.values)))
    case AgentLaunch =>
      if e.agent.Some? && e.agent.value != "" then Success(st.(launches := st.launches[e.agent.value := m]))
      else Success(st)
  }

  /** Event `i` is the first event whose month does not resolve. */
  predicate FirstUnresolved(events: seq<Event>, periods: PeriodTable, i: int) {
    && 0 <= i < |events|
    && ResolvePeriodName(events[i].month, periods).Failure?
    && forall j :: 0 <= j < i ==> ResolvePeriodName(events[j].month, periods).Success?
  }

  /** Apply the events in list order, stopping at the first whose month does not resolve. */
  function ApplyEvents(events: seq<Event>, st: EventState, periods: PeriodTable): Result<EventState>
    decreases |events|
  {
    if |events| == 0 then Success(st)
    else
      var mid :- ApplyEvents(events[..|events| - 1], st, periods);
      ApplyEvent(mid, events[|events| - 1], periods)
  }

  /**
   * Apply the events in list order, stopping at the first whose month does not resolve: the
   * processing fails exactly when some event's month does not resolve, with the error of the
   * first such event.
   */
  function ProcessEvents(events: seq<Event>, st: EventState, periods: PeriodTable): (r: Result<EventState>)
    ensures r.Success? <==> forall i :: 0 <= i < |events| ==> ResolvePeriodName(events[i].month, periods).Success?
    ensures r.Failure? ==> exists i :: FirstUnresolved(events, periods, i) && ResolvePeriodName(events[i].month, periods).error == r.error
  {
    ApplyEventsSucceed(events, st, periods);
    ApplyEventsFail(events, st, periods);
    ApplyEvents(events, st, periods)
  }

  /** Applying the events succeeds exactly when every event's month resolves. */
  lemma {:induction false} ApplyEventsSucceed(events: seq<Event>, st: EventState, periods: PeriodTable)
    ensures ApplyEvents(events, st, periods).Success?
        <==> forall i :: 0 <= i < |events| ==> ResolvePeriodName(events[i].month, periods).Success?
    decreases |events|
  {
    if |events| > 0 {
      var front := events[..|events| - 1];
      assert forall i :: 0 <= i < |front| ==> front[i] == events[i];
      ApplyEventsSucceed(front, st, periods);
    }
  }

  /** A failed application carries the error of the first event whose month does not resolve. */
  lemma {:induction false} ApplyEventsFail(events: seq<Event>, st: EventState, periods: PeriodTable)
    ensures ApplyEvents(events, st, periods).Failure? ==>
      exists i :: FirstUnresolved(events, periods, i)
                  && ResolvePeriodName(events[i].month, periods).error == ApplyEvents(events, st, periods).error
    decreases |events|
  {
    if ApplyEvents(events, st, periods).Success? { return; }
    var last := |events| - 1;
    var front := events[..last];
    var e := ApplyEvents(events, st, periods).error;
    assert forall i :: 0 <= i < |front| ==> front[i] == events[i];
    if ApplyEvents(front, st, periods).Failure? {
      ApplyEventsFail(front, st, periods);
      var i :| FirstUnresolved(front, periods, i) && ResolvePeriodName(front[i].month, periods).error == e;
      assert FirstUnresolved(events, periods, i);
    } else {
      ApplyEventsSucceed(front, st, periods);
      assert FirstUnresolved(events, periods, last);
    }
  }

  /** Processing a list in two parts is processing the first part, then the second from where it left off. */
  lemma {:induction false} ProcessEventsAppend(a: seq<Event>, b: seq<Event>, st: EventState, periods: PeriodTable)
    ensures ProcessEvents(a + b, st, periods) ==
      (match ProcessEvents(a, st, periods)
       case Success(mid) => ProcessEvents(b, mid, periods)
       case Failure(e) => Failure(e))
    decreases |b|
  {
    if |b| > 0 {
      var b' := b[..|b| - 1];
      assert (a + b)[..|a + b| - 1] == a + b';
      assert (a + b)[|a + b| - 1] == b[|b| - 1];
      ProcessEventsAppend(a, b', st, periods);
    } else {
      assert a + b == a;
    }
  }

  /** Event `i` is a `set` event of month `m` whose values carry field `x`. */
  predicate SetsField(events: seq<Event>, periods: PeriodTable, i: int, m: int, x: string) {
    && 0 <= i < |events|
    && events[i].kind.Set?
    && ResolvePeriodName(events[i].month, periods) == Success(m)
    && x in events[i].values.GetOr(map[])
  }

  /**
   * Among `set` events the later one wins: after processing, field `x` of the changes of month
   * `m` holds the value of the last `set` event of that month that carries `x`.
   */
  lemma {:induction false} LaterSetEventWins(events: seq<Event>, st: EventState, periods: PeriodTable, i: int, m: int, x: string)
    requires ProcessEvents(events, st, periods).Success?
    requires SetsField(events, periods, i, m, x)
    requires forall j :: i < j < |events| ==> !SetsField(events, periods, j, m, x)
    ensures var r := ProcessEvents(events, st, periods).value;
      m in r.changes && x in r.changes[m] && r.changes[m][x] == events[i].values.value[x]
    decreases |events|
  {
    var last := |events| - 1;
    var front := events[..last];
    assert forall j :: 0 <= j < |front| ==> front[j] == events[j];
    var mid := ProcessEvents(front, st, periods).value;
    var e := events[last];
    if i < last {
      assert SetsField(front, periods, i, m, x);
      forall j | i < j < |front| ensures !SetsField(front, periods, j, m, x) {
        assert !SetsField(events, periods, j, m, x);
      }
      LaterSetEventWins(front, st, periods, i, m, x);
      assert !SetsField(events, periods, last, m, x);
    }
  }

  /** A resolved scenario written back as a configuration without events, as merging expects it. */
  function AsConfig(s: ResolvedScenario): (c: ScenarioConfig)
    ensures c.name == s.name && c.baseline == s.baseline && c.trajectories == s.trajectories
    ensures c.parentName == None && c.events == []
    ensures forall a :: a in c.agentLaunches <==> a in s.agentLaunches
    ensures forall a :: a in s.agentLaunches ==> c.agentLaunches[a] == Month(s.agentLaunches[a])
  {
    ScenarioConfig(s.name, s.description, s.months, None, s.periods,
                   map a | a in s.agentLaunches :: Month(s.agentLaunches[a]),
                   s.baseline, s.trajectories, TableOf(s.changes), TableOf(s.impulses), [])
  }

  /** Resolve every launch token; any launch that does not resolve fails the whole map. */
  function ResolveLaunches(launches: map<string, PeriodRef>, periods: PeriodTable): (r: Result<map<string, int>>)
    ensures r.Success? <==> forall a :: a in launches ==> ResolvePeriodName(launches[a], periods).Success?
    ensures r.Failure? ==> r.error == InvalidLaunchMonth
    ensures r.Success? ==> forall a :: a in r.value <==> a in launches
    ensures r.Success? ==> forall a :: a in launches ==> Success(r.value[a]) == ResolvePeriodName(launches[a], periods)
  {
    if forall a :: a in launches ==> ResolvePeriodName(launches[a], periods).Success? then
      Success(map a | a in launches :: ResolvePeriodName(launches[a], periods).value)
    else Failure(InvalidLaunchMonth)
  }

  /** The named periods a configuration resolves its tokens against: its own over the built-ins. */
  function PeriodsOf(config: ScenarioConfig): PeriodTable {
    DefaultPeriods + config.periods
  }

  /** Every launch month of the configuration resolves. */
  predicate LaunchesResolve(config: ScenarioConfig) {
    forall a :: a in config.agentLaunches ==> ResolvePeriodName(config.agentLaunches[a], PeriodsOf(config)).Success?
  }

  /** Every period token of the configuration resolves: launches, change and impulse tokens, event months. */
  predicate TokensResolve(config: ScenarioConfig) {
    && LaunchesResolve(config)
    && SectionResolves(config.changes, PeriodsOf(config))
    && SectionResolves(config.impulses, PeriodsOf(config))
    && forall i :: 0 <= i < |config.events| ==> ResolvePeriodName(config.events[i].month, PeriodsOf(config)).Success?
  }

  /** The normalised sections and resolved launches that the events of a configuration are applied over. */
  function EventBase(config: ScenarioConfig): EventState
    requires TokensResolve(config)
  {
    var periods := PeriodsOf(config);
    EventState(NormalizeMonthDict(config.changes, periods).value, NormalizeMonthDict(config.impulses, periods).value,
               ResolveLaunches(config.agentLaunches, periods).value)
  }

  /**
   * Resolve a configuration that no longer inherits: named periods over the built-ins, then the
   * launch months, then the changes and impulses, then the events on top of them. Fails exactly
   * when some period token does not resolve, and with `InvalidLaunchMonth` when a launch fails.
   * The name, description, horizon, baseline and trajectories are kept; the changes, impulses
   * and launches are the normalised ones with the events applied.
   */
  function ResolveFlat(config: ScenarioConfig): (r: Result<ResolvedScenario>)
    ensures r.Success? <==> TokensResolve(config)
    ensures !LaunchesResolve(config) ==> r == Failure(InvalidLaunchMonth)
    ensures r.Success? ==> r.value.name == config.name && r.value.description == config.description
    ensures r.Success? ==> r.value.months == config.months
    ensures r.Success? ==> r.value.baseline == config.baseline && r.value.trajectories == config.trajectories
    ensures r.Success? ==> r.value.periods == PeriodsOf(config)
    ensures r.Success? ==> var st := ProcessEvents(config.events, EventBase(config), PeriodsOf(config)).value;
      r.value.changes == st.changes && r.value.impulses == st.impulses && r.value.agentLaunches == st.launches
  {
    var periods := PeriodsOf(config);
    var launches :- ResolveLaunches(config.agentLaunches, periods);
    var changes :- NormalizeMonthDict(config.changes, periods);
    var impulses :- NormalizeMonthDict(config.impulses, periods);
    var st :- ProcessEvents(config.events, EventState(changes, impulses, launches), periods);
    Success(ResolvedScenario(config.name, config.description, config.months, periods, st.launches,
                             config.baseline, config.trajectories, st.changes, st.impulses))
  }

  /** `config` names a parent that the library (when one is given) should supply. */
  predicate Inherits(config: ScenarioConfig, library: Option<map<string, ScenarioConfig>>) {
    config.parentName.Some? && config.parentName.value != "" && library.Some?
  }

  /**
   * Resolve a scenario. When it names a parent and a library is given, the parent is looked up and
   * resolved first (at most `fuel` ancestors deep) and the scenario is merged into it.
   */
  function ResolveScenario(config: ScenarioConfig, library: Option<map<string, ScenarioConfig>>, fuel: nat): (r: Result<ResolvedScenario>)
    ensures !Inherits(config, library) ==> r == ResolveFlat(config)
    ensures Inherits(config, library) && fuel == 0 ==> r == Failure(InheritanceTooDeep)
    ensures Inherits(config, library) && config.parentName.value !in library.value && fuel > 0 ==> r == Failure(MissingParent)
    ensures r.Success? ==> r.value.name == config.name
    decreases fuel
  {
    if !Inherits(config, library) then ResolveFlat(config)
    else if fuel == 0 then Failure(InheritanceTooDeep)
    else if config.parentName.value !in library.value then Failure(MissingParent)
    else
      var parent :- ResolveScenario(library.value[config.parentName.value], library, fuel - 1);
      ResolveFlat(MergeScenarios(AsConfig(parent), config))
  }

  /** The inputs of one month of a resolved scenario. */
  function GetMonthInputs(s: ResolvedScenario, month: int): (r: Result<Bag>)
    ensures r.Failure? <==> !TrajectoriesDefined(s.trajectories, month)
  {
    ResolveMonthInputs(month, s.baseline, s.changes, s.impulses, s.trajectories)
  }

  /**
   * An inheriting scenario whose parent is in the library resolves as follows: the parent is
   * resolved (one ancestor less deep), written back as a configuration, and the scenario is merged
   * into it and resolved flat; a parent that fails fails the scenario with the same error.
   */
  lemma InheritedResolution(config: ScenarioConfig, library: map<string, ScenarioConfig>, parentFuel: nat)
    requires Inherits(config, Some(library)) && config.parentName.value in library
    ensures ResolveScenario(config, Some(library), parentFuel + 1) ==
      match ResolveScenario(library[config.parentName.value], Some(library), parentFuel)
      case Success(parent) => ResolveFlat(MergeScenarios(AsConfig(parent), config))
      case Failure(e) => Failure(e)
  {
  }

  /** The source has no cycle guard: a scenario that extends itself never resolves, whatever the fuel. */
  lemma {:induction false} SelfExtendingFails(name: string, library: map<string, ScenarioConfig>, fuel: nat)
    requires name != "" && name in library && library[name].parentName == Some(name)
    ensures ResolveScenario(library[name], Some(library), fuel) == Failure(InheritanceTooDeep)
    decreases fuel
  {
    if fuel > 0 {
      var f: nat := fuel - 1;
      SelfExtendingFails(name, library, f);
      InheritedResolution(library[name], library, f);
    }
  }

  /**
   * A child inherits its parent's baseline: the child's fields win and every other parent field
   * is kept.
   */
  lemma InheritedBaseline(config: ScenarioConfig, library: map<string, ScenarioConfig>, fuel: nat)
    requires Inherits(config, Some(library))
    ensures ResolveScenario(config, Some(library), fuel).Success? ==>
      && fuel > 0 && config.parentName.value in library
      && var parent := ResolveScenario(library[config.parentName.value], Some(library), fuel - 1);
         && parent.Success?
         && ResolveScenario(config, Some(library), fuel).value.baseline == parent.value.baseline + config.baseline
  {
  }
}

=== FILE: snapshots.dfy ===
/** End-of-period snapshot: every launched farm agent at full value. */
module Snapshots {
  import opened Agents

  datatype EndPeriodSnapshot = EndPeriodSnapshot(endFarmableTokens: real, endUnrewardedUsdsFarm: real, endUsdsSupply: real)

  /** Add agent `a`'s value when it has been launched at all and is a farm agent. */
  function AddLaunchedFarm(total: real, a: AgentDefinition, launches: map<string, int>, sparkMarketCap: real): real {
    if LaunchOf(launches, a.name) > 0 && a.agentType.Farm? then total + AgentValue(a, sparkMarketCap) else total
  }

  /** The summed value of every farm agent with a positive launch month, whatever the current month. */
  function EndFarmable(agents: seq<AgentDefinition>, launches: map<string, int>, sparkMarketCap: real): real
    decreases |agents|
  {
    if |agents| == 0 then 0.0
    else AddLaunchedFarm(EndFarmable(agents[..|agents| - 1], launches, sparkMarketCap), agents[|agents| - 1],
                         launches, sparkMarketCap)
  }

  /**
   * The snapshot: end farmable value, the unrewarded USDS it attracts at the farm yield, and the
   * end supply. The division is unguarded, so the farm yield must not be zero.
   */
  function CalculateEndSnapshot(agents: seq<AgentDefinition>, launches: map<string, int>, sparkMarketCap: real,
                                endBaseUsds: real, farmEmissionRate: real, farmYield: real): (s: EndPeriodSnapshot)
    requires farmYield != 0.0
    ensures s.endFarmableTokens == EndFarmable(agents, launches, sparkMarketCap)
    ensures s.endUnrewardedUsdsFarm * farmYield == s.endFarmableTokens * farmEmissionRate
    ensures s.endUsdsSupply == endBaseUsds + s.endUnrewardedUsdsFarm
  {
    var farmable := EndFarmable(agents, launches, sparkMarketCap);
    var farm := (farmable * farmEmissionRate) / farmYield;
    EndPeriodSnapshot(farmable, farm, endBaseUsds + farm)
  }

  /** Every launched agent has launched by `month`. */
  predicate AllLaunchedBy(agents: seq<AgentDefinition>, launches: map<string, int>, month: int) {
    forall i :: 0 <= i < |agents| ==> LaunchOf(launches, agents[i].name) <= month
  }

  /**
   * The snapshot's farmable value is the monthly farm total of a month by which every agent has
   * launched: launch weighting plays no part at the end of the period.
   */
  lemma {:induction false} EndFarmableIsLateMonthFarmable(agents: seq<AgentDefinition>, launches: map<string, int>,
                                                        month: int, cap: real)
    requires AllLaunchedBy(agents, launches, month)
    ensures EndFarmable(agents, launches, cap) == AggregateActiveAgents(agents, launches, month, cap).0
    decreases |agents|
  {
    if |agents| > 0 {
      var front := agents[..|agents| - 1];
      assert forall i :: 0 <= i < |front| ==> front[i] == agents[i];
      assert AllLaunchedBy(front, launches, month);
      EndFarmableIsLateMonthFarmable(front, launches, month, cap);
      assert LaunchOf(launches, agents[|agents| - 1].name) <= month;
    }
  }

  /** Agents absent from the launch map never reach the snapshot. */
  lemma {:induction false} UnlaunchedAgentsExcluded(agents: seq<AgentDefinition>, launches: map<string, int>, cap: real)
    requires forall i :: 0 <= i < |agents| ==> agents[i].name !in launches
    ensures EndFarmable(agents, launches, cap) == 0.0
    decreases |agents|
  {
    if |agents| > 0 {
      var front := agents[..|agents| - 1];
      assert forall i :: 0 <= i < |front| ==> front[i] == agents[i];
      UnlaunchedAgentsExcluded(front, launches, cap);
    }
  }
}

=== FILE: srusdscost.dfy ===
/** srUSDS cost: a fixed annual expense for senior risk capital, spread evenly over the months. */
module SrusdsCost {
  import opened Wrappers
  import opened Inputs
  import opened Rates
  import opened ExtensionBase

  const DefaultAnnualCost: real := 5000000.0

  datatype SrusdsConfig = SrusdsConfig(annualCost: Option<real>)

  /** One twelfth of the annual cost as an expense, in every month. */
  function Calculate(enabled: bool, c: SrusdsConfig, month: int, inputs: Bag, rates: DerivedRates): (r: ExtensionResults)
    ensures CostOnly(r)
    ensures !enabled ==> r == NoEffect
    ensures enabled ==> 12.0 * r.costAdjustment == c.annualCost.GetOr(DefaultAnnualCost)
  {
    if !enabled then NoEffect
    else NoEffect.(costAdjustment := c.annualCost.GetOr(DefaultAnnualCost) / 12.0)
  }

  /** The cost depends on the configuration alone: not on the month, the inputs or the rates. */
  lemma CostIsConstant(c: SrusdsConfig, m1: int, i1: Bag, r1: DerivedRates, m2: int, i2: Bag, r2: DerivedRates)
    ensures Calculate(true, c, m1, i1, r1) == Calculate(true, c, m2, i2, r2)
  {
  }
}

=== FILE: subsidizedborrow.dfy ===
/** Subsidised borrowing: a fixed amount lent at a rate that moves from SOFR to the gross rate over a window. */
module SubsidizedBorrow {
  import opened Inputs
  import opened Wrappers
  import opened Rates
  import opened ExtensionBase

  const DefaultTotalAmount: real := 2000000000.0
  const DefaultStartMonth: int := 1
  const DefaultDurationMonths: int := 24

  datatype BorrowConfig = BorrowConfig(totalAmount: Option<real>, startMonth: Option<int>, durationMonths: Option<int>)

  function Amount(c: BorrowConfig): real { c.totalAmount.GetOr(DefaultTotalAmount) }
  function Start(c: BorrowConfig): int { c.startMonth.GetOr(DefaultStartMonth) }
  function Duration(c: BorrowConfig): int { c.durationMonths.GetOr(DefaultDurationMonths) }

  /** `month` lies in the subsidy window: at or after the start and fewer than `duration` months past it. */
  predicate InWindow(c: BorrowConfig, month: int) {
    0 <= month - Start(c) < Duration(c)
  }

  /** The subsidised rate's progress from SOFR to the gross rate: 0 in the first month, rising by 1/duration each month. */
  function Decay(c: BorrowConfig, month: int): (d: real)
    requires InWindow(c, month)
    ensures 0.0 <= d < 1.0
  {
    (month - Start(c)) as real / Duration(c) as real
  }

  /**
   * The monthly reimbursement: the gap between the gross rate and the subsidised rate on the
   * amount lent, only inside the window. The window test comes before the division, so the
   * duration is never divided by when it is zero.
   */
  function Calculate(enabled: bool, c: BorrowConfig, month: int, inputs: Bag, rates: DerivedRates): (r: ExtensionResults)
    ensures CostOnly(r)
    ensures !enabled || !InWindow(c, month) ==> r == NoEffect
    ensures enabled && InWindow(c, month) ==>
      12.0 * r.costAdjustment == Amount(c) * (1.0 - Decay(c, month)) * (rates.grossRevenueRate - Get(inputs, "sofr"))
  {
    if !enabled || !InWindow(c, month) then NoEffect
    else
      var sofr := Get(inputs, "sofr");
      var spread := rates.grossRevenueRate - sofr;
      var subsidizedRate := sofr + Decay(c, month) * spread;
      var monthlyCost := Amount(c) * (rates.grossRevenueRate - subsidizedRate) * MonthlyFactor;
      NoEffect.(costAdjustment := monthlyCost)
  }

  /** In the window's first month the subsidy covers the whole spread over SOFR. */
  lemma FirstMonthFullSpread(c: BorrowConfig, inputs: Bag, rates: DerivedRates)
    requires Duration(c) > 0
    ensures 12.0 * Calculate(true, c, Start(c), inputs, rates).costAdjustment
         == Amount(c) * (rates.grossRevenueRate - Get(inputs, "sofr"))
  {
  }

  /** Multiplying by a non-negative factor keeps an inequality. */
  lemma ScaleMonotone(x: real, y: real, k: real)
    requires x <= y && k >= 0.0
    ensures x * k <= y * k
  {
    assert (y - x) * k >= 0.0;
  }

  /** The decay factor grows through the window. */
  lemma DecayGrows(c: BorrowConfig, m1: int, m2: int)
    requires InWindow(c, m1) && InWindow(c, m2) && m1 <= m2
    ensures Decay(c, m1) <= Decay(c, m2)
  {
    var d := Duration(c) as real;
    var x1, x2 := (m1 - Start(c)) as real, (m2 - Start(c)) as real;
    assert x1 <= x2;
    assert Decay(c, m2) - Decay(c, m1) == (x2 - x1) / d;
  }

  /** With a non-negative amount and spread, the reimbursement never grows from one window month to a later one. */
  lemma CostDecays(c: BorrowConfig, m1: int, m2: int, inputs: Bag, rates: DerivedRates)
    requires InWindow(c, m1) && InWindow(c, m2) && m1 <= m2
    requires Amount(c) >= 0.0 && rates.grossRevenueRate >= Get(inputs, "sofr")
    ensures Calculate(true, c, m2, inputs, rates).costAdjustment <= Calculate(true, c, m1, inputs, rates).costAdjustment
  {
    DecayGrows(c, m1, m2);
    var spread := rates.grossRevenueRate - Get(inputs, "sofr");
    ScaleMonotone(1.0 - Decay(c, m2), 1.0 - Decay(c, m1), Amount(c));
    assert Amount(c) * (1.0 - Decay(c, m2)) <= Amount(c) * (1.0 - Decay(c, m1));
    ScaleMonotone(Amount(c) * (1.0 - Decay(c, m2)), Amount(c) * (1.0 - Decay(c, m1)), spread);
  }

  /** A non-positive duration means no subsidy in any month. */
  lemma NoDurationNoSubsidy(c: BorrowConfig, month: int, inputs: Bag, rates: DerivedRates)
    requires Duration(c) <= 0
    ensures Calculate(true, c, month, inputs, rates) == NoEffect
  {
  }
}

=== FILE: supply.dfy ===
/** USDS and sUSDS supply. */
module Supply {

  datatype SupplyInputs = SupplyInputs(
    baseUsds: real,
    unrewardedUsdsUser: real,
    farmableTokens: real,
    farmEmissionRate: real,
    farmYield: real)

  datatype SupplyCalculations = SupplyCalculations(
    unrewardedUsdsFarm: real,
    avgUsdsSupply: real,
    avgUnrewardedUsds: real,
    avgSusdsSupply: real)

  /**
   * Farm emissions attract unrewarded USDS in proportion to the emissions over the farm yield;
   * that USDS adds to the base supply, and sUSDS is the supply that is not unrewarded. The
   * division is unguarded, so the farm yield must not be zero.
   */
  function CalculateSupply(i: SupplyInputs): (s: SupplyCalculations)
    requires i.farmYield != 0.0
    ensures s.unrewardedUsdsFarm * i.farmYield == i.farmableTokens * i.farmEmissionRate
    ensures s.avgUsdsSupply == i.baseUsds + s.unrewardedUsdsFarm
    ensures s.avgUnrewardedUsds == i.unrewardedUsdsUser + s.unrewardedUsdsFarm
    ensures s.avgSusdsSupply + s.avgUnrewardedUsds == s.avgUsdsSupply
  {
    var farm := (i.farmableTokens * i.farmEmissionRate) / i.farmYield;
    var usds := i.baseUsds + farm;
    var unrewarded := i.unrewardedUsdsUser + farm;
    SupplyCalculations(farm, usds, unrewarded, usds - unrewarded)
  }

  /** The sUSDS supply is the base supply less the users' unrewarded USDS: farming cancels out. */
  lemma SusdsIndependentOfFarming(i: SupplyInputs)
    requires i.farmYield != 0.0
    ensures CalculateSupply(i).avgSusdsSupply == i.baseUsds - i.unrewardedUsdsUser
  {
  }

  /** Without farmable tokens the USDS supply is the base supply. */
  lemma NoFarmingNoBoost(i: SupplyInputs)
    requires i.farmYield != 0.0 && i.farmableTokens == 0.0
    ensures CalculateSupply(i).unrewardedUsdsFarm == 0.0
    ensures CalculateSupply(i).avgUsdsSupply == i.baseUsds
  {
  }

  /** With a positive yield and rate, more farmable tokens never lower the USDS supply. */
  lemma SupplyMonotoneInFarmable(i: SupplyInputs, more: real)
    requires i.farmYield > 0.0 && i.farmEmissionRate >= 0.0 && more >= i.farmableTokens
    ensures CalculateSupply(i).avgUsdsSupply <= CalculateSupply(i.(farmableTokens := more)).avgUsdsSupply
  {
    var j := i.(farmableTokens := more);
    assert i.farmableTokens * i.farmEmissionRate <= more * i.farmEmissionRate;
    assert (i.farmableTokens * i.farmEmissionRate) / i.farmYield <= (more * i.farmEmissionRate) / i.farmYield;
  }
}

=== FILE: tokenfarming.dfy ===
/** Token farming: stars distribute tokens to USDS holders, which attracts extra supply at the farm yield. */
module TokenFarming {
  import opened Wrappers
  import opened Inputs
  import opened Rates
  import opened ExtensionBase

  const DefaultDistributionRate: real := 0.175
  const DefaultFarmYieldSpread: real := 0.001
  const DefaultDurationMonths: int := 24
  const DefaultOwnership: real := 0.65
  const DefaultLaunchMonth: int := 1

  /** A star: Spark carries an absolute market cap, the others a share of Spark's. */
  datatype FarmStar = FarmStar(name: string, launchMonth: Option<int>, marketCap: Option<real>,
                               marketCapPct: Option<real>, ownership: Option<real>)

  /** The stars in configuration order (star names are the keys of a dictionary). */
  datatype FarmingConfig = FarmingConfig(distributionRate: Option<real>, farmYieldSpread: Option<real>,
                                         durationMonths: Option<int>, stars: seq<FarmStar>)

  /** The configured market cap of the star named "spark", or zero when there is none. */
  function SparkConfigCap(stars: seq<FarmStar>): (cap: real)
    ensures (forall i :: 0 <= i < |stars| ==> stars[i].name != "spark") ==> cap == 0.0
    ensures forall i :: (0 <= i < |stars| && stars[i].name == "spark" && (forall j :: 0 <= j < i ==> stars[j].name != "spark"))
                        ==> cap == stars[i].marketCap.GetOr(0.0)
  {
    if |stars| == 0 then 0.0
    else if stars[0].name == "spark" then stars[0].marketCap.GetOr(0.0)
    else
      assert forall i :: 1 <= i < |stars| ==> stars[i] == stars[1..][i - 1];
      SparkConfigCap(stars[1..])
  }

  /** Spark's market cap: the `spark_market_cap` input, else Spark's configured cap, else zero. */
  function SparkMarketCap(c: FarmingConfig, inputs: Bag): real {
    GetOr(inputs, "spark_market_cap", SparkConfigCap(c.stars))
  }

  /** The farm yield: the savings rate plus the farm spread. */
  function FarmYield(c: FarmingConfig, rates: DerivedRates): real {
    rates.savingsRate + c.farmYieldSpread.GetOr(DefaultFarmYieldSpread)
  }

  /** Star `s` distributes in `month`: launched, and fewer than the distribution duration months ago. */
  predicate Distributing(c: FarmingConfig, s: FarmStar, month: int) {
    0 <= month - s.launchMonth.GetOr(DefaultLaunchMonth) < c.durationMonths.GetOr(DefaultDurationMonths)
  }

  /** A star's market cap: Spark's own, or its share of Spark's. */
  function StarCap(s: FarmStar, sparkCap: real): real {
    if s.name == "spark" then sparkCap else sparkCap * s.marketCapPct.GetOr(0.0)
  }

  /** One star's monthly distribution: the distribution rate of Sky's holdings, for one month, while distributing. */
  function StarDistribution(c: FarmingConfig, s: FarmStar, month: int, sparkCap: real): real {
    if Distributing(c, s, month) then
      StarCap(s, sparkCap) * s.ownership.GetOr(DefaultOwnership) * c.distributionRate.GetOr(DefaultDistributionRate) * MonthlyFactor
    else 0.0
  }

  /** The monthly distribution of all `stars`. */
  function TotalDistribution(c: FarmingConfig, stars: seq<FarmStar>, month: int, sparkCap: real): real
    decreases |stars|
  {
    if |stars| == 0 then 0.0
    else TotalDistribution(c, stars[..|stars| - 1], month, sparkCap) + StarDistribution(c, stars[|stars| - 1], month, sparkCap)
  }

  /**
   * The supply boost: the capital that, earning the farm yield for a month, would absorb the
   * month's distributions. No boost when disabled, when the farm yield is not positive, or when
   * nothing positive is distributed. Only the supply is touched.
   */
  function Calculate(enabled: bool, c: FarmingConfig, month: int, inputs: Bag, rates: DerivedRates): (r: ExtensionResults)
    ensures SupplyOnly(r)
    ensures !enabled || FarmYield(c, rates) <= 0.0 ==> r == NoEffect
    ensures var total := TotalDistribution(c, c.stars, month, SparkMarketCap(c, inputs));
      && (enabled && FarmYield(c, rates) > 0.0 && total > 0.0 ==> r.supplyBoost * FarmYield(c, rates) == 12.0 * total)
      && (total <= 0.0 ==> r.supplyBoost == 0.0)
  {
    if !enabled then NoEffect
    else
      var fy := FarmYield(c, rates);
      if fy <= 0.0 then NoEffect
      else
        var total := TotalDistribution(c, c.stars, month, SparkMarketCap(c, inputs));
        NoEffect.(supplyBoost := if total > 0.0 then total / (fy * MonthlyFactor) else 0.0)
  }

  /** The distribution of a concatenation of star lists is the sum of theirs. */
  lemma {:induction false} TotalDistributionAppend(c: FarmingConfig, a: seq<FarmStar>, b: seq<FarmStar>, month: int, cap: real)
    ensures TotalDistribution(c, a + b, month, cap) == TotalDistribution(c, a, month, cap) + TotalDistribution(c, b, month, cap)
    decreases |b|
  {
    if |b| == 0 {
      assert a + b == a;
    } else {
      var front := b[..|b| - 1];
      assert (a + b)[..|a + b| - 1] == a + front;
      assert (a + b)[|a + b| - 1] == b[|b| - 1];
      TotalDistributionAppend(c, a, front, month, cap);
    }
  }

  /** Stars that are not distributing this month contribute nothing. */
  lemma {:induction false} IdleStarsDistributeNothing(c: FarmingConfig, stars: seq<FarmStar>, month: int, cap: real)
    requires forall i :: 0 <= i < |stars| ==> !Distributing(c, stars[i], month)
    ensures TotalDistribution(c, stars, month, cap) == 0.0
    decreases |stars|
  {
    if |stars| > 0 {
      var front := stars[..|stars| - 1];
      assert forall i :: 0 <= i < |front| ==> front[i] == stars[i];
      IdleStarsDistributeNothing(c, front, month, cap);
    }
  }

  /** Spark alone at a 250M market cap and 65% ownership, savings rate 4%, defaults otherwise, month 1. */
  lemma SparkOnlyExample(rates: DerivedRates)
    requires rates.savingsRate == 0.04
    ensures var spark := FarmStar("spark", Some(1), Some(250000000.0), None, Some(0.65));
      var c := FarmingConfig(Some(0.175), Some(0.001), Some(24), [spark]);
      Calculate(true, c, 1, map[], rates).supplyBoost == 250000000.0 * 0.65 * 0.175 / 0.041
  {
    var spark := FarmStar("spark", Some(1), Some(250000000.0), None, Some(0.65));
    var c := FarmingConfig(Some(0.175), Some(0.001), Some(24), [spark]);
    assert [spark][..0] == [];
    assert SparkConfigCap(c.stars) == 250000000.0;
    assert TotalDistribution(c, c.stars, 1, 250000000.0) == 250000000.0 * 0.65 * 0.175 / 12.0;
  }
}

=== FILE: trajectories.dfy ===
/** Sparse month-to-value control points, evaluated by step-hold or linear interpolation. */
module Trajectories {
  import opened Wrappers
  import opened Keys

  /** How a trajectory fills the months between control points; `Other` is any unrecognised mode name. */
  datatype Mode = Step | Linear | Other(name: string)

  datatype Trajectory = Trajectory(points: map<int, real>, mode: Mode)

  /** Some control point lies strictly before `month` and another strictly after it. */
  predicate StrictlyInside(points: map<int, real>, month: int) {
    exists a, b :: a in points && b in points && a < month < b
  }

  /** `p` and `n` are adjacent control points (no key strictly between them) enclosing `month`. */
  predicate Bracket(points: map<int, real>, p: int, n: int, month: int) {
    && p in points && n in points
    && p <= month < n
    && forall k :: k in points ==> k <= p || n <= k
  }

  /** The straight line through (prevMonth, prevValue) and (nextMonth, nextValue), read at `month`. */
  function Interpolate(prevMonth: int, prevValue: real, nextMonth: int, nextValue: real, month: int): real
    requires prevMonth < nextMonth
  {
    var progress := (month - prevMonth) as real / (nextMonth - prevMonth) as real;
    prevValue + (nextValue - prevValue) * progress
  }

  /** The greatest control point at or before `month`. */
  function PrevKey(points: map<int, real>, month: int): (p: int)
    requires exists k :: k in points && k <= month
    ensures p in points && p <= month
    ensures forall k :: k in points && k <= month ==> k <= p
  {
    var below := set k | k in points && k <= month;
    var w :| w in points && w <= month;
    assert w in below;
    assert forall k :: k in points && k <= month ==> k in below;
    MaxKey(below)
  }

  /** The least control point after `month`. */
  function NextKey(points: map<int, real>, month: int): (n: int)
    requires exists k :: k in points && month < k
    ensures n in points && month < n
    ensures forall k :: k in points && month < k ==> n <= k
  {
    var above := set k | k in points && month < k;
    var w :| w in points && month < w;
    assert w in above;
    assert forall k :: k in points && month < k ==> k in above;
    MinKey(above)
  }

  /** A map with at least one entry has at least one key. */
  lemma KeysOfNonEmpty(points: map<int, real>)
    requires |points| > 0
    ensures points.Keys != {}
  {
    assert |points.Keys| == |points|;
  }

  /**
   * The trajectory's value at `month`: clamped to the first (last) control point before
   * (after) the control points; in between, the value of the preceding point (step) or the
   * interpolation between the two neighbouring points (linear). An empty point set fails, and
   * an unknown mode fails exactly when the month lies strictly inside the control points.
   */
  function TrajectoryValue(t: Trajectory, month: int): (r: Result<real>)
    ensures |t.points| == 0 ==> r == Failure(EmptyTrajectory)
    ensures r.Failure? <==> (|t.points| == 0 || (t.mode.Other? && StrictlyInside(t.points, month)))
    ensures r.Failure? && |t.points| > 0 ==> r.error == UnknownMode
  {
    if |t.points| == 0 then
      Failure(EmptyTrajectory)
    else
      KeysOfNonEmpty(t.points);
      var first := MinKey(t.points.Keys);
      var last := MaxKey(t.points.Keys);
      if month <= first then
        assert !StrictlyInside(t.points, month);
        Success(t.points[first])
      else if month >= last then
        assert !StrictlyInside(t.points, month);
        Success(t.points[last])
      else
        var p := PrevKey(t.points, month);
        var n := NextKey(t.points, month);
        assert StrictlyInside(t.points, month) by {
          assert first < month < last;
        }
        match t.mode
        case Step => Success(t.points[p])
        case Linear => Success(Interpolate(p, t.points[p], n, t.points[n], month))
        case Other(_) => Failure(UnknownMode)
  }

  /** At or before the first control point, and at or after the last, the value is clamped to it, in every mode. */
  lemma TrajectoryClamps(t: Trajectory, k: int, month: int)
    requires k in t.points
    requires (IsLower(k, t.points.Keys) && month <= k) || (IsUpper(k, t.points.Keys) && k <= month)
    ensures TrajectoryValue(t, month) == Success(t.points[k])
  {
    KeysOfNonEmpty(t.points);
    var first := MinKey(t.points.Keys);
    var last := MaxKey(t.points.Keys);
    if IsLower(k, t.points.Keys) && month <= k {
      assert first == k;
    } else {
      assert last == k;
    }
  }

  /**
   * Between adjacent control points p <= month < n: step mode holds the value at p, linear
   * mode interpolates between p and n.
   */
  lemma TrajectoryBetween(t: Trajectory, p: int, n: int, month: int)
    requires Bracket(t.points, p, n, month)
    ensures t.mode.Step? ==> TrajectoryValue(t, month) == Success(t.points[p])
    ensures t.mode.Linear? ==>
      TrajectoryValue(t, month) == Success(Interpolate(p, t.points[p], n, t.points[n], month))
  {
    KeysOfNonEmpty(t.points);
    var first := MinKey(t.points.Keys);
    var last := MaxKey(t.points.Keys);
    if month <= first {
      assert p == first && month == p;
    } else {
      assert month < last;
      assert PrevKey(t.points, month) == p;
      assert NextKey(t.points, month) == n;
    }
  }

  /** Between its two endpoints, linear interpolation stays between the two endpoint values. */
  lemma InterpolateBetween(pm: int, pv: real, nm: int, nv: real, month: int)
    requires pm <= month <= nm && pm < nm
    ensures pv <= nv ==> pv <= Interpolate(pm, pv, nm, nv, month) <= nv
    ensures nv <= pv ==> nv <= Interpolate(pm, pv, nm, nv, month) <= pv
    ensures month == pm ==> Interpolate(pm, pv, nm, nv, month) == pv
    ensures month == nm ==> Interpolate(pm, pv, nm, nv, month) == nv
  {
    var d := (nm - pm) as real;
    var progress := (month - pm) as real / d;
    assert 0.0 <= progress <= 1.0 by {
      assert (month - pm) as real <= d;
    }
    var delta := nv - pv;
    if delta >= 0.0 {
      assert 0.0 <= delta * progress <= delta;
    } else {
      assert delta <= delta * progress <= 0.0;
    }
  }

  /** At the exact midpoint of two control points the linear value is the average of theirs. */
  lemma InterpolateMidpoint(pm: int, pv: real, nm: int, nv: real, month: int)
    requires pm < nm && 2 * month == pm + nm
    ensures Interpolate(pm, pv, nm, nv, month) == (pv + nv) / 2.0
  {
    var d := (nm - pm) as real;
    assert (month - pm) as real == d / 2.0;
    assert (month - pm) as real / d == 1.0 / 2.0;
  }

  /** A linear trajectory inside two adjacent control points takes a value between theirs. */
  lemma LinearStaysBetweenNeighbours(t: Trajectory, p: int, n: int, month: int)
    requires t.mode.Linear? && Bracket(t.points, p, n, month)
    ensures TrajectoryValue(t, month).Success?
    ensures var v := TrajectoryValue(t, month).value;
      (t.points[p] <= t.points[n] ==> t.points[p] <= v <= t.points[n]) &&
      (t.points[n] <= t.points[p] ==> t.points[n] <= v <= t.points[p])
  {
    TrajectoryBetween(t, p, n, month);
    InterpolateBetween(p, t.points[p], n, t.points[n], month);
  }

  /** A linear trajectory read half-way between adjacent control points a and b yields (a + b) / 2. */
  lemma LinearMidpoint(t: Trajectory, p: int, n: int)
    requires t.mode.Linear? && p in t.points && n in t.points && p < n && (p + n) % 2 == 0
    requires forall k :: k in t.points ==> k <= p || n <= k
    ensures TrajectoryValue(t, (p + n) / 2) == Success((t.points[p] + t.points[n]) / 2.0)
  {
    var month := (p + n) / 2;
    assert Bracket(t.points, p, n, month);
    TrajectoryBetween(t, p, n, month);
    InterpolateMidpoint(p, t.points[p], n, t.points[n], month);
  }

  /** A step trajectory only ever takes the value of one of its control points. */
  lemma StepTakesPointValues(t: Trajectory, month: int)
    requires t.mode.Step? && |t.points| > 0
    ensures TrajectoryValue(t, month).Success?
    ensures TrajectoryValue(t, month).value in t.points.Values
  {
    KeysOfNonEmpty(t.points);
    var first := MinKey(t.points.Keys);
    var last := MaxKey(t.points.Keys);
    if month <= first {
      TrajectoryClamps(t, first, month);
    } else if month >= last {
      TrajectoryClamps(t, last, month);
    } else {
      var p := PrevKey(t.points, month);
      var n := NextKey(t.points, month);
      assert Bracket(t.points, p, n, month);
      TrajectoryBetween(t, p, n, month);
    }
  }
}

=== FILE: usdtsubsidy.dfy ===
/** USDT liquidity subsidy: PSM income forgone on an amount of USDS set aside for USDT liquidity. */
module UsdtSubsidy {
  import opened Wrappers
  import opened Inputs
  import opened Rates
  import opened ExtensionBase

  const DefaultAmount: real := 150000000.0
  const DefaultPsmSpread: real := -0.003

  datatype UsdtConfig = UsdtConfig(amount: Option<real>, psmSpread: Option<real>)

  /** The subsidised amount: the `usdt_subsidy_amount` input, else the configured amount, else 150M. */
  function Amount(c: UsdtConfig, inputs: Bag): real {
    GetOr(inputs, "usdt_subsidy_amount", c.amount.GetOr(DefaultAmount))
  }

  /** The monthly PSM income forgone on the amount (negative when the PSM rate is negative). */
  function Foregone(c: UsdtConfig, inputs: Bag): real {
    Amount(c, inputs) * (Get(inputs, "sofr") + c.psmSpread.GetOr(DefaultPsmSpread)) * MonthlyFactor
  }

  /**
   * Forgone income is booked as a cost when positive, and a negative forgone income as extra
   * gross revenue: either way gross minus cost is minus the forgone income, and neither side is
   * ever negative.
   */
  function Calculate(enabled: bool, c: UsdtConfig, month: int, inputs: Bag, rates: DerivedRates): (r: ExtensionResults)
    ensures RevenueOnly(r)
    ensures !enabled || Amount(c, inputs) <= 0.0 ==> r == NoEffect
    ensures enabled && Amount(c, inputs) > 0.0 ==> r.grossRevenueAdjustment - r.costAdjustment == -Foregone(c, inputs)
    ensures r.grossRevenueAdjustment >= 0.0 && r.costAdjustment >= 0.0
    ensures r.grossRevenueAdjustment == 0.0 || r.costAdjustment == 0.0
  {
    if !enabled || Amount(c, inputs) <= 0.0 then NoEffect
    else
      var f := Foregone(c, inputs);
      NoEffect.(costAdjustment := if f > 0.0 then f else 0.0,
                grossRevenueAdjustment := if f < 0.0 then -f else 0.0)
  }

  /** Twelve months of the net effect forgo the PSM rate on the amount for a year. */
  lemma NetEffectAnnualised(c: UsdtConfig, month: int, inputs: Bag, rates: DerivedRates)
    requires Amount(c, inputs) > 0.0
    ensures var r := Calculate(true, c, month, inputs, rates);
      12.0 * (r.costAdjustment - r.grossRevenueAdjustment)
      == Amount(c, inputs) * (Get(inputs, "sofr") + c.psmSpread.GetOr(DefaultPsmSpread))
  {
  }

  /** When the PSM rate is zero, nothing is forgone. */
  lemma ZeroPsmRateNoEffect(c: UsdtConfig, month: int, inputs: Bag, rates: DerivedRates)
    requires Get(inputs, "sofr") + c.psmSpread.GetOr(DefaultPsmSpread) == 0.0
    ensures Calculate(true, c, month, inputs, rates) == NoEffect
  {
  }
}

=== FILE: waterfall.dfy ===
/** The treasury waterfall: security budget, then backstop contribution and staking rewards. */
module Waterfall {

  datatype WaterfallInputs = WaterfallInputs(netRevenue: real, securityRate: real, backstopRate: real, backstopWithdrawal: real)

  datatype WaterfallResults = WaterfallResults(
    securityBudget: real,
    afterSecurity: real,
    backstopContribution: real,
    backstopWithdrawal: real,
    netBackstopChange: real,
    stakingRewards: real,
    netProfit: real)

  /**
   * Split net revenue: the security share first, the rest between backstop and stakers by the
   * backstop rate. Net revenue is conserved, net profit is what is left after security, and the
   * withdrawal only lowers the backstop change.
   */
  function CalculateWaterfall(i: WaterfallInputs): (w: WaterfallResults)
    ensures w.securityBudget == i.netRevenue * i.securityRate
    ensures w.securityBudget + w.backstopContribution + w.stakingRewards == i.netRevenue
    ensures w.afterSecurity == i.netRevenue - w.securityBudget
    ensures w.backstopContribution == w.afterSecurity * i.backstopRate
    ensures w.netProfit == w.afterSecurity
    ensures w.backstopWithdrawal == i.backstopWithdrawal
    ensures w.netBackstopChange + i.backstopWithdrawal == w.backstopContribution
  {
    var security := i.netRevenue * i.securityRate;
    var after := i.netRevenue - security;
    var contribution := after * i.backstopRate;
    var staking := after * (1.0 - i.backstopRate);
    WaterfallResults(security, after, contribution, i.backstopWithdrawal, contribution - i.backstopWithdrawal,
                     staking, contribution + staking)
  }

  /** The withdrawal changes nothing but the withdrawal echoed and the net backstop change. */
  lemma WithdrawalIndependence(i: WaterfallInputs, withdrawal: real)
    ensures var a := CalculateWaterfall(i);
      var b := CalculateWaterfall(i.(backstopWithdrawal := withdrawal));
      a.securityBudget == b.securityBudget && a.backstopContribution == b.backstopContribution
      && a.stakingRewards == b.stakingRewards && a.netProfit == b.netProfit
      && a.netBackstopChange - b.netBackstopChange == withdrawal - i.backstopWithdrawal
  {
  }

  /** No floors: with both rates in [0, 1], a loss flows through as non-positive security, contribution and staking. */
  lemma LossesFlowThrough(i: WaterfallInputs)
    requires i.netRevenue <= 0.0
    requires 0.0 <= i.securityRate <= 1.0 && 0.0 <= i.backstopRate <= 1.0
    ensures var w := CalculateWaterfall(i);
      w.securityBudget <= 0.0 && w.backstopContribution <= 0.0 && w.stakingRewards <= 0.0
  {
    var w := CalculateWaterfall(i);
    NonPositiveTimesNonNegative(i.netRevenue, i.securityRate);
    NonPositiveTimesNonNegative(i.netRevenue, 1.0 - i.securityRate);
    assert w.afterSecurity == i.netRevenue * (1.0 - i.securityRate);
    NonPositiveTimesNonNegative(w.afterSecurity, i.backstopRate);
    NonPositiveTimesNonNegative(w.afterSecurity, 1.0 - i.backstopRate);
    assert w.stakingRewards == w.afterSecurity * (1.0 - i.backstopRate);
  }

  lemma NonPositiveTimesNonNegative(a: real, b: real)
    requires a <= 0.0 <= b
    ensures a * b <= 0.0
  {
    assert (-a) * b >= 0.0;
  }
}

=== FILE: wrappers.dfy ===
/** Optional values, failure-compatible results and the error kinds of the forecast core. */
module Wrappers {

  /** A value that may be absent: a Python `None` or a missing dictionary key. */
  datatype Option<T> = None | Some(value: T) {

    /** The wrapped value, or `default` when absent (Python's `d.get(key, default)`). */
    function GetOr(default: T): T {
      match this
      case Some(v) => v
      case None => default
    }
  }

  /** The ways scenario resolution or a month's calculation can fail. */
  datatype Error =
    | UnknownPeriod        // a period token that is neither a name nor an integer (ValueError)
    | EmptyPeriod          // a custom period whose month list is empty (IndexError)
    | EmptyTrajectory      // a trajectory without control points
    | UnknownMode          // a trajectory mode other than step or linear
    | InvalidTrajectory    // some trajectory of a scenario could not be evaluated
    | InvalidLaunchMonth   // some agent launch names an unresolvable period
    | MissingParent        // `extends` names a scenario the loader does not know
    | InheritanceTooDeep   // the `extends` chain did not end within the fuel given
    | DivisionByZero       // a Decimal division by zero

  /** Either a value or an error; usable with `:-`. */
  datatype Result<T> = Success(value: T) | Failure(error: Error) {

    predicate IsFailure() {
      Failure?
    }

    function PropagateFailure<U>(): Result<U>
      requires Failure?
    {
      Failure(error)
    }

    function Extract(): T
      requires Success?
    {
      value
    }
  }
}
